=== FILE: README.md ===
# etherfi-teku-sync-client in Dafny

A model of the bid-discovery, key-unwrap and custody logic of the
etherfi-teku-sync-client. The client finds the validators won by one
operator's bids and unwraps each validator key. It then puts the key where
the operator's Teku nodes load it and tells Teku to reload.

Every effect outside the program is data the model is given:

- the Ethereum node's event logs, with the query attempts that fail;
- the secret store, as a map from normalised public key to value;
- the indexer's data set, with the page requests that fail;
- the filesystem, as a set of directories and a map from path to contents;
- the Docker listing, with the containers whose signal fails;
- the ciphers, PBKDF2, the secp256k1 arithmetic, UTF-8 decoding and
  `JSON.parse`.

The modules follow the source files.

- `ChunkScan` and `ContractScanner` model `src/contract-scanner.js`.
  - `ChunkScan` covers the block range cut into chunks, chunks grouped into
    batches, and three attempts per chunk with waits of 1000 and 2000 ms.
  - `ContractScanner` covers the start block taken from the stored
    checkpoint and the "already up to date" exit.
  - It also covers the two scans and the `bidId -> pubKeyIndex` join.
  - It also covers the checkpoint write.
  - `retrieveAllCleanupBidsIterated` is `ContractScanner.RetrieveAllCleanupBidsIterated`, which returns no bids, as the source does.
- `Decrypt` models `src/decrypt.js`.
  - It covers the `iv:ciphertext[:tag]` formats and the choice between
    AES-256-CBC and AES-256-GCM.
  - It covers the 32-byte big-endian ECDH key (Integer-to-Octet-String
    conversion, section 2.3.7 of SEC 1 v2).
  - It covers the PBKDF2 key of the keypair file and the selection of the
    keypair by index.
- `Vault` models `src/vault.js`: public-key normalisation and the
  exists / delete / create-only store operations.
- `BlockTracker` models `src/vault-block-tracker.js`: how the checkpoint is
  read, and how it is merged when written.
- `Subgraph` models `src/subgraph.js`: the two phase filters and the
  page-by-page loop.
- `CronDetect` models `run` in `src/cron-detect.js`.
- `FileStore` models `src/file.js`.
- `Config` models `src/config.js`.
- `Teku` models `src/teku.js`.
- The shared modules are:
  - `Results` (`Option`, `Result`);
  - `Text` (JavaScript's `split`, `join`, `trim`, `toLowerCase`, `replace`);
  - `JsNumbers` (`String(n)`, `parseInt`);
  - `Bytes` (hex text, big-endian integers);
  - `Json`, `Bids` and `Seqs`.

Two behaviours of the code are worth stating up front.

- **Payload cipher.** The payload cipher is chosen once for all three
  fields: CBC only when every field has exactly two pieces, GCM for all
  three otherwise (`Decrypt.PayloadMode`, `Decrypt.MixedPayloadFails`).
- **Reloads.** A reload follows every new bid, and nothing remembers a
  failed one: the first failure ends the run.

## Model

| member | source | states |
|---|---|---|
| ChunkScan.Chunks | src/contract-scanner.js:175-186 | The chunks start at the first block and end at the last. They are contiguous, each within the range. All but the last have exactly the chunk size and the last at most that. An empty range has no chunk. |
| ChunkScan.ChunkCount | src/contract-scanner.js:175-186 | There are ceil((to - from + 1) / chunkSize) chunks. |
| ChunkScan.TryFrom | src/contract-scanner.js:225-244 | From a given attempt on, the attempts end at the first that succeeds, with the chunk's events unchanged. Every earlier attempt failed. Failing all gives the error built from the last attempt's message after attempt 3. Wait i is 1000 * 2^(attempt+i-1) ms. |
| ChunkScan.QueryChunkWithRetry | src/contract-scanner.js:221-245 | A chunk query succeeds exactly when one of attempts 1 to 3 succeeds, and returns the chunk's events. It makes at most 3 attempts, every one before the successful one having failed. After three failures the error names the chunk and carries the third message. The waits are 1000 then 2000 ms, with none after the last attempt. |
| ChunkScan.Batches | src/contract-scanner.js:193-194 | Concatenating the batches gives back the chunk list. Each batch holds 1 to maxParallel chunks, all but the last exactly maxParallel, and there are ceil(chunks / maxParallel) batches. |
| ChunkScan.RunBatch | src/contract-scanner.js:197-204 | A batch succeeds exactly when every chunk of it does. Its events are the chunks' events concatenated in chunk order. |
| ChunkScan.RunBatches | src/contract-scanner.js:193-207 | A successful scan queried every chunk of every batch. Its events are all chunks' events in chunk order. |
| ChunkScan.RunBatchesSucceeds | src/contract-scanner.js:193-207 | The batch loop succeeds exactly when every batch succeeds. |
| ChunkScan.RunBatchesStopsAtFailure | src/contract-scanner.js:193-207 | A failed scan stopped at its first failing batch: every earlier batch succeeded, and the error is that batch's. The chunks queried are exactly those of the batches up to and including it, so no later batch is queried. |
| ChunkScan.ChunksCoverRange | src/contract-scanner.js:175-186 | On a block-ordered log, reading the chunks one after another gives exactly the events of the whole range, in order. |
| ChunkScan.ScanReturnsRange | src/contract-scanner.js:171-208 | A successful `scanEventInChunks` over a block-ordered log returns exactly the events of `from..to` in log order, having queried every chunk. |
| ChunkScan.ScanFailsIffChunkExhausted | src/contract-scanner.js:193-244 | A scan fails exactly when some chunk of the range fails all three attempts. |
| ChunkScan.RetryGivesUpIffExhausted | src/contract-scanner.js:225-244 | One chunk's retries give up exactly when all three attempts fail. |
| ChunkScan.ExhaustedChunkFailsBatch | src/contract-scanner.js:197-199 | A chunk that fails all attempts makes its batch fail. |
| ChunkScan.RecoverableChunksPassBatches | src/contract-scanner.js:197-199 | When no chunk fails all attempts, every batch succeeds. |
| ChunkScan.ExampleTenThousandFiftyBlocks | src/contract-scanner.js:175-195 | Blocks 1 to 10050 in chunks of 5000 make three chunks, the last of 50 blocks. With 2 in parallel they form two batches. |
| ContractScanner.EventIndexAtLastPosition | src/contract-scanner.js:97-101 | After one BidCreated event, an id maps to the `ipfsIndexArray` entry at its own position in `bidIdArray`, or to `NaN` when the index array is shorter. An id listed twice takes the entry of its last position. |
| ContractScanner.Assign | src/contract-scanner.js:93-103 | The map's keys after the loop are the prior keys plus every assigned id. |
| ContractScanner.AssignLastWrite | src/contract-scanner.js:93-103 | A key's value after the loop is the one from its last assignment, with no later assignment to it. A key never assigned keeps its prior presence and value. |
| ContractScanner.MissingIndexDefaultsToZero | src/contract-scanner.js:275 | An id missing from the map gets `pubKeyIndex` `"0"`. An id mapped to `NaN` keeps `"NaN"`, since `??` replaces only a missing entry. |
| ContractScanner.BidOf | src/contract-scanner.js:274-294 | The bid id and validator id are the decimal validator id. `pubKeyIndex` is the joined index. The bidder address is the operator lower-cased, so it has no upper-case letter and the operator's length. The phase is `LIVE`. The public key is `0x` + lower-case hex. The IPFS hash and the two NFT owners are copied. |
| ContractScanner.Transform | src/contract-scanner.js:257-312 | The transform completes exactly when every event has arguments and is decodable, or can at least have its `validatorId` read by the handler. It yields at most one bid per event, all `LIVE`. |
| ContractScanner.TransformAllDecoded | src/contract-scanner.js:257-312 | With every registration decodable, the result is exactly one bid per event, in event order, each built from that event. |
| ContractScanner.TransformDropsUndecodable | src/contract-scanner.js:305-308 | A registration that throws inside the `try` but whose id is readable is dropped, and the rest is transformed as if it were absent. |
| ContractScanner.JoinUsesLastBidCreated | src/contract-scanner.js:89-103 | A registration's `pubKeyIndex` is the index of the last BidCreated assignment of its id in the same range, or `0` when there is none. |
| ContractScanner.ScannedIndexSelectsKeypair | src/decrypt.js:108-114 | The scanner's printed `pubKeyIndex` is read back by `parseInt` to select the keypair at that index. A `NaN` index selects no keypair. |
| ContractScanner.EffectiveStart | src/contract-scanner.js:48-60 | The resume block is never below START_BLOCK. It is the stored block when that is nonzero and at least START_BLOCK. No checkpoint, `NaN`, 0 or a block below START_BLOCK gives START_BLOCK. |
| ContractScanner.RetrieveAllBidsIterated | src/contract-scanner.js:25-136 | An unreadable checkpoint ends the pass with that error, before any query. A resume block at or past the finalized block returns `[]`, with no query and no write. A chunk of the range that fails all three attempts, in either scan, fails the pass with no write. On block-ordered logs the pass succeeds exactly when the checkpoint is readable and either nothing is left to scan, or no chunk is exhausted, the range's events decode and the checkpoint write cannot fail. A write happens only in vault mode, and only for a pass that succeeds; every successful vault-mode pass that scanned writes. Reading back the written record gives exactly the finalized block, above the old checkpoint. On block-ordered logs, the bids are exactly those of the whole range from the resume block + 1 to the finalized block. |
| ContractScanner.WrittenCheckpointAdvances | src/contract-scanner.js:128-131 | After a pass writes, the checkpoint it started from lay below the finalized block. The next pass reads the finalized block back and resumes there, so the checkpoint strictly increases. |
| ContractScanner.NothingToScan | src/contract-scanner.js:63-68 | A range that begins after the finalized block holds no bids, so the early `[]` is exactly the range's bids. |
| ContractScanner.ScanRange | src/contract-scanner.js:73-131 | Something is always queried. A failed BidCreated scan, which happens exactly when one of its chunks is exhausted, ends the pass with a query error, no ValidatorRegistered query and no write. An exhausted ValidatorRegistered chunk also fails the pass with no write. A success in vault mode writes the finalized block. On ordered logs the pass succeeds exactly when no chunk of either scan is exhausted, the range's events decode and the checkpoint write cannot fail, and the bids are then the range's. |
| ContractScanner.ScanRegistrations | src/contract-scanner.js:107-131 | The checkpoint is written, with the finalized block, exactly for successful vault-mode passes. An exhausted chunk fails the pass with a query error and no write. On an ordered log the pass succeeds exactly when no chunk is exhausted, the transform of the range's registrations against the map completes, and local mode skips the write or `setLastScannedBlock` succeeds; the bids are then that transform. |
| ContractScanner.ReadBackWritten | src/vault-block-tracker.js:28-33 | A record whose `lastScannedBlock` is the number n reads back as block n. |
| BlockTracker.GetLastScannedBlock | src/vault-block-tracker.js:28-44 | A present, non-null `lastScannedBlock` is parsed base 10. A missing or null field, a body without data and a 404 all give no checkpoint, and only those do. Every other failure propagates unchanged. |
| BlockTracker.SetLastScannedBlock | src/vault-block-tracker.js:55-100 | A non-404 HTTP error on the preliminary read aborts with that error. A 404 or a failure without a response starts from `{}`. An unreadable token or a failed write fails. The record written has the prior keys plus the two set ones. `lastScannedBlock` is n and `lastUpdated` the time stamp, with every other prior field unchanged. |
| BlockTracker.SetThenGet | src/vault-block-tracker.js:28-80 | A successful `set(n)` followed by `get()` returns n, whatever the secret held before. |
| Config.RestartMode | src/config.js:11 | An unset or empty restart mode reads as `none`. Any other value is taken as it is, so the mode is never empty. |
| Config.GetConfig | src/config.js:3-34 | The result is `Ok` exactly when all seven required variables are set and the mode is supported. A missing variable fails with the env error before the mode is checked. Otherwise an unsupported mode fails with the mode error. On success every value is returned unchanged, and the mode is the variable's value or `none`. |
| Config.GetConfigRoundTrip | src/config.js:13-33 | Every configuration with a supported mode, empty strings included, reads back unchanged from its environment. Leaving the mode unset reads as `none`. |
| Decrypt.CbcCiphertextAfterFirstColon | src/decrypt.js:8-10 | The CBC iv is the text before the first `:`. The ciphertext is all the rest, further `:` included. |
| Decrypt.ParseGcm | src/decrypt.js:21-25 | A GCM text parses exactly when it has at least two `:`, that is, at least three pieces. |
| Decrypt.PayloadMode | src/decrypt.js:83-90 | The payload is read as CBC exactly when all three fields have exactly one `:`, otherwise as GCM for all three. |
| Decrypt.GetKeyPairByPubKeyIndex | src/decrypt.js:108-114 | The lookup throws exactly when a key set is `undefined` or `null`. Both keys are taken at the same `parseInt` index. For arrays, an index that is `NaN` or out of range gives an absent entry, not an error. |
| Decrypt.ElementAt | src/decrypt.js:111-112 | An entry is found only in an array, a string or an object. It is an element of the array, one character of the string, or a field value of the object. A `NaN` index finds nothing except an object's `"NaN"` field. |
| Decrypt.KeyPairFromStrings | src/decrypt.js:108-114 | Key sets that are strings do not throw: a printed index within both selects one character of each. |
| Decrypt.KeyPairAtPrintedIndex | src/decrypt.js:108-114 | A decimal index within both arrays selects the private and public key at that position. |
| Decrypt.SharedKey | src/decrypt.js:76-81 | The key exists exactly when the private scalar is nonzero, the staker's key gives a point with a finite product, and x < 2^256. It is then x as exactly 32 big-endian bytes. |
| Decrypt.DecryptValidatorKeyInfo | src/decrypt.js:74-106 | A result means all three fields decrypted under the one shared key in the one payload mode. The key file is the JSON of the first field. The password and keystore name are the plaintexts of the second and third. |
| Decrypt.AbsentPrivateKeyFails | src/decrypt.js:76-80 | A keypair with no private entry never unwraps a payload. |
| Decrypt.MixedPayloadFails | src/decrypt.js:83-103 | A payload that is not CBC in all three fields is read as GCM throughout. Then any field with fewer than three pieces makes it fail, whatever the keys and ciphers. |
| Decrypt.CbcTextShape | src/decrypt.js:6-10 | `hex(iv):hex(ct)` has one `:` and parses back to iv and ct. |
| Decrypt.GcmTextShape | src/decrypt.js:19-25 | `hex(iv):hex(ct):hex(tag)` has two `:` and parses back to iv, ct and tag. |
| Decrypt.GcmExtraPiecesIgnored | src/decrypt.js:21-25 | Pieces after the tag are ignored: a GCM text followed by `:` and anything parses to the same parts. |
| Decrypt.CbcPayloadRoundTrip | src/decrypt.js:95-98 | A payload sealed as three `iv:ct` fields under the shared key unwraps to the cipher's plaintexts, the first parsed as JSON. |
| Decrypt.GcmPayloadRoundTrip | src/decrypt.js:99-103 | A payload sealed as three `iv:ct:tag` fields under the shared key unwraps to the cipher's plaintexts, the first parsed as JSON. |
| Decrypt.GcmFieldDecrypts | src/decrypt.js:19-30 | One GCM field decrypts to the UTF-8 text of the cipher's plaintext. |
| Decrypt.EmptyTagIsNoTag | src/decrypt.js:46-49 | A keypair file with an empty `authTag` is read as CBC, exactly as if it had no tag. |
| Decrypt.DecryptPrivateKeys | src/decrypt.js:45-62 | A result is the JSON of a plaintext the cipher of the file's mode gives. The key is PBKDF2 of the password and hex salt, and the iv, data and tag are hex-decoded. |
| Decrypt.KeyPairJsonNullExactly | src/decrypt.js:64-72 | The result is `null` exactly when the cipher rejects the file, the plaintext is not JSON, or the plaintext is the JSON `null`. |
| Decrypt.KeyFileRoundTrip | src/decrypt.js:45-72 | A keypair file written in hex is read back to its JSON: without a tag under CBC, with a tag under GCM. |
| Vault.NormalizedShape | src/vault.js:10-12 | A normalised key starts with `0x` and has no upper-case ASCII letter. |
| Vault.NormalizeLowerHex | src/vault.js:10-12 | For lower-case hex h, the key with and without `0x` normalises to `0x` + h, and normalising again changes nothing. |
| Vault.CaseAndPrefixVariantsShareEntry | src/vault.js:10-12 | Keys that differ only in letter case and a leading `0x` normalise alike, so they address one entry. |
| Vault.UpperCasePrefixSurvives | src/vault.js:11 | Only a lower-case `0x` is removed: `0XAB` normalises to `0x0xab`, which normalises again to `0xab`. |
| Vault.InterpretExists | src/vault.js:42-55 | True exactly for a response with data and no `errors`. False for a 404 whose `errors` is an empty array. Every other failure propagates. |
| Vault.DoesValidatorKeyExist | src/vault.js:31-56 | Without an outage, the answer is whether the normalised key is stored. An outage propagates. |
| Vault.DeleteValidatorKey | src/vault.js:58-77 | A failed existence check propagates. An absent key reports no deletion and sends nothing. A present key is deleted, and a failed delete request propagates its error. On success it reports a deletion exactly when the normalised key was stored and removes exactly that entry. |
| Vault.StoreValidatorKey | src/vault.js:79-99 | Create-only: the write succeeds exactly when the normalised key is absent and the server is up. It adds that one entry and changes no existing value. |
| Vault.StoreExistsDelete | src/vault.js:31-99 | After a store the key exists and a second store is refused. A delete then reports and removes it, restoring the old store. |
| Subgraph.QueriesPartitionWonBids | src/subgraph.js:6-59 | The active and cleanup filters are complementary. Together they return each won bid with a validator exactly once, and nothing else. |
| Subgraph.FetchPage | src/subgraph.js:3-31 | A page holds at most `first` bids, those from `skip` on. A failed request reads as an empty page. |
| Subgraph.RetrieveAllIterated | src/subgraph.js:33-54 | Requests use skip 0, 1000, 2000, and so on, every one before the last succeeding. The last skip is at most the result count. When its request fails, the result is exactly the results before it. Otherwise the result is all of them and fewer than a page remained at that skip. So the result is the results up to the first reachable failing skip, or all of them when none fails, after `n / 1000 + 1` requests. |
| Subgraph.PagedPrefixUnique | src/subgraph.js:33-54 | The paged yield is determined by the results and the failing skips: two lists that are both prefixes cut at the first reachable failing skip are equal. |
| Subgraph.RetrieveAllBidsIterated | src/subgraph.js:33-54 | The active bids up to the first reachable page request that fails, and all of them when none fails. |
| Subgraph.RetrieveAllCleanupBidsIterated | src/subgraph.js:86-107 | The cleanup bids up to the first reachable page request that fails, and all of them when none fails. |
| FileStore.PathsDistinct | src/file.js:4-14 | The password file, keystore file and directory are pairwise distinct, and distinct from another bid's files. |
| FileStore.CreateDirSafe | src/file.js:27-32 | The directory exists afterwards, and an existing path is left alone. |
| FileStore.CreateFile | src/file.js:34-39 | The path exists afterwards. An existing file or directory is never overwritten. A new one gets the content. |
| FileStore.CreateFSBidOutput | src/file.js:4-14 | Afterwards both of the bid's files exist. No existing file changes. A new `.txt` holds the password and a new `.json` holds the serialised key file. |
| FileStore.CreateFSBidOutputFrame | src/file.js:4-14 | No path other than the directory and the bid's two files changes. |
| FileStore.CreateFSBidOutputKeepsOthers | src/file.js:4-25 | Another bid's files exist afterwards exactly when they did before. |
| FileStore.CreateFSBidOutputIdempotent | src/file.js:4-14 | A second call changes nothing, whatever data it carries. |
| FileStore.CreateFSBidOutputFillsGap | src/file.js:34-39 | With only the password file present, the keystore file is created and the password file keeps its contents. |
| Teku.TargetsExactlyTheTekus | src/teku.js:6-11 | Only Teku containers are signalled. Each is signalled as often as it is listed, in listing order. A listing with no Teku container gives no signal. |
| Teku.SelectionIgnoresCaseAndSpace | src/teku.js:7 | Selection ignores letter case and white space around the image name. |
| Teku.SigHupAllTekus | src/teku.js:3-12 | With the listing parsed from the reply's body, the loop signals the listed Teku containers in order, up to the first whose signal fails. It finishes exactly when none fails. A failed listing signals nothing. |
| Teku.ReloadMeaning | src/teku.js:3-12 | The outcome signals a prefix of the targets. It finishes exactly when no target fails, having signalled all. An unfinished call stops at a target that fails. |
| Teku.ResponseObjectTextIsNotJson | src/teku.js:4 | `[object Object]`, the string form of got's response object, is not JSON text. |
| Teku.ListingAsWritten | src/teku.js:4 | As written, line 4 never yields a listing, whatever the daemon answered. |
| Teku.SigHupAllTekusAsWritten | src/teku.js:3-12 | As written, every call throws before signalling any container. |
| Teku.AsWrittenMissesWorkingDaemon | src/teku.js:3-12 | With a daemon that answers and signals that succeed, the intended call signals every Teku container and finishes. The call as written signals none and throws. |
| CronDetect.KeyArrays | src/cron-detect.js:31 | Destructuring throws exactly on a `null` keypair set. Each name reads the field of that name, and is `undefined` when the field is missing or the set is not an object. |
| CronDetect.KeyLookupThrowsIffUnreadable | src/cron-detect.js:31-32 | Lines 31 and 32 throw exactly when the keypair set is not an object holding both key sets, each neither missing nor `null`. A key set that is a string, number or object is indexed without an error. |
| CronDetect.Unwrap | src/cron-detect.js:29-34 | A key unwraps only when its payload is in the store, the keypair file decrypts, and the keypair set is readable. It is then the payload unwrapped with the keypair at the bid's index. |
| CronDetect.ProcessBid | src/cron-detect.js:19-45 | A bid is skipped exactly when both its files exist. It is abandoned only when its key does not unwrap. Otherwise its files are written, keeping every existing file. The proposer record then saved names the configured proposer file, the bid's `validatorPubKey` and its `etherfiNode`, and one reload round follows. |
| CronDetect.Run | src/cron-detect.js:18-46 | The run finishes exactly when it gets past every bid. No existing file is lost, and every bid before the stopping point has its files. The processed bids come from the list in order at increasing positions, had no files at the start, have pairwise distinct ids, and carry their unwrapped key, the proposer record saved for them and their one reload. The final filesystem is the starting one with exactly the processed bids' outputs written in order. Every bid before the stopping point that had no files at the start was processed, itself or through an earlier bid of the same id. A failed reload ends the run at its bid. Every reload but the last succeeded, and all of them did when the run finished. An early stop comes from an unwrap failure or a failed reload at the stopping point. When every bid already has files, the run changes nothing. |
| CronDetect.TakeTurn | src/cron-detect.js:19-45 | One turn either keeps the loop's invariant for the next bid or stops with an outcome meeting the run's report. |
| CronDetect.ProgressSkip | src/cron-detect.js:21-24 | A bid whose files exist is passed over without any effect. |
| CronDetect.ReportAbandoned | src/cron-detect.js:29-34 | A throw while unwrapping a bid without files ends the run there, with everything before it reported. |
| CronDetect.ReportReloadFailed | src/cron-detect.js:42-43 | A failed reload after a bid's files are written ends the run at that bid, with that bid recorded. |
| CronDetect.ReportCompleted | src/cron-detect.js:18-46 | Getting past the last bid finishes the run. Every bid then has its files. |
| CronDetect.ProgressWrite | src/cron-detect.js:38 | Writing a new bid's files keeps the earlier bids' files and records the bid at its position. |
| CronDetect.RunTwice | src/cron-detect.js:21-24 | A run over the same bids after a finished run writes nothing and reloads nothing. |
| CronDetect.DetectedBidsAsWritten | src/cron-detect.js:16 | The list as line 16 obtains it, with no `first` or `skip`, is empty. |
| CronDetect.RunAsWritten | src/cron-detect.js:16-18 | With that list a run finishes at once and changes nothing. |
| CronDetect.DetectedBids | src/cron-detect.js:16 | The intended list is the active won bids up to the first reachable failing page, and all of them when no page fails. |
| CronDetect.ProposerSavedPerProcessedBid | src/cron-detect.js:29-42 | Every bid the run processed saved, in the configured proposer file, the public key of the validator at its list position with that validator's `etherfiNode` as fee recipient. |
| CronDetect.RunOnWonBids | src/cron-detect.js:16-46 | A finished run over the intended list leaves the files of every active won bid on disk. |
| CronDetect.RunWithListingAsWritten | src/cron-detect.js:18-46 | With line 4 of `src/teku.js` as written, a run writes files for at most one bid and stops at it, because that bid's reload fails. It finishes exactly when every bid already had its files. |
| JsNumbers.ParseIntOfIntToString | src/vault-block-tracker.js:32 | `parseInt` reads back what `String` printed, with or without a radix. |
| JsNumbers.ParseIntIgnoresTrailing | src/vault-block-tracker.js:32 | `parseInt(s, 10)` ignores whatever follows the digits. |
| Bytes.HexRoundTrip | src/decrypt.js:9-10 | Hex-decoding the hex spelling of bytes gives them back. |
| Bytes.ToFixedBigEndian | src/decrypt.js:81 | The fixed-width encoding exists exactly when x fits the width. It then has that width and spells x. |
| Bytes.ToBigEndianOfFromBigEndian | src/decrypt.js:81 | The fixed-width encoding is the only byte string of that width that spells its value. |
| Text.Split | src/decrypt.js:8 | `split` gives one piece more than there are separators, none containing it. |
| Text.JoinSplit | src/decrypt.js:8-10 | Joining the pieces of a split gives back the text. |
| Text.SplitJoin | src/decrypt.js:8-10 | Splitting a join of separator-free pieces gives back the pieces. |
| Text.TrimIgnoresSurroundingSpace | src/teku.js:7 | Surrounding white space does not change what `trim` leaves. |
| Vault.EmptyAllSecrets | src/vault.js:14-29 | The wipe as written removes the renormalised form of each listed key. |
| Vault.WipeLeavesRenormalisedKey | src/vault.js:24-25 | A secret stored for `0XAB` is listed as `0x0xab`. It is deleted as `0xab`, so the wipe leaves it. |
| Vault.EmptyAllSecretsListed | src/vault.js:14-29 | The intended wipe removes exactly the listed keys. |
| Vault.WipeListedEmptiesStore | src/vault.js:14-29 | Listing every stored key and deleting them empties the store. |
| Subgraph.RetrieveAllIteratedAsWritten | src/subgraph.js:34-40 | As written, the loop throws on the first reassignment of the `const` result, after one request. |

## Left out

- **Effects outside the program.** Network, HTTP and socket calls, file reads, timers and logging are inputs of the model, or are not modelled.
  - The scanner's node, the secret store, the indexer and the Docker daemon are data.
  - Waits are values, not time.
- **Process structure.** The CronJob schedule, `index.js`, the beacon-chain phase stub and the two `extract*FromFS` readers are not part of this model.
- **Primitives.** AES-256-CBC/GCM, PBKDF2-HMAC-SHA256, secp256k1, UTF-8 decoding and `JSON.parse`/`JSON.stringify` are uninterpreted function parameters.
- **Missing exports.** Two named imports have no matching export in the files as they stand.
  - `src/cron-detect.js:3` imports `saveTekuProposerConfig` from `src/file.js`, which exports only `createFSBidOutput` and `validatorFilesExist`.
  - `src/contract-scanner.js:2` imports `ETHERFI_SC_KEY_STORAGE_MODE_CASES` from `src/config.js`, which exports only `getConfig`.
  - The repository is written as ES modules, where such an import is a `SyntaxError` at link time. So, as the files stand, neither module loads: no pass and no `run` ever executes, and neither does `index.js`, which imports `src/cron-detect.js`.
  - The model follows the program in which both names exist. The storage mode is a parameter, and `saveTekuProposerConfig`, whose body is not part of this model, is a call whose arguments the run records.
- **Missing source files.** `fetchFromIpfs` (`src/ipfs.js`) is not part of this model. The payloads are a map by IPFS hash, and a missing hash is a throw.
- **Scanner settings.** `START_BLOCK`, `SCAN_CHUNK_SIZE`, `MAX_PARALLEL_REQUESTS` and the storage mode are parameters. The `src/config.js` shown does not return them.
- **Numbers.** JavaScript `Number` precision is not modelled: block numbers and indices are unbounded integers. `NaN` is modelled where `parseInt` or `Number` produces it: a missing `ipfsIndexArray` entry (`ContractScanner.Num`), an unparsable `lastScannedBlock` (`BlockTracker.NotANumber`), and an unparsable `pubKeyIndex` (`Decrypt.IndexIn`, `Decrypt.ElementAt`).
- **String indexing.** A key set that is a string is indexed by Dafny character rather than by UTF-16 code unit. The two differ only outside the Basic Multilingual Plane.
- **Filesystem failures.** `mkdirSync` and `writeFileSync` are assumed to succeed.
- ContractScanner.RetrieveAllBidsIterated: `cleanupExitedKeys` is accepted and never read, because both branches of the source's filter push the same bid. No lemma compares two calls that differ in it.
- ChunkScan.RunBatches: the chunks of a batch run one after another, not concurrently. A failing batch reports the error of its first failing chunk in batch order, whereas `Promise.all` rejects with whichever fails first in time.
- Vault.EmptyAllSecrets: the listing request and the server are taken to succeed. The wipe is modelled over a listing that came back, without outages.
- Text.ToLower: only ASCII letters are lower-cased. JavaScript's `toLowerCase` also maps letters of other scripts.
- Subgraph.RetrieveAllIterated: the log line after 100000 bids has no effect and is not modelled.
- CronDetect.ProcessBid: assumes `saveTekuProposerConfig` exists and returns. The step records the call's arguments but not the proposer file's contents, because no definition of the call is part of this model.
- CronDetect.Run: assumes, likewise, that every `saveTekuProposerConfig` call returns. A run is never ended by that call.
- ChunkScan.Chunks: requires a chunk size of at least 1, and the scan also requires `maxParallel >= 1`. Nothing in the source checks either setting. Over a non-empty range, with `SCAN_CHUNK_SIZE <= 0` the chunk loop at `src/contract-scanner.js:176` never ends, pushing chunks without bound. With `MAX_PARALLEL_REQUESTS <= 0` the batch loop at line 193 never ends once there is a chunk. The model excludes both settings.
- ContractScanner.ScanRange: the exact success condition is stated for block-ordered logs, as the node returns them. On any log, an exhausted chunk still fails the pass.

## Findings

| source | as written | input that shows it | evidently intended | confidence | as-written member | corrected member |
|---|---|---|---|---|---|---|
| src/subgraph.js:34-40 | `bids` is declared `const` and then reassigned, at line 40 (line 93 in the cleanup loop) | any call: the first page's `bids = bids.concat(...)` throws `TypeError` in an ES module | a rebindable accumulator that collects every page | high, not executed | Subgraph.RetrieveAllIteratedAsWritten | Subgraph.RetrieveAllIterated |
| src/vault.js:24-25 | the wipe passes each listed key to `deleteValidatorKeyFromVault`, which normalises it again | a key stored from input `0XAB` sits under `0x0xab`; it is deleted as `0xab`, so it survives | delete each key under the name it was listed by | medium, not executed | Vault.WipeLeavesRenormalisedKey | Vault.WipeListedEmptiesStore |
| src/teku.js:4 | `JSON.parse(await got(...))` parses got's response object, whose string form is `[object Object]`, rather than its `body`; a run then stops after the first bid it writes files for (`CronDetect.RunWithListingAsWritten`) | any daemon reply: the parse throws, so every reload fails | `JSON.parse((await got(...)).body)` | medium, not executed; rests on got resolving to a response object | Teku.SigHupAllTekusAsWritten | Teku.SigHupAllTekus |
| src/cron-detect.js:16 | `retrieveBidsFromSubgraph(GRAPH_URL, BIDDER)` is called without `FIRST` and `SKIP`, so the query reads `first: undefined, skip: undefined` | any bidder: the indexer rejects the non-Int arguments, the error is caught, and the run sees no bids | the bidder's active won bids, fetched page by page | medium, not executed | CronDetect.RunAsWritten | CronDetect.RunOnWonBids |

=== FILE: bids.dfy ===
/** The bid record both discovery back ends return (the indexer's schema,
    which the contract-log scanner imitates). */
module Bids {

  datatype Validator = Validator(
    id: string,
    phase: string,
    ipfsHashForEncryptedValidatorKey: string,
    validatorPubKey: string,
    etherfiNode: string,
    bnftHolder: string)

  /** `pubKeyIndex` is kept as text: the indexer serialises it as a string,
      and its only consumer reads it back with `parseInt`. */
  datatype Bid = Bid(
    id: string,
    bidderAddress: string,
    pubKeyIndex: string,
    validator: Validator)
}

=== FILE: block_tracker.dfy ===
/** The scan checkpoint kept in the secret store (src/vault-block-tracker.js):
    one KV v2 secret, `block-tracker` under the state path, whose data record
    holds `lastScannedBlock` next to whatever else was stored there. */
module BlockTracker {
  import opened Results
  import opened Json
  import opened JsNumbers

  /** The data object of the secret (`response.data.data.data`). */
  type Record = map<string, Json>

  const LastScannedBlock := "lastScannedBlock"
  const LastUpdated := "lastUpdated"

  /** How a request to the secret store failed: with an HTTP response
      (`error.response.status`) or without one (network failure, unreadable
      token file). */
  datatype Failure = HttpError(status: int) | NoResponse(message: string)

  /** A read of the secret: the data record if the body carries one, or the
      failure. */
  type ReadOutcome = Result<Option<Record>, Failure>

  /** What `getLastScannedBlock` resolves to: `null`, or what `parseInt`
      made of the stored value, which may be `NaN`. */
  datatype Checkpoint = NoCheckpoint | Block(n: int) | NotANumber

  /** `parseInt(value, 10)` of a stored value. */
  function ParseStored(v: Json): Checkpoint {
    match ParseInt(ToJsString(v), Decimal)
    case Some(n) => Block(n)
    case None => NotANumber
  }

  /** `getLastScannedBlock`. A present, non-null `lastScannedBlock` is
      parsed; a missing one, a body without data, and a 404 all read as no
      checkpoint; every other failure propagates. */
  function GetLastScannedBlock(read: ReadOutcome): (r: Result<Checkpoint, Failure>)
    ensures r.Err? <==> read.Err? && read.error != HttpError(404)
    ensures r.Err? ==> r.error == read.error
    ensures read.Ok? && read.value.Some? && LastScannedBlock in read.value.value
            && read.value.value[LastScannedBlock] != JNull
            ==> r == Ok(ParseStored(read.value.value[LastScannedBlock]))
    ensures r == Ok(NoCheckpoint) <==>
      || read == Err(HttpError(404))
      || read == Ok(None)
      || (read.Ok? && read.value.Some? &&
          (LastScannedBlock !in read.value.value || read.value.value[LastScannedBlock] == JNull))
  {
    match read
    case Ok(Some(rec)) =>
      if LastScannedBlock in rec && rec[LastScannedBlock] != JNull then Ok(ParseStored(rec[LastScannedBlock]))
      else Ok(NoCheckpoint)
    case Ok(None) => Ok(NoCheckpoint)
    case Err(e) => if e == HttpError(404) then Ok(NoCheckpoint) else Err(e)
  }

  /** `setLastScannedBlock(n)`. The prior record is read first: a 404 or a
      failure without a response count as an empty record, any other HTTP
      error aborts before writing. The record written is the prior one with
      `lastScannedBlock` and `lastUpdated` replaced. `tokenReadable` is
      whether the token file could be read (it is read outside the inner
      `try`), `now` the ISO time stamp, `writeFailure` the outcome of the
      write request. The result is the record written. */
  function SetLastScannedBlock(tokenReadable: bool, read: ReadOutcome, n: int, now: string,
                               writeFailure: Option<Failure>): (r: Result<Record, Failure>)
    ensures !tokenReadable ==> r.Err?
    ensures tokenReadable && read.Err? && read.error.HttpError? && read.error.status != 404 ==> r == Err(read.error)
    ensures r.Ok? ==> tokenReadable && writeFailure.None?
    ensures r.Ok? ==> && r.value.Keys == PriorRecord(read).Keys + {LastScannedBlock, LastUpdated}
                      && r.value[LastScannedBlock] == JNum(n)
                      && r.value[LastUpdated] == JStr(now)
                      && forall k :: k in PriorRecord(read) && k != LastScannedBlock && k != LastUpdated
                                     ==> r.value[k] == PriorRecord(read)[k]
    ensures tokenReadable && writeFailure.None? && !(read.Err? && read.error.HttpError? && read.error.status != 404)
            ==> r.Ok?
  {
    if !tokenReadable then Err(NoResponse("token file unreadable"))
    else if read.Err? && read.error.HttpError? && read.error.status != 404 then Err(read.error)
    else
      var updated := PriorRecord(read)[LastScannedBlock := JNum(n)][LastUpdated := JStr(now)];
      if writeFailure.Some? then Err(writeFailure.value) else Ok(updated)
  }

  /** The record the merge starts from. */
  function PriorRecord(read: ReadOutcome): Record {
    if read.Ok? && read.value.Some? then read.value.value else map[]
  }

  /** The stored secret (`None` when the path holds nothing) and the read
      the secret store answers with. */
  function ReadFrom(stored: Option<Record>): ReadOutcome {
    match stored
    case None => Err(HttpError(404))
    case Some(rec) => Ok(Some(rec))
  }

  /** After a successful `set(n)`, `get()` returns `n`, whatever the secret
      held before. */
  lemma SetThenGet(stored: Option<Record>, n: int, now: string)
    ensures SetLastScannedBlock(true, ReadFrom(stored), n, now, None).Ok?
    ensures GetLastScannedBlock(ReadFrom(Some(SetLastScannedBlock(true, ReadFrom(stored), n, now, None).value)))
            == Ok(Block(n))
  {
    ParseIntOfIntToString(n, Decimal);
  }
}

=== FILE: bytes.dfy ===
/** Byte strings as Node's `Buffer` and bn.js produce them: lower-case hex
    text (`ethers.hexlify`, `Buffer.from(s, 'hex')`) and fixed-width
    big-endian integers (`BN.toArrayLike(Buffer, 'be', len)`). */
module Bytes {
  import opened Results
  import opened JsNumbers

  newtype byte = x: int | 0 <= x < 256

  predicate IsHexChar(c: char) {
    IsDigitIn(c, 16)
  }

  function HexDigit(d: nat): (c: char)
    requires d < 16
    ensures IsHexChar(c) && DigitValue(c) == Some(d)
    ensures c != ':' && !('A' <= c <= 'Z')
  {
    if d < 10 then ('0' as int + d) as char else ('a' as int + d - 10) as char
  }

  /** Lower-case hex spelling, two characters per byte. */
  function HexEncode(b: seq<byte>): (s: string)
    ensures |s| == 2 * |b|
    ensures forall i :: 0 <= i < |s| ==> IsHexChar(s[i]) && s[i] != ':' && !('A' <= s[i] <= 'Z')
    decreases |b|
  {
    if |b| == 0 then ""
    else [HexDigit(b[0] as nat / 16), HexDigit(b[0] as nat % 16)] + HexEncode(b[1..])
  }

  /** `Buffer.from(s, 'hex')`: pairs of hex digits are decoded until the
      first pair that is not one; an odd last character is dropped. It
      never fails. */
  function HexDecode(s: string): (b: seq<byte>)
    ensures |b| <= |s| / 2
    decreases |s|
  {
    if |s| >= 2 && IsHexChar(s[0]) && IsHexChar(s[1]) then
      [(DigitValue(s[0]).value * 16 + DigitValue(s[1]).value) as byte] + HexDecode(s[2..])
    else []
  }

  /** Decoding the hex spelling of a byte string gives it back. */
  lemma {:induction false} HexRoundTrip(b: seq<byte>)
    ensures HexDecode(HexEncode(b)) == b
    decreases |b|
  {
    if |b| > 0 {
      var s := HexEncode(b);
      assert s[2..] == HexEncode(b[1..]);
      HexRoundTrip(b[1..]);
      assert [b[0]] + b[1..] == b;
    }
  }

  function Pow256(n: nat): (p: nat)
    ensures p >= 1
  {
    if n == 0 then 1 else 256 * Pow256(n - 1)
  }

  /** The integer a big-endian byte string spells. */
  function FromBigEndian(b: seq<byte>): nat
    decreases |b|
  {
    if |b| == 0 then 0 else FromBigEndian(b[..|b| - 1]) * 256 + b[|b| - 1] as nat
  }

  /** `x` as exactly `len` big-endian bytes, zero-padded on the left. */
  function ToBigEndian(x: nat, len: nat): (b: seq<byte>)
    requires x < Pow256(len)
    ensures |b| == len
    ensures FromBigEndian(b) == x
    decreases len
  {
    if len == 0 then []
    else
      var high := ToBigEndian(x / 256, len - 1);
      assert (high + [(x % 256) as byte])[..len - 1] == high;
      high + [(x % 256) as byte]
  }

  lemma {:induction false} FromBigEndianBound(b: seq<byte>)
    ensures FromBigEndian(b) < Pow256(|b|)
    decreases |b|
  {
    if |b| > 0 {
      FromBigEndianBound(b[..|b| - 1]);
    }
  }

  /** The fixed-width encoding is the only byte string of that width that
      spells `FromBigEndian(b)`. */
  lemma {:induction false} ToBigEndianOfFromBigEndian(b: seq<byte>)
    ensures FromBigEndian(b) < Pow256(|b|)
    ensures ToBigEndian(FromBigEndian(b), |b|) == b
    decreases |b|
  {
    FromBigEndianBound(b);
    if |b| > 0 {
      var init := b[..|b| - 1];
      ToBigEndianOfFromBigEndian(init);
      var x := FromBigEndian(b);
      assert x / 256 == FromBigEndian(init);
      assert x % 256 == b[|b| - 1] as nat;
      assert init + [b[|b| - 1]] == b;
    }
  }

  /** `BN.toArrayLike(Buffer, 'be', len)`: fails ("byte array longer than
      desired length") when `x` needs more than `len` bytes. */
  function ToFixedBigEndian(x: nat, len: nat): (r: Option<seq<byte>>)
    ensures r.Some? <==> x < Pow256(len)
    ensures r.Some? ==> |r.value| == len && FromBigEndian(r.value) == x
  {
    if x < Pow256(len) then Some(ToBigEndian(x, len)) else None
  }
}

=== FILE: chunk_scan.dfy ===
/** Chunked, batched, retried log queries (`scanEventInChunks` and
    `queryChunkWithRetry` in src/contract-scanner.js). The node is a log of
    events tagged with their block number; a query for a block range returns
    the events in that range, in log order, unless the fault model says the
    attempt fails. Batches run one after another and the chunks of a batch
    in order (the source runs a batch concurrently). */
module ChunkScan {
  import opened Results
  import JsNumbers

  /** An event as the node reports it, with the block it is in. */
  datatype Logged<E> = Logged(block: int, event: E)

  /** Blocks `start` to `end`, both included. */
  datatype Chunk = Chunk(start: int, end: int)

  /** Which attempt at which chunk fails, and with what message. */
  type Faults = (Chunk, nat) -> Option<string>

  const MaxRetries: nat := 3

  function Min(a: int, b: int): int {
    if a <= b then a else b
  }

  /** The chunk list of `fromBlock..toBlock`: `chunkSize` blocks each, the last one
      cut at `toBlock` (`Math.min(i + chunkSize - 1, toBlock)`). */
  function Chunks(fromBlock: int, toBlock: int, chunkSize: nat): (cs: seq<Chunk>)
    requires chunkSize >= 1
    ensures fromBlock > toBlock ==> cs == []
    ensures fromBlock <= toBlock ==> |cs| > 0 && cs[0].start == fromBlock && cs[|cs| - 1].end == toBlock
    ensures forall i :: 0 <= i < |cs| ==> fromBlock <= cs[i].start <= cs[i].end <= toBlock
    ensures forall i :: 0 <= i < |cs| ==> cs[i].end - cs[i].start + 1 <= chunkSize
    ensures forall i :: 0 <= i < |cs| - 1 ==> cs[i].end - cs[i].start + 1 == chunkSize
    ensures forall i, j :: 0 <= i && j == i + 1 && j < |cs| ==> cs[j].start == cs[i].end + 1
    decreases if fromBlock <= toBlock then toBlock - fromBlock + 1 else 0
  {
    if fromBlock > toBlock then []
    else if fromBlock + chunkSize > toBlock then [Chunk(fromBlock, toBlock)]
    else [Chunk(fromBlock, fromBlock + chunkSize - 1)] + Chunks(fromBlock + chunkSize, toBlock, chunkSize)
  }

  /** There are ceil((toBlock - fromBlock + 1) / chunkSize) chunks: the last
      `chunkSize` blocks before the end need one more. */
  lemma {:induction false} ChunkCount(fromBlock: int, toBlock: int, chunkSize: nat)
    requires chunkSize >= 1 && fromBlock <= toBlock
    ensures (|Chunks(fromBlock, toBlock, chunkSize)| - 1) * chunkSize < toBlock - fromBlock + 1 <= |Chunks(fromBlock, toBlock, chunkSize)| * chunkSize
    decreases toBlock - fromBlock + 1
  {
    if fromBlock + chunkSize <= toBlock {
      var n := |Chunks(fromBlock, toBlock, chunkSize)|;
      var m := |Chunks(fromBlock + chunkSize, toBlock, chunkSize)|;
      ChunkCount(fromBlock + chunkSize, toBlock, chunkSize);
      assert n == m + 1;
      MulSucc(m, chunkSize);
    }
  }

  lemma MulSucc(m: int, k: int)
    ensures (m + 1) * k == m * k + k
  {
  }

  /** `Math.pow(2, n)`. */
  function Pow2(n: nat): nat {
    if n == 0 then 1 else 2 * Pow2(n - 1)
  }

  /** The wait after failed attempt `attempt` (counted from 1). */
  function Backoff(attempt: nat): nat
    requires attempt >= 1
  {
    1000 * Pow2(attempt - 1)
  }

  /** The events of a block range, in log order. */
  function EventsIn<E>(log: seq<Logged<E>>, fromBlock: int, toBlock: int): (r: seq<E>)
    ensures |r| <= |log|
    decreases |log|
  {
    if |log| == 0 then []
    else (if fromBlock <= log[0].block <= toBlock then [log[0].event] else []) + EventsIn(log[1..], fromBlock, toBlock)
  }

  /** What one chunk query came to: its events or the final error, the
      number of attempts made, and the waits between them. */
  datatype ChunkOutcome<E> = ChunkOutcome(events: Result<seq<E>, string>, attempts: nat, waits: seq<nat>)

  function ChunkError(c: Chunk, message: string): string {
    "Failed to query chunk " + JsNumbers.IntToString(c.start) + "-" + JsNumbers.IntToString(c.end)
      + " after " + JsNumbers.IntToString(MaxRetries) + " attempts: " + message
  }

  /** Attempts `attempt` to 3 at chunk `c`. */
  function TryFrom<E>(log: seq<Logged<E>>, faults: Faults, c: Chunk, attempt: nat): (r: ChunkOutcome<E>)
    requires 1 <= attempt <= MaxRetries
    ensures attempt <= r.attempts <= MaxRetries
    ensures |r.waits| == r.attempts - attempt
    ensures forall i :: 0 <= i < |r.waits| ==> r.waits[i] == Backoff(attempt + i)
    ensures forall a :: attempt <= a < r.attempts ==> faults(c, a).Some?
    ensures r.events.Ok? ==> faults(c, r.attempts).None? && r.events.value == EventsIn(log, c.start, c.end)
    ensures r.events.Err? ==>
      && r.attempts == MaxRetries
      && faults(c, MaxRetries).Some?
      && r.events.error == ChunkError(c, faults(c, MaxRetries).value)
    decreases MaxRetries - attempt
  {
    match faults(c, attempt)
    case None => ChunkOutcome(Ok(EventsIn(log, c.start, c.end)), attempt, [])
    case Some(message) =>
      if attempt == MaxRetries then ChunkOutcome(Err(ChunkError(c, message)), attempt, [])
      else
        var rest := TryFrom(log, faults, c, attempt + 1);
        ChunkOutcome(rest.events, rest.attempts, [Backoff(attempt)] + rest.waits)
  }

  /** `queryChunkWithRetry` with its default of 3 attempts. */
  function QueryChunkWithRetry<E>(log: seq<Logged<E>>, faults: Faults, c: Chunk): (r: ChunkOutcome<E>)
    ensures 1 <= r.attempts <= MaxRetries
    ensures r.events.Ok? <==> exists a :: 1 <= a <= MaxRetries && faults(c, a).None?
    ensures r.events.Ok? ==> r.events.value == EventsIn(log, c.start, c.end)
    ensures r.events.Ok? ==> faults(c, r.attempts).None? && forall a :: 1 <= a < r.attempts ==> faults(c, a).Some?
    ensures r.events.Err? ==> r.attempts == MaxRetries && r.events.error == ChunkError(c, faults(c, MaxRetries).value)
    ensures r.waits == [1000, 2000][..r.attempts - 1]
  {
    var r := TryFrom(log, faults, c, 1);
    assert r.events.Err? ==> forall a :: 1 <= a <= MaxRetries ==> faults(c, a).Some?;
    assert Backoff(1) == 1000 && Backoff(2) == 2000;
    r
  }

  /** The chunks cut into consecutive batches of `maxParallel` (the last
      may be shorter). */
  function Batches(cs: seq<Chunk>, maxParallel: nat): (bs: seq<seq<Chunk>>)
    requires maxParallel >= 1
    ensures Flatten(bs) == cs
    ensures forall i :: 0 <= i < |bs| ==> 0 < |bs[i]| <= maxParallel
    ensures forall i :: 0 <= i < |bs| - 1 ==> |bs[i]| == maxParallel
    ensures (|bs| - 1) * maxParallel < |cs| <= |bs| * maxParallel || (cs == [] && bs == [])
    decreases |cs|
  {
    if |cs| == 0 then []
    else
      var n := Min(maxParallel, |cs|);
      var rest := Batches(cs[n..], maxParallel);
      var bs := [cs[..n]] + rest;
      assert bs[1..] == rest;
      assert cs[..n] + cs[n..] == cs;
      BatchCountStep(|cs|, n, |rest|, maxParallel);
      bs
  }

  /** The count bound of `Batches` carries over from the rest to the whole. */
  lemma BatchCountStep(total: nat, n: nat, r: nat, m: nat)
    requires m >= 1 && 0 < n <= total && n <= m
    requires n < total ==> n == m
    requires (r - 1) * m < total - n <= r * m || (total - n == 0 && r == 0)
    ensures r * m < total <= (r + 1) * m
  {
    if n < total {
      assert (r + 1) * m == r * m + m;
      assert (r - 1) * m + m == r * m;
    }
  }

  function Flatten<T>(xss: seq<seq<T>>): seq<T>
    decreases |xss|
  {
    if |xss| == 0 then [] else xss[0] + Flatten(xss[1..])
  }

  lemma {:induction false} FlattenAppend<T>(xss: seq<seq<T>>, ys: seq<T>)
    ensures Flatten(xss + [ys]) == Flatten(xss) + ys
    decreases |xss|
  {
    if |xss| == 0 {
      assert xss + [ys] == [ys];
    } else {
      assert (xss + [ys])[1..] == xss[1..] + [ys];
      FlattenAppend(xss[1..], ys);
    }
  }

  /** One batch: every chunk of it is queried, and the results are
      concatenated in chunk order; the first failing chunk's error is the
      batch's error. */
  function RunBatch<E>(log: seq<Logged<E>>, faults: Faults, batch: seq<Chunk>): (r: Result<seq<E>, string>)
    ensures r.Ok? <==> forall i :: 0 <= i < |batch| ==> QueryChunkWithRetry(log, faults, batch[i]).events.Ok?
    ensures r.Ok? ==> r.value == ChunkEvents(log, batch)
    decreases |batch|
  {
    if |batch| == 0 then Ok([])
    else
      var first := QueryChunkWithRetry(log, faults, batch[0]);
      var rest := RunBatch(log, faults, batch[1..]);
      if first.events.Err? then Err(first.events.error)
      else if rest.Err? then rest
      else Ok(first.events.value + rest.value)
  }

  /** The events of each chunk, concatenated in chunk order. */
  function ChunkEvents<E>(log: seq<Logged<E>>, cs: seq<Chunk>): seq<E>
    decreases |cs|
  {
    if |cs| == 0 then [] else EventsIn(log, cs[0].start, cs[0].end) + ChunkEvents(log, cs[1..])
  }

  lemma {:induction false} ChunkEventsConcat<E>(log: seq<Logged<E>>, a: seq<Chunk>, b: seq<Chunk>)
    ensures ChunkEvents(log, a + b) == ChunkEvents(log, a) + ChunkEvents(log, b)
    decreases |a|
  {
    if |a| == 0 {
      assert a + b == b;
    } else {
      assert (a + b)[1..] == a[1..] + b;
      ChunkEventsConcat(log, a[1..], b);
    }
  }

  /** What a scan came to, and the chunks it sent queries for. */
  datatype ScanOutcome<E> = ScanOutcome(events: Result<seq<E>, string>, queried: seq<Chunk>)

  /** The batches run in order; a failing batch ends the scan. */
  function RunBatches<E>(log: seq<Logged<E>>, faults: Faults, bs: seq<seq<Chunk>>): (r: ScanOutcome<E>)
    ensures r.events.Ok? ==> r.queried == Flatten(bs) && r.events.value == ChunkEvents(log, Flatten(bs))
    decreases |bs|
  {
    if |bs| == 0 then ScanOutcome(Ok([]), [])
    else
      var first := RunBatch(log, faults, bs[0]);
      if first.Err? then ScanOutcome(Err(first.error), bs[0])
      else
        var rest := RunBatches(log, faults, bs[1..]);
        ChunkEventsConcat(log, bs[0], Flatten(bs[1..]));
        ScanOutcome(if rest.events.Ok? then Ok(first.value + rest.events.value) else rest.events,
                    bs[0] + rest.queried)
  }

  /** A scan succeeds exactly when every batch does. */
  lemma {:induction false} RunBatchesSucceeds<E>(log: seq<Logged<E>>, faults: Faults, bs: seq<seq<Chunk>>)
    ensures RunBatches(log, faults, bs).events.Ok? <==> forall i :: 0 <= i < |bs| ==> RunBatch(log, faults, bs[i]).Ok?
    decreases |bs|
  {
    if |bs| > 0 {
      RunBatchesSucceeds(log, faults, bs[1..]);
      assert forall i :: 1 <= i < |bs| ==> bs[i] == bs[1..][i - 1];
    }
  }

  /** A failing scan stopped at the first failing batch `k`: it reports
      that batch's error, and the chunks queried are those of batches 0 to
      `k`; no later batch was queried. */
  lemma {:induction false} RunBatchesStopsAtFailure<E>(log: seq<Logged<E>>, faults: Faults, bs: seq<seq<Chunk>>)
    returns (k: nat)
    requires RunBatches(log, faults, bs).events.Err?
    ensures k < |bs| && RunBatch(log, faults, bs[k]).Err?
    ensures RunBatches(log, faults, bs).events.error == RunBatch(log, faults, bs[k]).error
    ensures RunBatches(log, faults, bs).queried == Flatten(bs[..k + 1])
    ensures forall j :: 0 <= j < k ==> RunBatch(log, faults, bs[j]).Ok?
    decreases |bs|
  {
    FlattenPrefixCons(bs, 1);
    if RunBatch(log, faults, bs[0]).Err? {
      k := 0;
    } else {
      var tail := bs[1..];
      var k' := RunBatchesStopsAtFailure(log, faults, tail);
      k := k' + 1;
      FlattenPrefixCons(bs, k + 1);
      forall j | 0 <= j < k
        ensures RunBatch(log, faults, bs[j]).Ok?
      {
        if j > 0 {
          assert bs[j] == tail[j - 1];
        }
      }
    }
  }

  lemma FlattenPrefixCons<T>(xss: seq<seq<T>>, n: nat)
    requires 0 < n <= |xss|
    ensures Flatten(xss[..n]) == xss[0] + Flatten(xss[1..][..n - 1])
  {
    assert xss[..n][0] == xss[0];
    assert xss[..n][1..] == xss[1..][..n - 1];
  }

  /** The node's log lists events in block order. */
  predicate SortedByBlock<E>(log: seq<Logged<E>>) {
    forall i, j :: 0 <= i < j < |log| ==> log[i].block <= log[j].block
  }

  lemma {:induction false} EventsInEmptyRange<E>(log: seq<Logged<E>>, fromBlock: int, toBlock: int)
    requires fromBlock > toBlock
    ensures EventsIn(log, fromBlock, toBlock) == []
    decreases |log|
  {
    if |log| > 0 {
      EventsInEmptyRange(log[1..], fromBlock, toBlock);
    }
  }

  lemma {:induction false} EventsInBelow<E>(log: seq<Logged<E>>, fromBlock: int, toBlock: int)
    requires forall i :: 0 <= i < |log| ==> log[i].block > toBlock
    ensures EventsIn(log, fromBlock, toBlock) == []
    decreases |log|
  {
    if |log| > 0 {
      EventsInBelow(log[1..], fromBlock, toBlock);
    }
  }

  /** On a block-ordered log, the events of `a..m` followed by those of
      `m+1..b` are the events of `a..b`. */
  lemma {:induction false} EventsInSplit<E>(log: seq<Logged<E>>, a: int, m: int, b: int)
    requires SortedByBlock(log)
    requires a - 1 <= m <= b
    ensures EventsIn(log, a, m) + EventsIn(log, m + 1, b) == EventsIn(log, a, b)
    decreases |log|
  {
    if |log| > 0 {
      var t := log[1..];
      assert SortedByBlock(t);
      EventsInSplit(t, a, m, b);
      var x := log[0].block;
      if m < x {
        assert forall i :: 0 <= i < |t| ==> t[i].block >= x;
        EventsInBelow(t, a, m);
      }
    }
  }

  /** Reading the chunks one after another reads the whole range. */
  lemma {:induction false} ChunksCoverRange<E>(log: seq<Logged<E>>, fromBlock: int, toBlock: int, chunkSize: nat)
    requires chunkSize >= 1 && SortedByBlock(log)
    ensures ChunkEvents(log, Chunks(fromBlock, toBlock, chunkSize)) == EventsIn(log, fromBlock, toBlock)
    decreases if fromBlock <= toBlock then toBlock - fromBlock + 1 else 0
  {
    if fromBlock > toBlock {
      EventsInEmptyRange(log, fromBlock, toBlock);
    } else if fromBlock + chunkSize > toBlock {
      CoverLast(log, fromBlock, toBlock, chunkSize);
    } else {
      ChunksCoverRange(log, fromBlock + chunkSize, toBlock, chunkSize);
      CoverStep(log, fromBlock, toBlock, chunkSize);
    }
  }

  lemma CoverLast<E>(log: seq<Logged<E>>, fromBlock: int, toBlock: int, chunkSize: nat)
    requires chunkSize >= 1 && fromBlock <= toBlock < fromBlock + chunkSize
    ensures ChunkEvents(log, Chunks(fromBlock, toBlock, chunkSize)) == EventsIn(log, fromBlock, toBlock)
  {
    var cs := Chunks(fromBlock, toBlock, chunkSize);
    assert cs == [Chunk(fromBlock, toBlock)];
    assert ChunkEvents(log, cs) == EventsIn(log, fromBlock, toBlock) + ChunkEvents(log, cs[1..]);
    assert cs[1..] == [];
  }

  lemma CoverStep<E>(log: seq<Logged<E>>, fromBlock: int, toBlock: int, chunkSize: nat)
    requires chunkSize >= 1 && SortedByBlock(log) && fromBlock + chunkSize <= toBlock
    requires ChunkEvents(log, Chunks(fromBlock + chunkSize, toBlock, chunkSize)) == EventsIn(log, fromBlock + chunkSize, toBlock)
    ensures ChunkEvents(log, Chunks(fromBlock, toBlock, chunkSize)) == EventsIn(log, fromBlock, toBlock)
  {
    var rest := Chunks(fromBlock + chunkSize, toBlock, chunkSize);
    var first := Chunk(fromBlock, fromBlock + chunkSize - 1);
    var cs := Chunks(fromBlock, toBlock, chunkSize);
    assert cs == [first] + rest;
    assert cs[1..] == rest;
    assert ChunkEvents(log, cs) == EventsIn(log, first.start, first.end) + ChunkEvents(log, rest);
    EventsInSplit(log, fromBlock, fromBlock + chunkSize - 1, toBlock);
  }

  lemma {:induction false} FlattenMember<T>(xss: seq<seq<T>>, x: T)
    ensures x in Flatten(xss) <==> exists i :: 0 <= i < |xss| && x in xss[i]
    decreases |xss|
  {
    if |xss| > 0 {
      FlattenMember(xss[1..], x);
      if x in Flatten(xss[1..]) {
        var i :| 0 <= i < |xss[1..]| && x in xss[1..][i];
        assert x in xss[i + 1];
      }
      if exists i :: 0 <= i < |xss| && x in xss[i] {
        var i :| 0 <= i < |xss| && x in xss[i];
        if i > 0 {
          assert xss[i] == xss[1..][i - 1];
        }
      }
    }
  }

  /** `scanEventInChunks` for blocks `fromBlock..toBlock`. */
  function ScanEventInChunks<E>(log: seq<Logged<E>>, faults: Faults, fromBlock: int, toBlock: int,
                                chunkSize: nat, maxParallel: nat): ScanOutcome<E>
    requires chunkSize >= 1 && maxParallel >= 1
  {
    RunBatches(log, faults, Batches(Chunks(fromBlock, toBlock, chunkSize), maxParallel))
  }

  /** A scan of a block-ordered log that succeeds returns exactly the
      events of the whole range, in order. */
  lemma ScanReturnsRange<E>(log: seq<Logged<E>>, faults: Faults, fromBlock: int, toBlock: int,
                            chunkSize: nat, maxParallel: nat)
    requires chunkSize >= 1 && maxParallel >= 1 && SortedByBlock(log)
    ensures var r := ScanEventInChunks(log, faults, fromBlock, toBlock, chunkSize, maxParallel);
      r.events.Ok? ==>
        && r.events.value == EventsIn(log, fromBlock, toBlock)
        && r.queried == Chunks(fromBlock, toBlock, chunkSize)
  {
    ChunksCoverRange(log, fromBlock, toBlock, chunkSize);
  }

  /** Every one of the three attempts at chunk `c` fails. */
  predicate Exhausted(faults: Faults, c: Chunk) {
    forall a :: 1 <= a <= MaxRetries ==> faults(c, a).Some?
  }

  /** A scan fails exactly when some chunk of the range fails all three
      attempts. */
  lemma ScanFailsIffChunkExhausted<E>(log: seq<Logged<E>>, faults: Faults, fromBlock: int, toBlock: int,
                                      chunkSize: nat, maxParallel: nat)
    requires chunkSize >= 1 && maxParallel >= 1
    ensures ScanEventInChunks(log, faults, fromBlock, toBlock, chunkSize, maxParallel).events.Err? <==>
      exists c :: c in Chunks(fromBlock, toBlock, chunkSize) && Exhausted(faults, c)
  {
    var cs := Chunks(fromBlock, toBlock, chunkSize);
    var bs := Batches(cs, maxParallel);
    RunBatchesSucceeds(log, faults, bs);
    if exists c :: c in cs && Exhausted(faults, c) {
      var c :| c in cs && Exhausted(faults, c);
      ExhaustedChunkFailsBatch(log, faults, bs, c);
    } else {
      RecoverableChunksPassBatches(log, faults, bs);
    }
  }

  /** The retries of one chunk give up exactly when it is exhausted. */
  lemma RetryGivesUpIffExhausted<E>(log: seq<Logged<E>>, faults: Faults, c: Chunk)
    ensures QueryChunkWithRetry(log, faults, c).events.Err? <==> Exhausted(faults, c)
  {
  }

  /** A chunk that fails all three attempts fails its batch. */
  lemma ExhaustedChunkFailsBatch<E>(log: seq<Logged<E>>, faults: Faults, bs: seq<seq<Chunk>>, c: Chunk)
    requires c in Flatten(bs) && Exhausted(faults, c)
    ensures exists i :: 0 <= i < |bs| && RunBatch(log, faults, bs[i]).Err?
  {
    FlattenMember(bs, c);
    var i :| 0 <= i < |bs| && c in bs[i];
    var j :| 0 <= j < |bs[i]| && bs[i][j] == c;
    RetryGivesUpIffExhausted(log, faults, c);
  }

  /** When no chunk is exhausted, every batch succeeds. */
  lemma RecoverableChunksPassBatches<E>(log: seq<Logged<E>>, faults: Faults, bs: seq<seq<Chunk>>)
    requires forall c :: c in Flatten(bs) ==> !Exhausted(faults, c)
    ensures forall i :: 0 <= i < |bs| ==> RunBatch(log, faults, bs[i]).Ok?
  {
    forall i | 0 <= i < |bs|
      ensures RunBatch(log, faults, bs[i]).Ok?
    {
      forall j | 0 <= j < |bs[i]|
        ensures QueryChunkWithRetry(log, faults, bs[i][j]).events.Ok?
      {
        FlattenMember(bs, bs[i][j]);
        RetryGivesUpIffExhausted(log, faults, bs[i][j]);
      }
    }
  }

  /** 10050 blocks in chunks of 5000 make three chunks, and with two
      queries in parallel, two batches. */
  lemma ExampleTenThousandFiftyBlocks()
    ensures Chunks(1, 10050, 5000) == [Chunk(1, 5000), Chunk(5001, 10000), Chunk(10001, 10050)]
    ensures Batches(Chunks(1, 10050, 5000), 2) == [[Chunk(1, 5000), Chunk(5001, 10000)], [Chunk(10001, 10050)]]
  {
    var cs := Chunks(1, 10050, 5000);
    assert Chunks(10001, 10050, 5000) == [Chunk(10001, 10050)];
    assert Chunks(5001, 10050, 5000) == [Chunk(5001, 10000), Chunk(10001, 10050)];
    assert cs == [Chunk(1, 5000), Chunk(5001, 10000), Chunk(10001, 10050)];
    var last := cs[2..];
    assert last == [Chunk(10001, 10050)];
    assert last[..1] == last && last[1..] == [];
    assert Batches(last, 2) == [last[..1]] + Batches(last[1..], 2);
    assert Batches(last, 2) == [[Chunk(10001, 10050)]];
    assert cs[..2] == [Chunk(1, 5000), Chunk(5001, 10000)];
    assert Batches(cs, 2) == [cs[..2]] + Batches(cs[2..], 2);
  }
}

=== FILE: config.dfy ===
/** `getConfig` (src/config.js): reads eight `ETHERFI_SC_*` variables from
    the process environment and validates them. */
module Config {
  import opened Results

  /** The process environment: a variable that is not set is absent. */
  type Env = map<string, string>

  const IPFS_GATEWAY := "ETHERFI_SC_IPFS_GATEWAY"
  const GRAPH_URL := "ETHERFI_SC_GRAPH_URL"
  const BIDDER := "ETHERFI_SC_BIDDER"
  const PRIVATE_KEYS_FILE_LOCATION := "ETHERFI_SC_PRIVATE_KEYS_FILE_LOCATION"
  const OUTPUT_LOCATION := "ETHERFI_SC_OUTPUT_LOCATION"
  const PASSWORD := "ETHERFI_SC_PASSWORD"
  const TEKU_PROPOSER_FILE := "ETHERFI_SC_TEKU_PROPOSER_FILE"
  const RESTART_MODE := "ETHERFI_SC_RESTART_MODE"

  const SupportedRestartModes: set<string> := {"none", "docker", "kubernetes"}

  datatype Config = Config(
    graphUrl: string,
    bidder: string,
    privateKeysFileLocation: string,
    outputLocation: string,
    password: string,
    ipfsGateway: string,
    tekuProposerFile: string,
    restartMode: string)

  datatype ConfigError =
    | EnvNotLoaded             // "env did not load correctly, stopping"
    | RestartModeNotSupported  // "RESTART_MODE given not supported, stopping"

  /** The seven variables that have no default. */
  predicate RequiredPresent(env: Env) {
    && GRAPH_URL in env && BIDDER in env && PRIVATE_KEYS_FILE_LOCATION in env
    && OUTPUT_LOCATION in env && PASSWORD in env && IPFS_GATEWAY in env
    && TEKU_PROPOSER_FILE in env
  }

  /** `process.env.ETHERFI_SC_RESTART_MODE || 'none'`. */
  function RestartMode(env: Env): (mode: string)
    ensures RESTART_MODE !in env ==> mode == "none"
    ensures RESTART_MODE in env && env[RESTART_MODE] == "" ==> mode == "none"
    ensures RESTART_MODE in env && env[RESTART_MODE] != "" ==> mode == env[RESTART_MODE]
    ensures mode != ""
  {
    if RESTART_MODE in env && env[RESTART_MODE] != "" then env[RESTART_MODE] else "none"
  }

  function GetConfig(env: Env): (r: Result<Config, ConfigError>)
    ensures r.Ok? <==> RequiredPresent(env) && RestartMode(env) in SupportedRestartModes
    ensures r == Err(EnvNotLoaded) <==> !RequiredPresent(env)
    ensures r == Err(RestartModeNotSupported) <==> RequiredPresent(env) && RestartMode(env) !in SupportedRestartModes
    ensures r.Ok? ==> r.value.restartMode == RestartMode(env) && r.value.restartMode in SupportedRestartModes
    ensures r.Ok? ==> && r.value.graphUrl == env[GRAPH_URL]
                      && r.value.bidder == env[BIDDER]
                      && r.value.privateKeysFileLocation == env[PRIVATE_KEYS_FILE_LOCATION]
                      && r.value.outputLocation == env[OUTPUT_LOCATION]
                      && r.value.password == env[PASSWORD]
                      && r.value.ipfsGateway == env[IPFS_GATEWAY]
                      && r.value.tekuProposerFile == env[TEKU_PROPOSER_FILE]
  {
    if !RequiredPresent(env) then Err(EnvNotLoaded)
    else if RestartMode(env) !in SupportedRestartModes then Err(RestartModeNotSupported)
    else Ok(Config(env[GRAPH_URL], env[BIDDER], env[PRIVATE_KEYS_FILE_LOCATION], env[OUTPUT_LOCATION],
                   env[PASSWORD], env[IPFS_GATEWAY], env[TEKU_PROPOSER_FILE], RestartMode(env)))
  }

  /** The environment that spells out a configuration. */
  function EnvOf(c: Config): Env {
    map[GRAPH_URL := c.graphUrl, BIDDER := c.bidder, PRIVATE_KEYS_FILE_LOCATION := c.privateKeysFileLocation,
        OUTPUT_LOCATION := c.outputLocation, PASSWORD := c.password, IPFS_GATEWAY := c.ipfsGateway,
        TEKU_PROPOSER_FILE := c.tekuProposerFile, RESTART_MODE := c.restartMode]
  }

  /** Every configuration with a supported restart mode is read back
      unchanged from its environment, empty strings included; and leaving
      the restart mode unset reads as "none". */
  lemma GetConfigRoundTrip(c: Config)
    requires c.restartMode in SupportedRestartModes
    ensures GetConfig(EnvOf(c)) == Ok(c)
    ensures c.restartMode == "none" ==> GetConfig(EnvOf(c) - {RESTART_MODE}) == Ok(c)
  {
    var env := EnvOf(c);
    assert RequiredPresent(env);
    assert RestartMode(env) == c.restartMode;
    var env' := env - {RESTART_MODE};
    assert RequiredPresent(env');
    assert env'[GRAPH_URL] == c.graphUrl && env'[BIDDER] == c.bidder;
    assert env'[PRIVATE_KEYS_FILE_LOCATION] == c.privateKeysFileLocation;
    assert env'[OUTPUT_LOCATION] == c.outputLocation && env'[PASSWORD] == c.password;
    assert env'[IPFS_GATEWAY] == c.ipfsGateway && env'[TEKU_PROPOSER_FILE] == c.tekuProposerFile;
  }
}

=== FILE: contract_scanner.dfy ===
/** Bid discovery from contract logs (`retrieveAllBidsIterated` in
    src/contract-scanner.js): the start block from the stored checkpoint,
    two chunked scans (BidCreated, then ValidatorRegistered), the join of
    the second stream against a `bidId -> pubKeyIndex` map built from the
    first, and the checkpoint write. The node, the secret store and the
    configuration are parameters. */
module ContractScanner {
  import opened Results
  import opened Text
  import opened Bytes
  import opened JsNumbers
  import opened Json
  import opened Bids
  import opened ChunkScan
  import BlockTracker
  import Decrypt

  /** Whether the checkpoint lives in the secret store (`KEY_STORAGE_MODE`
      equal to the vault case) or nowhere. */
  datatype StorageMode = VaultStorage | LocalStorage

  /** `START_BLOCK`, `SCAN_CHUNK_SIZE`, `MAX_PARALLEL_REQUESTS` and the
      storage mode. */
  datatype Settings = Settings(startBlock: int, chunkSize: nat, maxParallel: nat, mode: StorageMode)

  /** A JavaScript number as it occurs here: an integer, or `NaN`. */
  datatype Num = NaN | Int(n: int)

  /** `String(x)`. */
  function NumToString(x: Num): string {
    match x
    case NaN => "NaN"
    case Int(n) => IntToString(n)
  }

  datatype BidCreatedArgs = BidCreatedArgs(bidIdArray: seq<nat>, ipfsIndexArray: seq<nat>)

  /** A BidCreated log; `args` is absent when the log was not decoded. */
  datatype BidCreated = BidCreated(args: Option<BidCreatedArgs>)

  /** The arguments of a ValidatorRegistered log. A `None` field is one
      whose value could not be decoded: reading it throws. */
  datatype RegisteredArgs = RegisteredArgs(
    operator: Option<string>,
    bNftOwner: Option<string>,
    tNftOwner: Option<string>,
    validatorId: Option<nat>,
    validatorPubKey: Option<seq<byte>>,
    ipfsHashForEncryptedValidatorKey: Option<string>)

  datatype Registered = Registered(args: Option<RegisteredArgs>)

  /** The assignments one BidCreated event makes, in order:
      `Number(ipfsIndexArray[i])` is `NaN` where the index array is
      shorter than the id array. */
  function EventAssignments(a: BidCreatedArgs): seq<(nat, Num)> {
    seq(|a.bidIdArray|, i requires 0 <= i < |a.bidIdArray| =>
      (a.bidIdArray[i], if i < |a.ipfsIndexArray| then Int(a.ipfsIndexArray[i] as int) else NaN))
  }

  /** All assignments of the events, in order; `None` when an event has no
      arguments (the destructuring throws). */
  function Assignments(events: seq<BidCreated>): Option<seq<(nat, Num)>>
    decreases |events|
  {
    if |events| == 0 then Some([])
    else
      var init :- Assignments(events[..|events| - 1]);
      var last := events[|events| - 1];
      if last.args.None? then None else Some(init + EventAssignments(last.args.value))
  }

  /** The map after performing the assignments one after another. */
  function Assign(m: map<nat, Num>, ps: seq<(nat, Num)>): (r: map<nat, Num>)
    ensures r.Keys == m.Keys + set j | 0 <= j < |ps| :: ps[j].0
    decreases |ps|
  {
    if |ps| == 0 then m
    else
      var init := Assign(m, ps[..|ps| - 1]);
      assert forall j :: 0 <= j < |ps| - 1 ==> ps[..|ps| - 1][j] == ps[j];
      init[ps[|ps| - 1].0 := ps[|ps| - 1].1]
  }

  /** Later assignments win: the value of a key is the one of its last
      assignment, or its prior value if it was never assigned. */
  lemma {:induction false} AssignLastWrite(m: map<nat, Num>, ps: seq<(nat, Num)>, k: nat) returns (j: int)
    ensures -1 <= j < |ps|
    ensures forall i :: j < i < |ps| ==> ps[i].0 != k
    ensures j >= 0 ==> ps[j].0 == k && k in Assign(m, ps) && Assign(m, ps)[k] == ps[j].1
    ensures j == -1 ==> (k in Assign(m, ps) <==> k in m) && (k in m ==> Assign(m, ps)[k] == m[k])
    decreases |ps|
  {
    if |ps| == 0 {
      j := -1;
    } else if ps[|ps| - 1].0 == k {
      j := |ps| - 1;
    } else {
      var init := ps[..|ps| - 1];
      j := AssignLastWrite(m, init, k);
      forall i | j < i < |ps|
        ensures ps[i].0 != k
      {
        if i < |ps| - 1 {
          assert ps[i] == init[i];
        }
      }
      if j >= 0 {
        assert ps[j] == init[j];
      }
    }
  }

  /** Within one event an id takes the `ipfsIndexArray` entry at its own
      position, `NaN` past the end of that array; when the id occurs more
      than once, its last position wins. */
  lemma EventIndexAtLastPosition(a: BidCreatedArgs, k: nat)
    requires k < |a.bidIdArray|
    requires forall i :: k < i < |a.bidIdArray| ==> a.bidIdArray[i] != a.bidIdArray[k]
    ensures BidIndexMap([BidCreated(Some(a))]).Some?
    ensures var m := BidIndexMap([BidCreated(Some(a))]).value;
      && a.bidIdArray[k] in m
      && m[a.bidIdArray[k]] == if k < |a.ipfsIndexArray| then Int(a.ipfsIndexArray[k]) else NaN
  {
    var ps := EventAssignments(a);
    SingleEvent(a);
    var j := AssignLastWrite(map[], ps, a.bidIdArray[k]);
    assert ps[k].0 == a.bidIdArray[k];
  }

  lemma SingleEvent(a: BidCreatedArgs)
    ensures BidIndexMap([BidCreated(Some(a))]) == Some(Assign(map[], EventAssignments(a)))
  {
    SingleEventAssignments(a);
  }

  lemma SingleEventAssignments(a: BidCreatedArgs)
    ensures Assignments([BidCreated(Some(a))]) == Some(EventAssignments(a))
  {
    var e := [BidCreated(Some(a))];
    assert e[..0] == [];
    assert Assignments(e[..0]) == Some([]);
    assert [] + EventAssignments(a) == EventAssignments(a);
  }

  /** The `bidIdToPubKeyIndex` loop; `None` when it throws. */
  function BidIndexMap(events: seq<BidCreated>): Option<map<nat, Num>> {
    var ps :- Assignments(events);
    Some(Assign(map[], ps))
  }

  /** `bidIdToPubKeyIndex[bidId] ?? 0`: a missing id reads as 0, a `NaN`
      is kept. */
  function PubKeyIndexOf(m: map<nat, Num>, id: nat): Num {
    if id in m then m[id] else Int(0)
  }

  /** `??` replaces only a missing entry: an id no BidCreated event
      assigned reads as `"0"`, while an id assigned `NaN` keeps `"NaN"`
      (where `||` would have given `"0"`). */
  lemma MissingIndexDefaultsToZero(a: RegisteredArgs, m: map<nat, Num>)
    requires Decodes(a)
    ensures a.validatorId.value !in m ==> BidOf(a, m).pubKeyIndex == "0"
    ensures a.validatorId.value in m && m[a.validatorId.value] == NaN ==> BidOf(a, m).pubKeyIndex == "NaN"
  {
  }

  /** Every argument the transform reads decodes. */
  predicate Decodes(a: RegisteredArgs) {
    && a.operator.Some? && a.bNftOwner.Some? && a.tNftOwner.Some?
    && a.validatorId.Some? && a.validatorPubKey.Some? && a.ipfsHashForEncryptedValidatorKey.Some?
  }

  /** The bid object built from one registration. */
  function BidOf(a: RegisteredArgs, m: map<nat, Num>): (b: Bid)
    requires Decodes(a)
    ensures b.id == NatToString(a.validatorId.value) && b.validator.id == b.id
    ensures b.pubKeyIndex == NumToString(PubKeyIndexOf(m, a.validatorId.value))
    ensures b.bidderAddress == ToLower(a.operator.value)
    ensures NoUpperAscii(b.bidderAddress) && |b.bidderAddress| == |a.operator.value|
    ensures b.validator.phase == "LIVE"
    ensures b.validator.validatorPubKey == "0x" + HexEncode(a.validatorPubKey.value)
    ensures b.validator.ipfsHashForEncryptedValidatorKey == a.ipfsHashForEncryptedValidatorKey.value
    ensures b.validator.etherfiNode == a.tNftOwner.value && b.validator.bnftHolder == a.bNftOwner.value
  {
    var id := NatToString(a.validatorId.value);
    Bid(id, ToLower(a.operator.value), NumToString(PubKeyIndexOf(m, a.validatorId.value)),
        Validator(id, "LIVE", a.ipfsHashForEncryptedValidatorKey.value, "0x" + HexEncode(a.validatorPubKey.value),
                  a.tNftOwner.value, a.bNftOwner.value))
  }

  /** Whether the `catch` handler of the transform can itself run: it reads
      `event.args.validatorId`. */
  predicate Recoverable(e: Registered) {
    e.args.Some? && e.args.value.validatorId.Some?
  }

  /** `transformEventsToSubgraphSchema`: one bid per registration in event
      order; a registration whose arguments do not all decode is logged and
      dropped, unless the handler cannot read its `validatorId`, which ends
      the pass with an error. */
  function Transform(events: seq<Registered>, m: map<nat, Num>): (r: Option<seq<Bid>>)
    ensures r.Some? <==> forall i :: 0 <= i < |events| ==> events[i].args.Some? && (Decodes(events[i].args.value) || Recoverable(events[i]))
    ensures r.Some? ==> |r.value| <= |events|
    ensures r.Some? ==> forall i :: 0 <= i < |r.value| ==> r.value[i].validator.phase == "LIVE"
    decreases |events|
  {
    if |events| == 0 then Some([])
    else
      var e := events[0];
      var rest := Transform(events[1..], m);
      assert forall i :: 1 <= i < |events| ==> events[i] == events[1..][i - 1];
      assert forall i :: 0 <= i < |events| - 1 ==> events[1..][i] == events[i + 1];
      if e.args.None? then None
      else if Decodes(e.args.value) then
        if rest.None? then None else Some([BidOf(e.args.value, m)] + rest.value)
      else if Recoverable(e) then rest
      else None
  }

  /** With every registration decodable, the transform is one bid per
      event, in order. */
  lemma {:induction false} TransformAllDecoded(events: seq<Registered>, m: map<nat, Num>)
    requires forall i :: 0 <= i < |events| ==> events[i].args.Some? && Decodes(events[i].args.value)
    ensures Transform(events, m).Some? && |Transform(events, m).value| == |events|
    ensures forall i :: 0 <= i < |events| ==> Transform(events, m).value[i] == BidOf(events[i].args.value, m)
    decreases |events|
  {
    if |events| > 0 {
      var tail := events[1..];
      assert forall i :: 0 <= i < |tail| ==> tail[i] == events[i + 1];
      TransformAllDecoded(tail, m);
      var r := Transform(events, m).value;
      assert r == [BidOf(events[0].args.value, m)] + Transform(tail, m).value;
      forall i | 1 <= i < |events|
        ensures r[i] == BidOf(events[i].args.value, m)
      {
        assert r[i] == Transform(tail, m).value[i - 1];
      }
    }
  }

  /** A registration that does not decode, but whose id can be read, is
      dropped and changes nothing else. */
  lemma TransformDropsUndecodable(e: Registered, rest: seq<Registered>, m: map<nat, Num>)
    requires Recoverable(e) && !Decodes(e.args.value)
    ensures Transform([e] + rest, m) == Transform(rest, m)
  {
    assert ([e] + rest)[1..] == rest;
  }

  /** The join: a bid's `pubKeyIndex` is the index of the last BidCreated
      assignment of its id, or 0 when there is none. */
  lemma JoinUsesLastBidCreated(created: seq<BidCreated>, a: RegisteredArgs) returns (j: int)
    requires BidIndexMap(created).Some? && Decodes(a)
    ensures var ps := Assignments(created).value;
      && -1 <= j < |ps|
      && (forall i :: j < i < |ps| ==> ps[i].0 != a.validatorId.value)
      && (j >= 0 ==> (ps[j].0 == a.validatorId.value
                      && BidOf(a, BidIndexMap(created).value).pubKeyIndex == NumToString(ps[j].1)))
      && (j == -1 ==> BidOf(a, BidIndexMap(created).value).pubKeyIndex == "0")
  {
    var ps := Assignments(created).value;
    j := AssignLastWrite(map[], ps, a.validatorId.value);
  }

  /** A bid's `pubKeyIndex` is read back by `parseInt` as the index the
      event carried, so it selects that keypair; a `NaN` index selects none. */
  lemma ScannedIndexSelectsKeypair(x: Num, privateKeys: seq<Json>, publicKeys: seq<Json>)
    ensures x.Int? && 0 <= x.n < |privateKeys| && x.n < |publicKeys| ==>
      (Decrypt.GetKeyPairByPubKeyIndex(NumToString(x), Some(JArr(privateKeys)), Some(JArr(publicKeys)))
       == Some(Decrypt.KeyPair(Some(privateKeys[x.n]), Some(publicKeys[x.n]))))
    ensures x.NaN? ==>
      (Decrypt.GetKeyPairByPubKeyIndex(NumToString(x), Some(JArr(privateKeys)), Some(JArr(publicKeys)))
       == Some(Decrypt.KeyPair(None, None)))
  {
    if x.Int? {
      ParseIntOfIntToString(x.n, Auto);
    } else {
      assert "NaN"[0] == 'N';
      assert !IsJsSpace('N');
      assert TrimStart("NaN") == "NaN";
      assert DigitRun("NaN", 10) == 0;
    }
  }

  /** Where the pass resumes: START_BLOCK when there is no checkpoint, when
      it is `NaN` or 0 (`!lastScannedBlock`), or when it lies below
      START_BLOCK; the stored block otherwise. */
  function EffectiveStart(cp: BlockTracker.Checkpoint, startBlock: int): (start: int)
    ensures start >= startBlock
    ensures cp.Block? && cp.n != 0 && cp.n >= startBlock ==> start == cp.n
    ensures !(cp.Block? && cp.n != 0 && cp.n >= startBlock) ==> start == startBlock
  {
    match cp
    case NoCheckpoint => startBlock
    case NotANumber => startBlock
    case Block(n) => if n == 0 || n < startBlock then startBlock else n
  }

  /** The finalized block and the two logs as the node serves them for the
      bidder's filters, with the failures of each scan's queries. */
  datatype Chain = Chain(
    finalized: int,
    bidCreatedLog: seq<Logged<BidCreated>>,
    registeredLog: seq<Logged<Registered>>,
    bidCreatedFaults: Faults,
    registeredFaults: Faults)

  /** The checkpoint secret as the pass finds it: the read behind
      `getLastScannedBlock`, and what `setLastScannedBlock` meets (token
      file, its own read, the time stamp, the outcome of the write). */
  datatype CheckpointStore = CheckpointStore(
    read: BlockTracker.ReadOutcome,
    tokenReadable: bool,
    readBeforeWrite: BlockTracker.ReadOutcome,
    now: string,
    writeFailure: Option<BlockTracker.Failure>)

  datatype ScanError =
    | CheckpointUnreadable(failure: BlockTracker.Failure)
    | QueryFailed(message: string)
    | UndecodableBidCreated
    | UndecodableRegistration
    | CheckpointNotWritten(failure: BlockTracker.Failure)

  /** What a pass came to: the bids or the error, the chunks each scan
      queried, and the record written to the checkpoint secret, if any. */
  datatype PassOutcome = PassOutcome(
    bids: Result<seq<Bid>, ScanError>,
    bidCreatedQueried: seq<Chunk>,
    registeredQueried: seq<Chunk>,
    written: Option<BlockTracker.Record>)

  /** What one query per event over the blocks from `first` to the
      finalized block would give: every registration of that range
      transformed against the index map of every BidCreated event of it. */
  function WholeRangeBids(chain: Chain, first: int): Option<seq<Bid>> {
    var created := EventsIn(chain.bidCreatedLog, first, chain.finalized);
    var registered := EventsIn(chain.registeredLog, first, chain.finalized);
    match BidIndexMap(created)
    case None => None
    case Some(m) => Transform(registered, m)
  }

  predicate WholeRange(chain: Chain, first: int, bids: seq<Bid>) {
    WholeRangeBids(chain, first) == Some(bids)
  }

  /** No chunk of the blocks from `first` to `last` fails all three
      attempts under `faults`. */
  predicate NoChunkExhausted(faults: Faults, first: int, last: int, chunkSize: nat)
    requires chunkSize >= 1
  {
    forall c :: c in Chunks(first, last, chunkSize) ==> !Exhausted(faults, c)
  }

  /** The checkpoint write at the end of a pass cannot fail: local mode
      skips it, and in vault mode `setLastScannedBlock` succeeds. */
  predicate CheckpointWritable(s: Settings, store: CheckpointStore, finalized: int) {
    || s.mode.LocalStorage?
    || BlockTracker.SetLastScannedBlock(store.tokenReadable, store.readBeforeWrite, finalized,
                                        store.now, store.writeFailure).Ok?
  }

  /** Scanning the blocks from `first` to the finalized block succeeds: no
      chunk of either scan is exhausted, the events of the range decode,
      and the checkpoint write cannot fail. */
  predicate RangePasses(s: Settings, chain: Chain, store: CheckpointStore, first: int)
    requires s.chunkSize >= 1
  {
    && NoChunkExhausted(chain.bidCreatedFaults, first, chain.finalized, s.chunkSize)
    && NoChunkExhausted(chain.registeredFaults, first, chain.finalized, s.chunkSize)
    && WholeRangeBids(chain, first).Some?
    && CheckpointWritable(s, store, chain.finalized)
  }

  /** The checkpoint the pass starts from: read only in vault mode. */
  function StoredCheckpoint(s: Settings, store: CheckpointStore): Result<BlockTracker.Checkpoint, BlockTracker.Failure> {
    if s.mode == VaultStorage then BlockTracker.GetLastScannedBlock(store.read) else Ok(BlockTracker.NoCheckpoint)
  }

  /** `retrieveAllBidsIterated`. `cleanupExitedKeys` is accepted and never
      read. */
  method RetrieveAllBidsIterated(s: Settings, cleanupExitedKeys: bool, chain: Chain, store: CheckpointStore)
    returns (r: PassOutcome)
    requires s.chunkSize >= 1 && s.maxParallel >= 1
    ensures StoredCheckpoint(s, store).Err? ==>
      r == PassOutcome(Err(CheckpointUnreadable(StoredCheckpoint(s, store).error)), [], [], None)
    ensures StoredCheckpoint(s, store).Ok? && EffectiveStart(StoredCheckpoint(s, store).value, s.startBlock) >= chain.finalized
      ==> r == PassOutcome(Ok([]), [], [], None)
    ensures r.written.Some? ==> s.mode == VaultStorage && r.bids.Ok?
    ensures r.bids.Ok? && s.mode == VaultStorage && r.bidCreatedQueried != [] ==> r.written.Some?
    ensures r.written.Some? ==> CheckpointAdvances(s, store, chain.finalized, r.written.value)
    ensures StoredCheckpoint(s, store).Ok? && r.bids.Ok?
            && SortedByBlock(chain.bidCreatedLog) && SortedByBlock(chain.registeredLog)
            ==> WholeRange(chain, EffectiveStart(StoredCheckpoint(s, store).value, s.startBlock) + 1, r.bids.value)
    ensures StoredCheckpoint(s, store).Ok? ==>
            var first := EffectiveStart(StoredCheckpoint(s, store).value, s.startBlock) + 1;
            && first <= chain.finalized
            && (!NoChunkExhausted(chain.bidCreatedFaults, first, chain.finalized, s.chunkSize)
                || !NoChunkExhausted(chain.registeredFaults, first, chain.finalized, s.chunkSize))
            ==> r.bids.Err? && r.written.None?
    ensures SortedByBlock(chain.bidCreatedLog) && SortedByBlock(chain.registeredLog) ==>
      (r.bids.Ok? <==>
        && StoredCheckpoint(s, store).Ok?
        && var first := EffectiveStart(StoredCheckpoint(s, store).value, s.startBlock) + 1;
           first > chain.finalized || RangePasses(s, chain, store, first))
  {
    var stored := StoredCheckpoint(s, store);
    if stored.Err? {
      return PassOutcome(Err(CheckpointUnreadable(stored.error)), [], [], None);
    }
    var resume := EffectiveStart(stored.value, s.startBlock);
    if resume >= chain.finalized {
      NothingToScan(chain, resume + 1);
      return PassOutcome(Ok([]), [], [], None);
    }
    r := ScanRange(s, resume + 1, chain, store);
    if r.written.Some? {
      WrittenCheckpointAdvances(s, store, chain.finalized, r.written.value);
    }
  }

  /** What the pass leaves for the next one: the stored checkpoint was
      readable and, when it was a nonzero block, lay below the finalized
      block; the next pass, reading back the record written, finds exactly
      the finalized block and resumes there. */
  predicate CheckpointAdvances(s: Settings, store: CheckpointStore, finalized: int, written: BlockTracker.Record) {
    && StoredCheckpoint(s, store).Ok?
    && (StoredCheckpoint(s, store).value.Block? && StoredCheckpoint(s, store).value.n != 0
        ==> StoredCheckpoint(s, store).value.n < finalized)
    && var next := store.(read := BlockTracker.ReadFrom(Some(written)));
       && StoredCheckpoint(s, next) == Ok(BlockTracker.Block(finalized))
       && (finalized != 0 ==> EffectiveStart(BlockTracker.Block(finalized), s.startBlock) == finalized)
  }

  lemma WrittenCheckpointAdvances(s: Settings, store: CheckpointStore, finalized: int, written: BlockTracker.Record)
    requires s.mode == VaultStorage
    requires BlockTracker.LastScannedBlock in written && written[BlockTracker.LastScannedBlock] == JNum(finalized)
    requires StoredCheckpoint(s, store).Ok? && finalized > EffectiveStart(StoredCheckpoint(s, store).value, s.startBlock)
    ensures CheckpointAdvances(s, store, finalized, written)
  {
    ReadBackWritten(written, finalized);
    var next := store.(read := BlockTracker.ReadFrom(Some(written)));
    assert StoredCheckpoint(s, next) == BlockTracker.GetLastScannedBlock(BlockTracker.ReadFrom(Some(written)));
  }

  /** A range that starts after the finalized block holds no event, so no
      bid is the whole of it. */
  lemma NothingToScan(chain: Chain, first: int)
    requires first > chain.finalized
    ensures WholeRange(chain, first, [])
  {
    EventsInEmptyRange(chain.bidCreatedLog, first, chain.finalized);
    EventsInEmptyRange(chain.registeredLog, first, chain.finalized);
    assert BidIndexMap([]) == Some(map[]);
  }

  /** The pass once it has a range to scan: the BidCreated scan and the
      index map, then the rest. A failed BidCreated scan ends the pass: no
      ValidatorRegistered query is sent and the checkpoint is not written. */
  method ScanRange(s: Settings, first: int, chain: Chain, store: CheckpointStore) returns (r: PassOutcome)
    requires s.chunkSize >= 1 && s.maxParallel >= 1 && first <= chain.finalized
    ensures r.bidCreatedQueried != []
    ensures r.written.Some? ==> s.mode == VaultStorage && r.bids.Ok?
    ensures r.written.Some? ==>
      BlockTracker.LastScannedBlock in r.written.value && r.written.value[BlockTracker.LastScannedBlock] == JNum(chain.finalized)
    ensures r.bids.Ok? && s.mode == VaultStorage ==> r.written.Some?
    ensures r.bids.Ok? && SortedByBlock(chain.bidCreatedLog) && SortedByBlock(chain.registeredLog)
            ==> WholeRange(chain, first, r.bids.value)
    ensures ScanEventInChunks(chain.bidCreatedLog, chain.bidCreatedFaults, first, chain.finalized,
                              s.chunkSize, s.maxParallel).events.Err?
            ==> r.bids.Err? && r.bids.error.QueryFailed? && r.registeredQueried == [] && r.written.None?
    ensures !NoChunkExhausted(chain.bidCreatedFaults, first, chain.finalized, s.chunkSize)
            ==> r.bids.Err? && r.bids.error.QueryFailed? && r.registeredQueried == [] && r.written.None?
    ensures !NoChunkExhausted(chain.registeredFaults, first, chain.finalized, s.chunkSize)
            ==> r.bids.Err? && r.written.None?
    ensures SortedByBlock(chain.bidCreatedLog) && SortedByBlock(chain.registeredLog) ==>
      (r.bids.Ok? <==> RangePasses(s, chain, store, first))
  {
    ScanFailsIffChunkExhausted(chain.bidCreatedLog, chain.bidCreatedFaults, first, chain.finalized, s.chunkSize, s.maxParallel);
    var created := ScanEventInChunks(chain.bidCreatedLog, chain.bidCreatedFaults, first, chain.finalized,
                                     s.chunkSize, s.maxParallel);
    var cq := created.queried;
    if created.events.Err? {
      ScanQueriesSomething(chain.bidCreatedLog, chain.bidCreatedFaults, first, chain.finalized, s.chunkSize, s.maxParallel);
      return PassOutcome(Err(QueryFailed(created.events.error)), cq, [], None);
    }
    ScanQueriesAllChunks(chain.bidCreatedLog, chain.bidCreatedFaults, first, chain.finalized, s.chunkSize, s.maxParallel);
    if SortedByBlock(chain.bidCreatedLog) {
      ScanReturnsRange(chain.bidCreatedLog, chain.bidCreatedFaults, first, chain.finalized, s.chunkSize, s.maxParallel);
    }
    match BidIndexMap(created.events.value)
    case None =>
      return PassOutcome(Err(UndecodableBidCreated), cq, [], None);
    case Some(m) =>
      r := ScanRegistrations(s, first, chain, store, cq, m);
  }

  /** The ValidatorRegistered scan, the transform, and the checkpoint
      write in vault mode. */
  method ScanRegistrations(s: Settings, first: int, chain: Chain, store: CheckpointStore,
                           cq: seq<Chunk>, m: map<nat, Num>) returns (r: PassOutcome)
    requires s.chunkSize >= 1 && s.maxParallel >= 1
    ensures r.bidCreatedQueried == cq
    ensures r.written.Some? ==> s.mode == VaultStorage && r.bids.Ok?
    ensures r.written.Some? ==>
      BlockTracker.LastScannedBlock in r.written.value && r.written.value[BlockTracker.LastScannedBlock] == JNum(chain.finalized)
    ensures r.bids.Ok? && s.mode == VaultStorage ==> r.written.Some?
    ensures r.bids.Ok? && SortedByBlock(chain.registeredLog) ==>
      Transform(EventsIn(chain.registeredLog, first, chain.finalized), m) == Some(r.bids.value)
    ensures !NoChunkExhausted(chain.registeredFaults, first, chain.finalized, s.chunkSize)
            ==> r.bids.Err? && r.bids.error.QueryFailed? && r.written.None?
    ensures SortedByBlock(chain.registeredLog) ==>
      (r.bids.Ok? <==>
        && NoChunkExhausted(chain.registeredFaults, first, chain.finalized, s.chunkSize)
        && Transform(EventsIn(chain.registeredLog, first, chain.finalized), m).Some?
        && CheckpointWritable(s, store, chain.finalized))
  {
    ScanFailsIffChunkExhausted(chain.registeredLog, chain.registeredFaults, first, chain.finalized, s.chunkSize, s.maxParallel);
    var registered := ScanEventInChunks(chain.registeredLog, chain.registeredFaults, first, chain.finalized,
                                        s.chunkSize, s.maxParallel);
    var rq := registered.queried;
    if registered.events.Err? {
      return PassOutcome(Err(QueryFailed(registered.events.error)), cq, rq, None);
    }
    if SortedByBlock(chain.registeredLog) {
      ScanReturnsRange(chain.registeredLog, chain.registeredFaults, first, chain.finalized, s.chunkSize, s.maxParallel);
    }
    match Transform(registered.events.value, m)
    case None =>
      return PassOutcome(Err(UndecodableRegistration), cq, rq, None);
    case Some(bids) =>
      if s.mode.LocalStorage? {
        return PassOutcome(Ok(bids), cq, rq, None);
      }
      match BlockTracker.SetLastScannedBlock(store.tokenReadable, store.readBeforeWrite, chain.finalized,
                                             store.now, store.writeFailure)
      case Err(f) =>
        return PassOutcome(Err(CheckpointNotWritten(f)), cq, rq, None);
      case Ok(rec) =>
        return PassOutcome(Ok(bids), cq, rq, Some(rec));
  }

  /** A record whose `lastScannedBlock` is the number `n` reads back as
      block `n`. */
  lemma ReadBackWritten(rec: BlockTracker.Record, n: int)
    requires BlockTracker.LastScannedBlock in rec && rec[BlockTracker.LastScannedBlock] == JNum(n)
    ensures BlockTracker.GetLastScannedBlock(BlockTracker.ReadFrom(Some(rec))) == Ok(BlockTracker.Block(n))
  {
    ParseIntOfIntToString(n, Decimal);
  }

  /** `retrieveAllCleanupBidsIterated`: the cleanup scan is disabled and
      reports no bids. */
  function RetrieveAllCleanupBidsIterated(): seq<Bid> {
    []
  }

  lemma ScanQueriesAllChunks<E>(log: seq<Logged<E>>, faults: Faults, fromBlock: int, toBlock: int,
                                chunkSize: nat, maxParallel: nat)
    requires chunkSize >= 1 && maxParallel >= 1
    requires ScanEventInChunks(log, faults, fromBlock, toBlock, chunkSize, maxParallel).events.Ok?
    ensures ScanEventInChunks(log, faults, fromBlock, toBlock, chunkSize, maxParallel).queried == Chunks(fromBlock, toBlock, chunkSize)
  {
  }

  lemma ScanQueriesSomething<E>(log: seq<Logged<E>>, faults: Faults, fromBlock: int, toBlock: int,
                                chunkSize: nat, maxParallel: nat)
    requires chunkSize >= 1 && maxParallel >= 1
    requires ScanEventInChunks(log, faults, fromBlock, toBlock, chunkSize, maxParallel).events.Err?
    ensures ScanEventInChunks(log, faults, fromBlock, toBlock, chunkSize, maxParallel).queried != []
  {
    var bs := Batches(Chunks(fromBlock, toBlock, chunkSize), maxParallel);
    var k := RunBatchesStopsAtFailure(log, faults, bs);
    assert bs[..k + 1] == [bs[0]] + bs[..k + 1][1..];
    assert Flatten(bs[..k + 1]) == bs[0] + Flatten(bs[..k + 1][1..]);
  }
}

=== FILE: cron_detect.dfy ===
/** The detection job (`run` in src/cron-detect.js): for every won bid
    whose key files are not yet on disk, fetch the encrypted payload,
    unwrap it with the operator keypair the bid's `pubKeyIndex` selects,
    write the two files, record the fee recipient and send SIGHUP to the
    Teku containers. The first failure ends the run. The payload store, the
    keypair file, the primitives and the Docker daemon are parameters. */
module CronDetect {
  import opened Results
  import opened Json
  import opened Bids
  import opened Decrypt
  import opened FileStore
  import Teku
  import Subgraph

  /** What a run works with: the configured output directory and keypair
      password, the encrypted keypair file (`extractPrivateKeysFromFS`),
      the payloads by IPFS hash (`fetchFromIpfs`), the primitives,
      `JSON.stringify`, the Docker listing and the containers whose signal
      fails, and `TEKU_PROPOSER_FILE`. */
  datatype Node = Node(
    outputLocation: string,
    password: string,
    keyFile: EncryptedKeyFile,
    ipfs: map<string, Payload>,
    primitives: Primitives,
    stringify: Json -> string,
    containers: Option<seq<Teku.Container>>,
    failingSignals: set<string>,
    proposerFile: string)

  /** `const { pubKeyArray, privKeyArray } = validatorKey`: destructuring
      `null` throws (`None`); otherwise each name reads the field of that
      name, `undefined` (`None`) when the field is missing or the keypair
      set is not an object. */
  function KeyArrays(keys: Json): (r: Option<(Option<Json>, Option<Json>)>)
    ensures r.None? <==> keys.JNull?
    ensures r.Some? && !keys.JObj? ==> r.value == (None, None)
    ensures r.Some? && keys.JObj? ==>
      && (r.value.0.Some? <==> "privKeyArray" in keys.fields)
      && (r.value.0.Some? ==> r.value.0.value == keys.fields["privKeyArray"])
      && (r.value.1.Some? <==> "pubKeyArray" in keys.fields)
      && (r.value.1.Some? ==> r.value.1.value == keys.fields["pubKeyArray"])
  {
    match keys
    case JNull => None
    case JObj(fields) =>
      Some((if "privKeyArray" in fields then Some(fields["privKeyArray"]) else None,
            if "pubKeyArray" in fields then Some(fields["pubKeyArray"]) else None))
    case _ => Some((None, None))
  }

  /** Lines 31 to 33: the keypair at the bid's index; `None` where the
      destructuring or the lookup throws. */
  function KeyPairOf(keys: Json, pubKeyIndex: string): Option<KeyPair> {
    var arrays :- KeyArrays(keys);
    GetKeyPairByPubKeyIndex(pubKeyIndex, arrays.0, arrays.1)
  }

  /** The keypair set holds two key sets that are neither missing nor
      `null`. */
  predicate ReadableKeySet(keys: Json) {
    && keys.JObj?
    && "privKeyArray" in keys.fields && !keys.fields["privKeyArray"].JNull?
    && "pubKeyArray" in keys.fields && !keys.fields["pubKeyArray"].JNull?
  }

  /** Lines 31 to 33 throw exactly when the keypair set is not readable:
      a key set that is a string, a number or an object rather than an
      array is indexed without an error. */
  lemma KeyLookupThrowsIffUnreadable(keys: Json, pubKeyIndex: string)
    ensures KeyPairOf(keys, pubKeyIndex).Some? <==> ReadableKeySet(keys)
  {
  }

  /** Lines 29 to 34 for one bid: the payload, the keypair set, the keypair
      at the bid's index and the unwrapped key information; `None` where
      one of them throws. */
  function Unwrap(node: Node, bid: Bid): (r: Option<KeyInfo>)
    ensures r.Some? ==> bid.validator.ipfsHashForEncryptedValidatorKey in node.ipfs
    ensures r.Some? ==>
      var kp := KeyPairOf(DecryptKeyPairJson(node.primitives, node.keyFile, node.password), bid.pubKeyIndex);
      && kp.Some?
      && DecryptValidatorKeyInfo(node.primitives, node.ipfs[bid.validator.ipfsHashForEncryptedValidatorKey], kp.value) == r
    ensures bid.validator.ipfsHashForEncryptedValidatorKey !in node.ipfs ==> r.None?
    ensures !ReadableKeySet(DecryptKeyPairJson(node.primitives, node.keyFile, node.password)) ==> r.None?
    ensures DecryptPrivateKeys(node.primitives, node.keyFile, node.password).None? ==> r.None?
  {
    var hash := bid.validator.ipfsHashForEncryptedValidatorKey;
    if hash !in node.ipfs then None
    else
      var file := node.ipfs[hash];
      var keys := DecryptKeyPairJson(node.primitives, node.keyFile, node.password);
      KeyLookupThrowsIffUnreadable(keys, bid.pubKeyIndex);
      var kp :- KeyPairOf(keys, bid.pubKeyIndex);
      DecryptValidatorKeyInfo(node.primitives, file, kp)
  }

  /** The arguments of one `saveTekuProposerConfig` call: the proposer
      file, the validator's public key and its fee recipient. */
  datatype ProposerSave = ProposerSave(file: string, validatorPubKey: string, feeRecipient: string)

  /** The fee-recipient record line 42 saves for a bid: its validator's
      public key, paid to its ether.fi node. */
  function ProposerSaveFor(node: Node, bid: Bid): ProposerSave {
    ProposerSave(node.proposerFile, bid.validator.validatorPubKey, bid.validator.etherfiNode)
  }

  /** A bid the run wrote files for: the key information written, the
      `saveTekuProposerConfig` call made after the write, and the reload
      that followed it. */
  datatype Processed = Processed(bid: Bid, data: KeyInfo, proposer: ProposerSave, reload: Teku.ReloadOutcome)

  /** What a run came to: the filesystem, the bids processed with their
      positions in the bid list, how many bids it got past, and whether it
      finished the list. */
  datatype RunOutcome = RunOutcome(
    fs: Fs,
    processed: seq<Processed>,
    positions: seq<nat>,
    reached: nat,
    completed: bool)

  /** The output directory holds the files of every bid before `n`. */
  predicate FilesUpTo(fs: Fs, location: string, bids: seq<Bid>, n: nat)
    requires n <= |bids|
  {
    forall i :: 0 <= i < n ==> ValidatorFilesExist(fs, location, bids[i].id)
  }

  /** Every file of `fs` is still in `fs'` with the same contents. */
  predicate Keeps(fs: Fs, fs': Fs) {
    forall p :: p in fs.files ==> p in fs'.files && fs'.files[p] == fs.files[p]
  }

  /** What the run reports about the bids it processed: they are bids of
      the list, in list order at increasing positions below `bound`; none
      had its files at the start and each has them in `fs`; and no id was
      processed twice, since a bid whose id was already written finds its
      files and is skipped. */
  predicate Recorded(node: Node, fs0: Fs, fs: Fs, bids: seq<Bid>, processed: seq<Processed>, positions: seq<nat>, bound: nat) {
    && |positions| == |processed|
    && (forall k :: 0 <= k < |positions| ==> positions[k] < bound && positions[k] < |bids|)
    && (forall k, l :: 0 <= k < l < |positions| ==> positions[k] < positions[l])
    && (forall k :: 0 <= k < |processed| ==>
          && processed[k].bid == bids[positions[k]]
          && !ValidatorFilesExist(fs0, node.outputLocation, processed[k].bid.id)
          && ValidatorFilesExist(fs, node.outputLocation, processed[k].bid.id))
    && (forall k, l :: 0 <= k < l < |processed| ==> processed[k].bid.id != processed[l].bid.id)
  }

  /** Each processed bid carries the unwrap of its payload, the proposer
      record saved for it, and the outcome of the SIGHUP round that
      followed. */
  predicate Faithful(node: Node, processed: seq<Processed>) {
    forall k :: 0 <= k < |processed| ==> ProcessedFaithfully(node, processed[k])
  }

  predicate ProcessedFaithfully(node: Node, p: Processed) {
    && Unwrap(node, p.bid) == Some(p.data)
    && p.proposer == ProposerSaveFor(node, p.bid)
    && p.reload == Teku.ExpectedReload(node.containers, node.failingSignals)
  }

  /** The filesystem after writing the output of each processed bid in
      turn. */
  function WrittenOutputs(fs0: Fs, location: string, processed: seq<Processed>, stringify: Json -> string): Fs
    decreases |processed|
  {
    if |processed| == 0 then fs0
    else
      var last := processed[|processed| - 1];
      CreateFSBidOutput(WrittenOutputs(fs0, location, processed[..|processed| - 1], stringify),
                        location, last.data, last.bid.id, stringify)
  }

  /** The ids of the processed bids. */
  function IdsOf(processed: seq<Processed>): set<string>
    decreases |processed|
  {
    if |processed| == 0 then {} else IdsOf(processed[..|processed| - 1]) + {processed[|processed| - 1].bid.id}
  }

  /** The run changed the filesystem only by writing the output of the
      processed bids, in order. */
  predicate Framed(node: Node, fs0: Fs, fs: Fs, processed: seq<Processed>) {
    fs == WrittenOutputs(fs0, node.outputLocation, processed, node.stringify)
  }

  /** Every bid before `n` that had no files at the start was processed:
      itself, or an earlier bid of the same id, after which it is
      skipped. */
  predicate Complete(node: Node, fs0: Fs, bids: seq<Bid>, processed: seq<Processed>, n: nat) {
    forall j :: 0 <= j < n && j < |bids| && !ValidatorFilesExist(fs0, node.outputLocation, bids[j].id) ==>
      bids[j].id in IdsOf(processed)
  }

  /** What a run reports: it got past at most the whole list and finished
      exactly when it got past all of it; it lost no file; every bid before
      the stopping point has its files; the processed bids are recorded
      faithfully, each with the proposer record saved for it, the files
      written are exactly their outputs, and every bid before the stopping
      point that had no files was processed; every
      reload but the last one succeeded (all of them when the run
      finished), and a failed one ends the run at its bid; a run stops
      early either because the reload after the bid at the stopping point
      failed or because that bid had no files and its key could not be
      unwrapped; and a run over bids that all have their files changes
      nothing. */
  predicate Reports(node: Node, fs0: Fs, bids: seq<Bid>, out: RunOutcome) {
    && out.reached <= |bids|
    && (out.completed <==> out.reached == |bids|)
    && Keeps(fs0, out.fs) && fs0.dirs <= out.fs.dirs
    && FilesUpTo(out.fs, node.outputLocation, bids, out.reached)
    && Recorded(node, fs0, out.fs, bids, out.processed, out.positions, out.reached + 1)
    && Faithful(node, out.processed)
    && Framed(node, fs0, out.fs, out.processed)
    && Complete(node, fs0, bids, out.processed, out.reached)
    && (|out.processed| > 0 && !out.processed[|out.processed| - 1].reload.ok ==>
          !out.completed && out.positions[|out.positions| - 1] == out.reached)
    && (forall k :: 0 <= k < |out.processed| - 1 ==> out.processed[k].reload.ok)
    && (out.completed ==> forall k :: 0 <= k < |out.processed| ==> out.processed[k].reload.ok)
    && (!out.completed ==>
          || (|out.processed| > 0 && out.positions[|out.positions| - 1] == out.reached
              && !out.processed[|out.processed| - 1].reload.ok)
          || (!ValidatorFilesExist(out.fs, node.outputLocation, bids[out.reached].id)
              && Unwrap(node, bids[out.reached]).None?))
    && (FilesUpTo(fs0, node.outputLocation, bids, |bids|) ==> out == RunOutcome(fs0, [], [], |bids|, true))
  }

  /** Each bid a run processed (as `Reports` records it) had line 42 save its validator's public key
      with its ether.fi node as fee recipient, in the configured proposer
      file. */
  lemma ProposerSavedPerProcessedBid(node: Node, fs0: Fs, bids: seq<Bid>, out: RunOutcome, k: nat)
    requires Recorded(node, fs0, out.fs, bids, out.processed, out.positions, out.reached + 1)
    requires Faithful(node, out.processed) && k < |out.processed|
    ensures out.positions[k] < |bids|
    ensures out.processed[k].proposer
         == ProposerSave(node.proposerFile, bids[out.positions[k]].validator.validatorPubKey,
                         bids[out.positions[k]].validator.etherfiNode)
  {
    assert ProcessedFaithfully(node, out.processed[k]);
  }

  /** `run` over the bids the subgraph returned. */
  method Run(node: Node, fs0: Fs, bids: seq<Bid>) returns (out: RunOutcome)
    ensures Reports(node, fs0, bids, out)
  {
    var fs := fs0;
    var processed: seq<Processed> := [];
    var positions: seq<nat> := [];
    var i: nat := 0;
    while i < |bids|
      invariant Running(node, fs0, fs, bids, processed, positions, i)
    {
      var turn := TakeTurn(node, fs0, fs, bids, processed, positions, i);
      match turn
      case Stop(result) =>
        return result;
      case Next(fs', processed', positions') =>
        fs, processed, positions := fs', processed', positions';
        i := i + 1;
    }
    ReportCompleted(node, fs0, fs, bids, processed, positions);
    return RunOutcome(fs, processed, positions, |bids|, true);
  }

  /** The loop's state before bid `i`: the run's progress so far, every
      reload succeeded, and nothing has happened yet when every bid had its
      files at the start. */
  predicate Running(node: Node, fs0: Fs, fs: Fs, bids: seq<Bid>, processed: seq<Processed>, positions: seq<nat>, i: nat) {
    && Progress(node, fs0, fs, bids, processed, positions, i)
    && (forall k :: 0 <= k < |processed| ==> processed[k].reload.ok)
    && (FilesUpTo(fs0, node.outputLocation, bids, |bids|) ==> fs == fs0 && processed == [] && positions == [])
  }

  /** How one turn of the loop ends: the run stops with an outcome, or goes
      on to the next bid with a new state. */
  datatype Turn = Stop(result: RunOutcome) | Next(fs: Fs, processed: seq<Processed>, positions: seq<nat>)

  /** One turn of the loop, for the bid at `i`. */
  method TakeTurn(node: Node, fs0: Fs, fs: Fs, bids: seq<Bid>, processed: seq<Processed>, positions: seq<nat>, i: nat)
    returns (turn: Turn)
    requires i < |bids| && Running(node, fs0, fs, bids, processed, positions, i)
    ensures turn.Stop? ==> Reports(node, fs0, bids, turn.result)
    ensures turn.Next? ==> Running(node, fs0, turn.fs, bids, turn.processed, turn.positions, i + 1)
  {
    var step := ProcessBid(node, fs, bids[i]);
    match step
    case Skipped =>
      ProgressSkip(node, fs0, fs, bids, processed, positions, i);
      return Next(fs, processed, positions);
    case Abandoned =>
      ReportAbandoned(node, fs0, fs, bids, processed, positions, i);
      return Stop(RunOutcome(fs, processed, positions, i, false));
    case Wrote(fs', p) =>
      ProgressWrite(node, fs0, fs, fs', bids, processed, positions, i, p);
      if !p.reload.ok {
        ReportReloadFailed(node, fs0, fs', bids, processed, positions, i, p);
        return Stop(RunOutcome(fs', processed + [p], positions + [i], i, false));
      }
      return Next(fs', processed + [p], positions + [i]);
  }

  /** The state of the loop before bid `i`: nothing earlier was lost, every
      bid before `i` has its files, and the processed bids are recorded
      faithfully. */
  predicate Progress(node: Node, fs0: Fs, fs: Fs, bids: seq<Bid>, processed: seq<Processed>, positions: seq<nat>, i: nat) {
    && i <= |bids|
    && Keeps(fs0, fs) && fs0.dirs <= fs.dirs
    && FilesUpTo(fs, node.outputLocation, bids, i)
    && Recorded(node, fs0, fs, bids, processed, positions, i)
    && Faithful(node, processed)
    && Framed(node, fs0, fs, processed)
    && Complete(node, fs0, bids, processed, i)
  }

  /** A bid whose files exist is passed over. */
  lemma ProgressSkip(node: Node, fs0: Fs, fs: Fs, bids: seq<Bid>, processed: seq<Processed>, positions: seq<nat>, i: nat)
    requires Progress(node, fs0, fs, bids, processed, positions, i)
    requires i < |bids| && ValidatorFilesExist(fs, node.outputLocation, bids[i].id)
    ensures Progress(node, fs0, fs, bids, processed, positions, i + 1)
  {
    FilesUpToStep(fs, node.outputLocation, bids, i);
    if !ValidatorFilesExist(fs0, node.outputLocation, bids[i].id) {
      NewFilesAreProcessed(fs0, node.outputLocation, processed, node.stringify, bids[i].id);
    }
  }

  /** A bid without files whose key cannot be unwrapped ends the run at its
      position. */
  lemma ReportAbandoned(node: Node, fs0: Fs, fs: Fs, bids: seq<Bid>, processed: seq<Processed>, positions: seq<nat>, i: nat)
    requires Progress(node, fs0, fs, bids, processed, positions, i)
    requires forall k :: 0 <= k < |processed| ==> processed[k].reload.ok
    requires i < |bids| && !ValidatorFilesExist(fs, node.outputLocation, bids[i].id)
    requires Unwrap(node, bids[i]).None?
    ensures Reports(node, fs0, bids, RunOutcome(fs, processed, positions, i, false))
  {
    AbsentFilesMissedEarlier(fs0, fs, node.outputLocation, bids, i);
    RecordedWiden(node, fs0, fs, bids, processed, positions, i);
  }

  /** A failed reload after the bid at `i` ends the run there. */
  lemma ReportReloadFailed(node: Node, fs0: Fs, fs: Fs, bids: seq<Bid>, processed: seq<Processed>, positions: seq<nat>,
                           i: nat, p: Processed)
    requires Progress(node, fs0, fs, bids, processed + [p], positions + [i], i + 1)
    requires forall k :: 0 <= k < |processed| ==> processed[k].reload.ok
    requires !p.reload.ok
    requires FilesUpTo(fs, node.outputLocation, bids, i)
    requires !FilesUpTo(fs0, node.outputLocation, bids, |bids|)
    ensures Reports(node, fs0, bids, RunOutcome(fs, processed + [p], positions + [i], i, false))
  {
  }

  /** Getting past the last bid finishes the run. */
  lemma ReportCompleted(node: Node, fs0: Fs, fs: Fs, bids: seq<Bid>, processed: seq<Processed>, positions: seq<nat>)
    requires Progress(node, fs0, fs, bids, processed, positions, |bids|)
    requires forall k :: 0 <= k < |processed| ==> processed[k].reload.ok
    requires FilesUpTo(fs0, node.outputLocation, bids, |bids|) ==> fs == fs0 && processed == [] && positions == []
    ensures Reports(node, fs0, bids, RunOutcome(fs, processed, positions, |bids|, true))
  {
    RecordedWiden(node, fs0, fs, bids, processed, positions, |bids|);
  }

  /** A bid whose output was written is recorded at position `i`. */
  lemma ProgressWrite(node: Node, fs0: Fs, fs: Fs, fs': Fs, bids: seq<Bid>, processed: seq<Processed>, positions: seq<nat>,
                      i: nat, p: Processed)
    requires Progress(node, fs0, fs, bids, processed, positions, i)
    requires i < |bids| && !ValidatorFilesExist(fs, node.outputLocation, bids[i].id)
    requires p.bid == bids[i] && ProcessedFaithfully(node, p)
    requires ValidatorFilesExist(fs', node.outputLocation, bids[i].id)
    requires Keeps(fs, fs') && fs.dirs <= fs'.dirs
    requires fs' == CreateFSBidOutput(fs, node.outputLocation, p.data, p.bid.id, node.stringify)
    ensures Progress(node, fs0, fs', bids, processed + [p], positions + [i], i + 1)
    ensures FilesUpTo(fs', node.outputLocation, bids, i)
    ensures !FilesUpTo(fs0, node.outputLocation, bids, |bids|)
  {
    var loc := node.outputLocation;
    assert forall k :: 0 <= k < |processed| ==> processed[k].bid.id != p.bid.id by {
      forall k | 0 <= k < |processed|
        ensures processed[k].bid.id != p.bid.id
      {
        assert ValidatorFilesExist(fs, loc, processed[k].bid.id);
      }
    }
    AbsentFilesMissedEarlier(fs0, fs, loc, bids, i);
    OutputSurvives(fs0, fs, fs', loc, bids, i, node, processed, positions);
    RecordedAppend(node, fs0, fs', bids, processed, positions, i, p);
    FaithfulAppend(node, processed, p);
    FilesUpToStep(fs', loc, bids, i);
    WrittenOutputsAppend(fs0, loc, processed, node.stringify, p);
    IdsOfAppend(processed, p);
  }

  /** What the loop body did with one bid. */
  datatype Step = Skipped | Abandoned | Wrote(fs: Fs, done: Processed)

  /** Lines 19 to 45 for one bid: skip it when both files exist; otherwise
      unwrap its key (giving up when that throws), write the files, record
      the fee recipient and reload Teku. */
  method ProcessBid(node: Node, fs: Fs, bid: Bid) returns (step: Step)
    ensures step.Skipped? <==> ValidatorFilesExist(fs, node.outputLocation, bid.id)
    ensures step.Abandoned? ==> Unwrap(node, bid).None?
    ensures step.Wrote? ==>
      && step.done.bid == bid
      && ProcessedFaithfully(node, step.done)
      && step.done.proposer.file == node.proposerFile
      && step.done.proposer.validatorPubKey == bid.validator.validatorPubKey
      && step.done.proposer.feeRecipient == bid.validator.etherfiNode
      && ValidatorFilesExist(step.fs, node.outputLocation, bid.id)
      && Keeps(fs, step.fs) && fs.dirs <= step.fs.dirs
      && step.fs == CreateFSBidOutput(fs, node.outputLocation, step.done.data, bid.id, node.stringify)
  {
    if ValidatorFilesExist(fs, node.outputLocation, bid.id) {
      return Skipped;
    }
    var data := Unwrap(node, bid);
    if data.None? {
      return Abandoned;
    }
    var written := CreateFSBidOutput(fs, node.outputLocation, data.value, bid.id, node.stringify);
    var proposer := ProposerSave(node.proposerFile, bid.validator.validatorPubKey, bid.validator.etherfiNode);
    var reload := Teku.SigHupAllTekus(node.containers, node.failingSignals);
    return Wrote(written, Processed(bid, data.value, proposer, reload));
  }

  lemma RecordedWiden(node: Node, fs0: Fs, fs: Fs, bids: seq<Bid>, processed: seq<Processed>, positions: seq<nat>, bound: nat)
    requires Recorded(node, fs0, fs, bids, processed, positions, bound)
    ensures Recorded(node, fs0, fs, bids, processed, positions, bound + 1)
  {
  }

  lemma RecordedAppend(node: Node, fs0: Fs, fs: Fs, bids: seq<Bid>, processed: seq<Processed>, positions: seq<nat>,
                       i: nat, p: Processed)
    requires Recorded(node, fs0, fs, bids, processed, positions, i)
    requires i < |bids| && p.bid == bids[i]
    requires !ValidatorFilesExist(fs0, node.outputLocation, p.bid.id) && ValidatorFilesExist(fs, node.outputLocation, p.bid.id)
    requires forall k :: 0 <= k < |processed| ==> processed[k].bid.id != p.bid.id
    ensures Recorded(node, fs0, fs, bids, processed + [p], positions + [i], i + 1)
  {
  }

  lemma FaithfulAppend(node: Node, processed: seq<Processed>, p: Processed)
    requires Faithful(node, processed) && ProcessedFaithfully(node, p)
    ensures Faithful(node, processed + [p])
  {
  }

  lemma FilesUpToStep(fs: Fs, location: string, bids: seq<Bid>, i: nat)
    requires i < |bids| && FilesUpTo(fs, location, bids, i) && ValidatorFilesExist(fs, location, bids[i].id)
    ensures FilesUpTo(fs, location, bids, i + 1)
  {
  }

  /** A bid whose files are missing now was missing them at the start, so
      not every bid had its files then. */
  lemma AbsentFilesMissedEarlier(fs0: Fs, fs: Fs, location: string, bids: seq<Bid>, i: nat)
    requires i < |bids| && Keeps(fs0, fs) && fs0.dirs <= fs.dirs
    requires !ValidatorFilesExist(fs, location, bids[i].id)
    ensures !ValidatorFilesExist(fs0, location, bids[i].id)
    ensures !FilesUpTo(fs0, location, bids, |bids|)
  {
  }

  /** Writing one bid's output keeps the files of the bids before it and of
      the bids already processed. */
  lemma OutputSurvives(fs0: Fs, before: Fs, after: Fs, location: string, bids: seq<Bid>, i: nat,
                       node: Node, processed: seq<Processed>, positions: seq<nat>)
    requires i <= |bids| && location == node.outputLocation
    requires Keeps(fs0, before) && fs0.dirs <= before.dirs
    requires Keeps(before, after) && before.dirs <= after.dirs
    requires FilesUpTo(before, location, bids, i)
    requires Recorded(node, fs0, before, bids, processed, positions, i)
    ensures Keeps(fs0, after) && fs0.dirs <= after.dirs
    ensures FilesUpTo(after, location, bids, i)
    ensures Recorded(node, fs0, after, bids, processed, positions, i)
  {
  }

  lemma WrittenOutputsAppend(fs0: Fs, location: string, processed: seq<Processed>, stringify: Json -> string, p: Processed)
    ensures WrittenOutputs(fs0, location, processed + [p], stringify)
      == CreateFSBidOutput(WrittenOutputs(fs0, location, processed, stringify), location, p.data, p.bid.id, stringify)
  {
    assert (processed + [p])[..|processed|] == processed;
  }

  lemma IdsOfAppend(processed: seq<Processed>, p: Processed)
    ensures IdsOf(processed + [p]) == IdsOf(processed) + {p.bid.id}
  {
    assert (processed + [p])[..|processed|] == processed;
  }

  /** A bid whose files the writes made appear is one of the processed
      bids: writing another bid's output never creates them. */
  lemma {:induction false} NewFilesAreProcessed(fs0: Fs, location: string, processed: seq<Processed>,
                                                stringify: Json -> string, id: string)
    requires ValidatorFilesExist(WrittenOutputs(fs0, location, processed, stringify), location, id)
    requires !ValidatorFilesExist(fs0, location, id)
    ensures id in IdsOf(processed)
    decreases |processed|
  {
    if |processed| > 0 {
      var init := processed[..|processed| - 1];
      var last := processed[|processed| - 1];
      if last.bid.id != id {
        CreateFSBidOutputKeepsOthers(WrittenOutputs(fs0, location, init, stringify), location, last.data, last.bid.id,
                                     stringify, id);
        NewFilesAreProcessed(fs0, location, init, stringify, id);
      }
    }
  }

  /** Running again after a run that finished the list does nothing: every
      bid is skipped and the filesystem is left as it is. */
  method RunTwice(node: Node, fs0: Fs, bids: seq<Bid>) returns (first: RunOutcome, second: RunOutcome)
    ensures first.completed ==> second == RunOutcome(first.fs, [], [], |bids|, true)
    ensures Keeps(fs0, second.fs)
  {
    first := Run(node, fs0, bids);
    second := Run(node, first.fs, bids);
  }

  /** The bids line 16 obtains. `retrieveBidsFromSubgraph(GRAPH_URL,
      BIDDER)` is called without `FIRST` and `SKIP`, so the query reads
      `first: undefined, skip: undefined`; the indexer rejects it (not an
      Int), the error is caught, and the list is empty. */
  function DetectedBidsAsWritten(ds: seq<Subgraph.BidEntity>, bidder: string): (bids: seq<Bid>)
    ensures bids == []
  {
    Subgraph.FetchPage(Subgraph.Matching(ds, bidder, false), Subgraph.PageSize, 0, true)
  }

  /** With the list as written, a run never writes a file. */
  method RunAsWritten(node: Node, fs0: Fs, ds: seq<Subgraph.BidEntity>, bidder: string) returns (out: RunOutcome)
    ensures out == RunOutcome(fs0, [], [], 0, true)
  {
    out := Run(node, fs0, DetectedBidsAsWritten(ds, bidder));
  }

  /** The list the job evidently means to process: every active won bid of the
      bidder, fetched page by page. */
  method DetectedBids(ds: seq<Subgraph.BidEntity>, bidder: string, failingSkips: set<nat>) returns (bids: seq<Bid>)
    ensures bids <= Subgraph.Matching(ds, bidder, false)
    ensures Subgraph.PagedPrefix(Subgraph.Matching(ds, bidder, false), failingSkips, bids)
    ensures Subgraph.NoPageFails(Subgraph.Matching(ds, bidder, false), failingSkips) ==> bids == Subgraph.Matching(ds, bidder, false)
  {
    bids := Subgraph.RetrieveAllBidsIterated(ds, bidder, failingSkips);
  }

  /** A run over that list that finishes leaves the files of every active bid
      on disk. */
  method RunOnWonBids(node: Node, fs0: Fs, ds: seq<Subgraph.BidEntity>, bidder: string) returns (out: RunOutcome)
    ensures out.completed ==> forall b :: b in Subgraph.Matching(ds, bidder, false) ==> ValidatorFilesExist(out.fs, node.outputLocation, b.id)
  {
    var bids := DetectedBids(ds, bidder, {});
    out := Run(node, fs0, bids);
  }

  /** A run whose reloads read the Docker listing as line 4 of
      src/teku.js is written: every reload throws, so the first bid the run
      writes files for ends it, and the run finishes only when no bid
      needed files. */
  method RunWithListingAsWritten(node: Node, fs0: Fs, bids: seq<Bid>) returns (out: RunOutcome)
    ensures |out.processed| <= 1 && |out.positions| == |out.processed|
    ensures out.completed <==> FilesUpTo(fs0, node.outputLocation, bids, |bids|)
    ensures |out.processed| == 1 ==> !out.processed[0].reload.ok && out.positions[0] == out.reached
  {
    var asWritten := node.(containers := Teku.ListingAsWritten(node.containers));
    out := Run(asWritten, fs0, bids);
    if |out.processed| > 0 {
      assert ProcessedFaithfully(asWritten, out.processed[0]);
      assert !out.processed[0].reload.ok;
    }
  }
}

=== FILE: decrypt.dfy ===
/** Key unwrap (src/decrypt.js): the `iv:ciphertext[:tag]` text formats, the
    choice between AES-256-CBC and AES-256-GCM, the derivation of the
    symmetric keys, and the selection of the operator keypair. The ciphers,
    PBKDF2, the secp256k1 arithmetic, UTF-8 decoding and `JSON.parse` are
    parameters. */
module Decrypt {
  import opened Results
  import opened Text
  import opened Bytes
  import opened JsNumbers
  import opened Json

  /** The primitives the unwrap calls. A `None` result is a thrown error
      (bad padding, a wrong tag, an invalid point, malformed JSON). */
  datatype Primitives = Primitives(
    /** AES-256-CBC decryption of a ciphertext under a key and an iv. */
    cbcDecrypt: (seq<byte>, seq<byte>, seq<byte>) -> Option<seq<byte>>,
    /** AES-256-GCM decryption of a ciphertext under a key, an iv and a tag. */
    gcmDecrypt: (seq<byte>, seq<byte>, seq<byte>, seq<byte>) -> Option<seq<byte>>,
    /** PBKDF2-HMAC-SHA256 of a password and a salt, for an iteration count
        and an output length. */
    pbkdf2: (string, seq<byte>, nat, nat) -> seq<byte>,
    /** `new BN(v)` for a key-array entry. */
    scalar: Json -> int,
    /** The x-coordinate of the staker's public key (hex) multiplied by a
        non-zero scalar; `None` when the key does not decode to a point or
        the product is the point at infinity. */
    sharedX: (string, int) -> Option<nat>,
    /** `buffer.toString()`: UTF-8 decoding. */
    utf8: seq<byte> -> string,
    /** `JSON.parse`. */
    parseJson: string -> Option<Json>)

  datatype Mode = Cbc | Gcm

  /** `iv:ciphertext` as `decrypt` reads it: the first `:`-separated piece is
      the iv, and the remaining pieces joined with `:` again are the
      ciphertext. It never fails: a text without `:` has an empty
      ciphertext. */
  datatype CbcParts = CbcParts(iv: seq<byte>, ciphertext: seq<byte>)

  function ParseCbc(text: string): CbcParts {
    var parts := Split(text, ':');
    CbcParts(HexDecode(parts[0]), HexDecode(Join(parts[1..], ':')))
  }

  /** The ciphertext of a CBC text is everything after its first `:`. */
  lemma CbcCiphertextAfterFirstColon(ivHex: string, rest: string)
    requires ':' !in ivHex
    ensures ParseCbc(ivHex + ":" + rest) == CbcParts(HexDecode(ivHex), HexDecode(rest))
  {
    assert ivHex + ":" + rest == ivHex + [':'] + rest;
    SplitAtSep(ivHex, ':', rest);
    JoinSplit(rest, ':');
  }

  /** `iv:ciphertext:tag` as `decryptGCM` reads it: pieces 0, 1 and 2, any
      further piece ignored. Fewer than three pieces make
      `Buffer.from(undefined, 'hex')` throw. */
  datatype GcmParts = GcmParts(iv: seq<byte>, ciphertext: seq<byte>, tag: seq<byte>)

  function ParseGcm(text: string): (r: Option<GcmParts>)
    ensures r.Some? <==> multiset(text)[':'] >= 2
  {
    var parts := Split(text, ':');
    if |parts| < 3 then None
    else Some(GcmParts(HexDecode(parts[0]), HexDecode(parts[1]), HexDecode(parts[2])))
  }

  lemma HexNoColon(b: seq<byte>)
    ensures ':' !in HexEncode(b)
  {
    var s := HexEncode(b);
    forall i | 0 <= i < |s|
      ensures s[i] != ':'
    {
    }
  }

  /** `decrypt` and `decryptGCM`: decryption of one text, then UTF-8
      decoding. */
  function DecryptText(p: Primitives, mode: Mode, text: string, key: seq<byte>): Option<string> {
    match mode
    case Cbc =>
      var c := ParseCbc(text);
      var plain :- p.cbcDecrypt(key, c.iv, c.ciphertext);
      Some(p.utf8(plain))
    case Gcm =>
      var g :- ParseGcm(text);
      var plain :- p.gcmDecrypt(key, g.iv, g.ciphertext, g.tag);
      Some(p.utf8(plain))
  }

  /** The IPFS payload of one validator. */
  datatype Payload = Payload(
    stakerPublicKey: string,
    encryptedValidatorKey: string,
    encryptedPassword: string,
    encryptedKeystoreName: string)

  /** The cipher of the payload is chosen once for all three fields: CBC
      only when every one of them has exactly one `:`. */
  function PayloadMode(file: Payload): (m: Mode)
    ensures m == Cbc <==>
      && multiset(file.encryptedValidatorKey)[':'] == 1
      && multiset(file.encryptedPassword)[':'] == 1
      && multiset(file.encryptedKeystoreName)[':'] == 1
  {
    if |Split(file.encryptedValidatorKey, ':')| == 2
      && |Split(file.encryptedPassword, ':')| == 2
      && |Split(file.encryptedKeystoreName, ':')| == 2
    then Cbc
    else Gcm
  }

  /** An operator keypair as `getKeyPairByPubKeyIndex` returns it; an entry
      is `None` when the lookup yields `undefined`. */
  datatype KeyPair = KeyPair(privateKey: Option<Json>, publicKey: Option<Json>)

  /** The index as `parseInt` reads it, when it addresses an element of an
      array of length `n`. */
  function IndexIn(pubKeyIndex: string, n: nat): (r: Option<nat>)
    ensures r.Some? ==> r.value < n
    ensures r.Some? ==> ParseInt(pubKeyIndex, Auto) == Some(r.value as int)
  {
    var parsed := ParseInt(pubKeyIndex, Auto);
    if parsed.Some? && 0 <= parsed.value < n then Some(parsed.value as nat) else None
  }

  /** `value[index]` for a value that is neither `null` nor `undefined`
      and an index as `parseInt` returned it (`None` is `NaN`): an array
      or a string gives its element or character at that position, an
      object the field the printed index names (`"NaN"` included), and a
      number or a boolean has no such property. `None` is `undefined`. */
  function ElementAt(v: Json, index: Option<int>): (e: Option<Json>)
    ensures e.Some? ==> v.JArr? || v.JStr? || v.JObj?
    ensures e.Some? && v.JArr? ==> e.value in v.items
    ensures e.Some? && v.JStr? ==> e.value.JStr? && |e.value.s| == 1 && e.value.s[0] in v.s
    ensures e.Some? && v.JObj? ==> e.value in v.fields.Values
    ensures index.None? && !v.JObj? ==> e.None?
  {
    match v
    case JArr(items) =>
      if index.Some? && 0 <= index.value < |items| then Some(items[index.value]) else None
    case JStr(s) =>
      if index.Some? && 0 <= index.value < |s| then Some(JStr([s[index.value]])) else None
    case JObj(fields) =>
      var name := if index.Some? then IntToString(index.value) else "NaN";
      if name in fields then Some(fields[name]) else None
    case _ => None
  }

  /** Reading a property of `undefined` (`None`) or of `null` throws. */
  predicate Nullish(v: Option<Json>) {
    v.None? || v.value.JNull?
  }

  /** `getKeyPairByPubKeyIndex`: both keys are taken at the same parsed
      index. It throws (`None`) when either key set is `undefined` or
      `null`; otherwise an index that is `NaN` or out of range yields
      absent entries, not an error. */
  function GetKeyPairByPubKeyIndex(pubKeyIndex: string, privateKeys: Option<Json>, publicKeys: Option<Json>): (r: Option<KeyPair>)
    ensures r.None? <==> Nullish(privateKeys) || Nullish(publicKeys)
    ensures r.Some? && privateKeys.value.JArr? ==>
      && (r.value.privateKey.Some? <==> IndexIn(pubKeyIndex, |privateKeys.value.items|).Some?)
      && (r.value.privateKey.Some? ==>
            r.value.privateKey.value == privateKeys.value.items[IndexIn(pubKeyIndex, |privateKeys.value.items|).value])
    ensures r.Some? && publicKeys.value.JArr? ==>
      && (r.value.publicKey.Some? <==> IndexIn(pubKeyIndex, |publicKeys.value.items|).Some?)
      && (r.value.publicKey.Some? ==>
            r.value.publicKey.value == publicKeys.value.items[IndexIn(pubKeyIndex, |publicKeys.value.items|).value])
  {
    if Nullish(privateKeys) || Nullish(publicKeys) then None
    else
      var index := ParseInt(pubKeyIndex, Auto);
      Some(KeyPair(ElementAt(privateKeys.value, index), ElementAt(publicKeys.value, index)))
  }

  /** The index printed in decimal selects the pair at that position of
      two key arrays. */
  lemma KeyPairAtPrintedIndex(i: nat, privateKeys: seq<Json>, publicKeys: seq<Json>)
    requires i < |privateKeys| && i < |publicKeys|
    ensures GetKeyPairByPubKeyIndex(NatToString(i), Some(JArr(privateKeys)), Some(JArr(publicKeys)))
      == Some(KeyPair(Some(privateKeys[i]), Some(publicKeys[i])))
  {
    ParseIntOfIntToString(i, Auto);
  }

  /** Key sets that are strings rather than arrays do not make the lookup
      throw: a printed index within both strings selects one character of
      each. */
  lemma KeyPairFromStrings(i: nat, privateKeys: string, publicKeys: string)
    requires i < |privateKeys| && i < |publicKeys|
    ensures GetKeyPairByPubKeyIndex(NatToString(i), Some(JStr(privateKeys)), Some(JStr(publicKeys)))
      == Some(KeyPair(Some(JStr([privateKeys[i]])), Some(JStr([publicKeys[i]]))))
  {
    ParseIntOfIntToString(i, Auto);
  }

  /** The symmetric key of the payload: the x-coordinate of the shared point
      as exactly 32 big-endian bytes. `new BN(undefined)` is zero, and zero
      times a point is the point at infinity, whose `getX` throws. */
  function SharedKey(p: Primitives, stakerPublicKey: string, kp: KeyPair): (key: Option<seq<byte>>)
    ensures key.Some? ==> |key.value| == 32
    ensures key.Some? <==>
      var k := if kp.privateKey.Some? then p.scalar(kp.privateKey.value) else 0;
      k != 0 && p.sharedX(stakerPublicKey, k).Some? && p.sharedX(stakerPublicKey, k).value < Pow256(32)
    ensures key.Some? ==>
      FromBigEndian(key.value) == p.sharedX(stakerPublicKey, p.scalar(kp.privateKey.value)).value
  {
    var k := if kp.privateKey.Some? then p.scalar(kp.privateKey.value) else 0;
    if k == 0 then None
    else
      var x :- p.sharedX(stakerPublicKey, k);
      ToFixedBigEndian(x, 32)
  }

  /** What `decryptValidatorKeyInfo` returns. */
  datatype KeyInfo = KeyInfo(validatorKeyFile: Json, validatorKeyPassword: string, keystoreName: string)

  /** `decryptValidatorKeyInfo`: all three fields are decrypted with the one
      shared key, in the one mode; the first is parsed as JSON, the other
      two are returned as text. Any failure is `None`. */
  function DecryptValidatorKeyInfo(p: Primitives, file: Payload, kp: KeyPair): (r: Option<KeyInfo>)
    ensures r.Some? ==> SharedKey(p, file.stakerPublicKey, kp).Some?
    ensures r.Some? ==>
      var key := SharedKey(p, file.stakerPublicKey, kp).value;
      var mode := PayloadMode(file);
      && DecryptText(p, mode, file.encryptedValidatorKey, key).Some?
      && p.parseJson(DecryptText(p, mode, file.encryptedValidatorKey, key).value) == Some(r.value.validatorKeyFile)
      && DecryptText(p, mode, file.encryptedPassword, key) == Some(r.value.validatorKeyPassword)
      && DecryptText(p, mode, file.encryptedKeystoreName, key) == Some(r.value.keystoreName)
  {
    var key :- SharedKey(p, file.stakerPublicKey, kp);
    var mode := PayloadMode(file);
    var keyText :- DecryptText(p, mode, file.encryptedValidatorKey, key);
    var password :- DecryptText(p, mode, file.encryptedPassword, key);
    var name :- DecryptText(p, mode, file.encryptedKeystoreName, key);
    var keyFile :- p.parseJson(keyText);
    Some(KeyInfo(keyFile, password, name))
  }

  /** A keypair whose private entry is absent (the index was out of range)
      never unwraps a payload. */
  lemma AbsentPrivateKeyFails(p: Primitives, file: Payload, kp: KeyPair)
    requires kp.privateKey.None?
    ensures DecryptValidatorKeyInfo(p, file, kp) == None
  {
  }

  /** A payload that is not CBC throughout is read in GCM mode throughout,
      so any field with fewer than three pieces (one that is CBC-shaped,
      say, next to a GCM one) has no tag, and the payload fails whatever
      the keys and ciphers. */
  lemma MixedPayloadFails(p: Primitives, file: Payload, kp: KeyPair)
    requires PayloadMode(file) == Gcm
    requires || multiset(file.encryptedValidatorKey)[':'] < 2
             || multiset(file.encryptedPassword)[':'] < 2
             || multiset(file.encryptedKeystoreName)[':'] < 2
    ensures DecryptValidatorKeyInfo(p, file, kp) == None
  {
  }

  /** The CBC spelling `iv:ciphertext` of one field. */
  function CbcText(iv: seq<byte>, ct: seq<byte>): string {
    HexEncode(iv) + ":" + HexEncode(ct)
  }

  /** The GCM spelling `iv:ciphertext:tag` of one field. */
  function GcmText(iv: seq<byte>, ct: seq<byte>, tag: seq<byte>): string {
    HexEncode(iv) + ":" + HexEncode(ct) + ":" + HexEncode(tag)
  }

  lemma CbcTextShape(iv: seq<byte>, ct: seq<byte>)
    ensures multiset(CbcText(iv, ct))[':'] == 1
    ensures ParseCbc(CbcText(iv, ct)) == CbcParts(iv, ct)
  {
    var a, b := HexEncode(iv), HexEncode(ct);
    HexNoColon(iv);
    HexNoColon(ct);
    SplitAtSep(a, ':', b);
    SplitNoSep(b, ':');
    assert CbcText(iv, ct) == a + [':'] + b;
    assert |Split(CbcText(iv, ct), ':')| == 2;
    CbcCiphertextAfterFirstColon(a, b);
    HexRoundTrip(iv);
    HexRoundTrip(ct);
  }

  /** A GCM text splits into exactly its three hex pieces. */
  lemma GcmTextShape(iv: seq<byte>, ct: seq<byte>, tag: seq<byte>)
    ensures multiset(GcmText(iv, ct, tag))[':'] == 2
    ensures ParseGcm(GcmText(iv, ct, tag)) == Some(GcmParts(iv, ct, tag))
  {
    HexNoColon(iv);
    HexNoColon(ct);
    HexNoColon(tag);
    SplitThree(HexEncode(iv), HexEncode(ct), HexEncode(tag), ':');
    HexRoundTrip(iv);
    HexRoundTrip(ct);
    HexRoundTrip(tag);
  }

  /** Pieces after the tag are ignored: appending `:` and anything to a GCM
      text reads back the same iv, ciphertext and tag. */
  lemma GcmExtraPiecesIgnored(iv: seq<byte>, ct: seq<byte>, tag: seq<byte>, rest: string)
    ensures ParseGcm(GcmText(iv, ct, tag) + ":" + rest) == Some(GcmParts(iv, ct, tag))
  {
    HexNoColon(iv);
    HexNoColon(ct);
    HexNoColon(tag);
    SplitThreeMore(HexEncode(iv), HexEncode(ct), HexEncode(tag), ':', rest);
    HexRoundTrip(iv);
    HexRoundTrip(ct);
    HexRoundTrip(tag);
  }

  /** Sealing: a payload whose three fields are written as `iv:ciphertext`
      under the key the staker's point and the selected private key share
      unwraps to the plaintexts the cipher gives. */
  lemma CbcPayloadRoundTrip(p: Primitives, staker: string, kp: KeyPair,
                            ivs: seq<seq<byte>>, cts: seq<seq<byte>>, plains: seq<seq<byte>>, keyFile: Json)
    requires |ivs| == 3 && |cts| == 3 && |plains| == 3
    requires SharedKey(p, staker, kp).Some?
    requires forall i :: 0 <= i < 3 ==>
      p.cbcDecrypt(SharedKey(p, staker, kp).value, ivs[i], cts[i]) == Some(plains[i])
    requires p.parseJson(p.utf8(plains[0])) == Some(keyFile)
    ensures DecryptValidatorKeyInfo(p, Payload(staker, CbcText(ivs[0], cts[0]), CbcText(ivs[1], cts[1]), CbcText(ivs[2], cts[2])), kp)
      == Some(KeyInfo(keyFile, p.utf8(plains[1]), p.utf8(plains[2])))
  {
    CbcTextShape(ivs[0], cts[0]);
    CbcTextShape(ivs[1], cts[1]);
    CbcTextShape(ivs[2], cts[2]);
  }

  lemma GcmPayloadRoundTrip(p: Primitives, staker: string, kp: KeyPair,
                            ivs: seq<seq<byte>>, cts: seq<seq<byte>>, tags: seq<seq<byte>>,
                            plains: seq<seq<byte>>, keyFile: Json)
    requires |ivs| == 3 && |cts| == 3 && |tags| == 3 && |plains| == 3
    requires SharedKey(p, staker, kp).Some?
    requires forall i :: 0 <= i < 3 ==>
      p.gcmDecrypt(SharedKey(p, staker, kp).value, ivs[i], cts[i], tags[i]) == Some(plains[i])
    requires p.parseJson(p.utf8(plains[0])) == Some(keyFile)
    ensures DecryptValidatorKeyInfo(p, Payload(staker, GcmText(ivs[0], cts[0], tags[0]), GcmText(ivs[1], cts[1], tags[1]),
                                               GcmText(ivs[2], cts[2], tags[2])), kp)
      == Some(KeyInfo(keyFile, p.utf8(plains[1]), p.utf8(plains[2])))
  {
    var key := SharedKey(p, staker, kp).value;
    var file := Payload(staker, GcmText(ivs[0], cts[0], tags[0]), GcmText(ivs[1], cts[1], tags[1]),
                        GcmText(ivs[2], cts[2], tags[2]));
    GcmTextShape(ivs[0], cts[0], tags[0]);
    GcmTextShape(ivs[1], cts[1], tags[1]);
    GcmTextShape(ivs[2], cts[2], tags[2]);
    assert PayloadMode(file) == Gcm;
    GcmFieldDecrypts(p, key, ivs[0], cts[0], tags[0], plains[0]);
    GcmFieldDecrypts(p, key, ivs[1], cts[1], tags[1], plains[1]);
    GcmFieldDecrypts(p, key, ivs[2], cts[2], tags[2], plains[2]);
  }

  lemma GcmFieldDecrypts(p: Primitives, key: seq<byte>, iv: seq<byte>, ct: seq<byte>, tag: seq<byte>, plain: seq<byte>)
    requires p.gcmDecrypt(key, iv, ct, tag) == Some(plain)
    ensures DecryptText(p, Gcm, GcmText(iv, ct, tag), key) == Some(p.utf8(plain))
  {
    GcmTextShape(iv, ct, tag);
  }

  /** The encrypted keypair file: hex iv, salt and data, and an optional
      hex GCM tag. */
  datatype EncryptedKeyFile = EncryptedKeyFile(iv: string, salt: string, data: string, authTag: Option<string>)

  const Pbkdf2Iterations: nat := 100000
  const KeyLength: nat := 32

  /** CBC exactly when the tag is absent or empty (`!authTag`). */
  function KeyFileMode(f: EncryptedKeyFile): Mode {
    if f.authTag.None? || f.authTag.value == "" then Cbc else Gcm
  }

  /** The key that unlocks the keypair file: PBKDF2-HMAC-SHA256 of the
      password and the hex-decoded salt, 100000 iterations, 32 bytes. */
  function KeyFileKey(p: Primitives, f: EncryptedKeyFile, password: string): seq<byte> {
    p.pbkdf2(password, HexDecode(f.salt), Pbkdf2Iterations, KeyLength)
  }

  /** `decryptPrivateKeys`: decrypt the data, decode it as UTF-8 and parse
      it as JSON; `None` where it throws. */
  function DecryptPrivateKeys(p: Primitives, f: EncryptedKeyFile, password: string): (r: Option<Json>)
    ensures r.Some? ==> exists plain ::
      && (KeyFileMode(f) == Cbc ==> p.cbcDecrypt(KeyFileKey(p, f, password), HexDecode(f.iv), HexDecode(f.data)) == Some(plain))
      && (KeyFileMode(f) == Gcm ==>
            p.gcmDecrypt(KeyFileKey(p, f, password), HexDecode(f.iv), HexDecode(f.data), HexDecode(f.authTag.value)) == Some(plain))
      && p.parseJson(p.utf8(plain)) == r
  {
    var plain :- KeyFilePlaintext(p, f, password);
    p.parseJson(p.utf8(plain))
  }

  /** The decrypted bytes of the keypair file, in the mode its tag selects;
      `None` when the cipher rejects them. */
  function KeyFilePlaintext(p: Primitives, f: EncryptedKeyFile, password: string): Option<seq<byte>> {
    var key := KeyFileKey(p, f, password);
    match KeyFileMode(f)
    case Cbc => p.cbcDecrypt(key, HexDecode(f.iv), HexDecode(f.data))
    case Gcm => p.gcmDecrypt(key, HexDecode(f.iv), HexDecode(f.data), HexDecode(f.authTag.value))
  }

  /** `decryptKeyPairJSON`: the parsed keypair set, or `null` instead of an
      exception. */
  function DecryptKeyPairJson(p: Primitives, f: EncryptedKeyFile, password: string): Json {
    DecryptPrivateKeys(p, f, password).GetOr(JNull)
  }

  /** A keypair file written in hex with no tag (or an empty one) is read in
      CBC mode under the derived key; one with a tag in GCM mode. */
  lemma KeyFileRoundTrip(p: Primitives, password: string, salt: seq<byte>, iv: seq<byte>, ct: seq<byte>,
                         tag: Option<seq<byte>>, plain: seq<byte>, keys: Json)
    requires tag.Some? ==> |tag.value| > 0
    requires var key := p.pbkdf2(password, salt, Pbkdf2Iterations, KeyLength);
      if tag.None? then p.cbcDecrypt(key, iv, ct) == Some(plain)
      else p.gcmDecrypt(key, iv, ct, tag.value) == Some(plain)
    requires p.parseJson(p.utf8(plain)) == Some(keys)
    ensures DecryptKeyPairJson(p, EncryptedKeyFile(HexEncode(iv), HexEncode(salt), HexEncode(ct),
                                                   if tag.Some? then Some(HexEncode(tag.value)) else None), password) == keys
  {
    HexRoundTrip(iv);
    HexRoundTrip(salt);
    HexRoundTrip(ct);
    if tag.Some? {
      HexRoundTrip(tag.value);
    }
  }

  /** An empty tag is no tag: such a file is read in CBC mode, exactly as
      if `authTag` were absent. */
  lemma EmptyTagIsNoTag(p: Primitives, f: EncryptedKeyFile, password: string)
    requires f.authTag == Some("")
    ensures KeyFileMode(f) == Cbc
    ensures DecryptKeyPairJson(p, f, password) == DecryptKeyPairJson(p, f.(authTag := None), password)
  {
  }

  /** The keypair set reads as `null` exactly when the cipher rejects the
      file (a wrong password, say), when the plaintext is not JSON, or when
      it is the JSON text `null` itself. */
  lemma KeyPairJsonNullExactly(p: Primitives, f: EncryptedKeyFile, password: string)
    ensures DecryptKeyPairJson(p, f, password) == JNull <==>
      || KeyFilePlaintext(p, f, password).None?
      || p.parseJson(p.utf8(KeyFilePlaintext(p, f, password).value)).None?
      || p.parseJson(p.utf8(KeyFilePlaintext(p, f, password).value)) == Some(JNull)
  {
  }
}

=== FILE: file_store.dfy ===
/** Disk custody of unwrapped validator keys (src/file.js): two files per
    bid under the output directory, created only when absent. The
    filesystem is a set of directories and a map from file path to
    contents; a path exists when it is either. */
module FileStore {
  import opened Json
  import opened Decrypt

  datatype Fs = Fs(dirs: set<string>, files: map<string, string>)

  predicate Exists(fs: Fs, path: string) {
    path in fs.dirs || path in fs.files
  }

  const TxtSuffix := ".txt"
  const JsonSuffix := ".json"

  /** `<location>/keystore-<id>` followed by a suffix. */
  function KeystorePath(location: string, id: string, suffix: string): string {
    location + "/keystore-" + id + suffix
  }

  /** The password file of a bid. */
  function TxtPath(location: string, id: string): string {
    KeystorePath(location, id, TxtSuffix)
  }

  /** The keystore file of a bid. */
  function JsonPath(location: string, id: string): string {
    KeystorePath(location, id, JsonSuffix)
  }

  /** The three paths one bid's output touches are pairwise distinct, and
      distinct from every path of another bid. */
  lemma PathsDistinct(location: string, id: string, other: string)
    ensures TxtPath(location, id) != JsonPath(location, other)
    ensures TxtPath(location, id) != location && JsonPath(location, id) != location
    ensures id != other ==> TxtPath(location, id) != TxtPath(location, other)
    ensures id != other ==> JsonPath(location, id) != JsonPath(location, other)
  {
    var t := TxtPath(location, id);
    var j := JsonPath(location, other);
    assert t[|t| - 1] == 't' && j[|j| - 1] == 'n';
    SuffixInjective(location, id, other, TxtSuffix);
    SuffixInjective(location, id, other, JsonSuffix);
  }

  lemma SuffixInjective(location: string, id: string, other: string, suffix: string)
    ensures KeystorePath(location, id, suffix) == KeystorePath(location, other, suffix) ==> id == other
  {
    var prefix := location + "/keystore-";
    var a := KeystorePath(location, id, suffix);
    var b := KeystorePath(location, other, suffix);
    assert a == prefix + id + suffix && b == prefix + other + suffix;
    assert id == a[|prefix|..|prefix| + |id|];
    assert other == b[|prefix|..|prefix| + |other|];
  }

  /** `validatorFilesExist`: both files of the bid exist. */
  predicate ValidatorFilesExist(fs: Fs, location: string, id: string) {
    Exists(fs, TxtPath(location, id)) && Exists(fs, JsonPath(location, id))
  }

  /** `createDirSafe`: make the directory unless the path exists. */
  function CreateDirSafe(fs: Fs, location: string): (r: Fs)
    ensures Exists(r, location)
    ensures r.files == fs.files
    ensures Exists(fs, location) ==> r == fs
    ensures fs.dirs <= r.dirs <= fs.dirs + {location}
  {
    if Exists(fs, location) then fs else Fs(fs.dirs + {location}, fs.files)
  }

  /** `createFile`: write the contents unless the path exists; an existing
      file or directory is left as it is. */
  function CreateFile(fs: Fs, path: string, content: string): (r: Fs)
    ensures Exists(r, path)
    ensures r.dirs == fs.dirs
    ensures Exists(fs, path) ==> r == fs
    ensures !Exists(fs, path) ==> r.files == fs.files[path := content]
    ensures forall p :: p in fs.files ==> p in r.files && r.files[p] == fs.files[p]
  {
    if Exists(fs, path) then fs else Fs(fs.dirs, fs.files[path := content])
  }

  /** `createFSBidOutput`: the output directory, then the password file,
      then the keystore file, each created only if missing.
      `stringify` is `JSON.stringify`. */
  function CreateFSBidOutput(fs: Fs, location: string, data: KeyInfo, id: string, stringify: Json -> string): (r: Fs)
    ensures ValidatorFilesExist(r, location, id)
    ensures forall p :: p in fs.files ==> p in r.files && r.files[p] == fs.files[p]
    ensures fs.dirs <= r.dirs
    ensures !Exists(fs, TxtPath(location, id)) ==>
      TxtPath(location, id) in r.files && r.files[TxtPath(location, id)] == data.validatorKeyPassword
    ensures !Exists(fs, JsonPath(location, id)) ==>
      JsonPath(location, id) in r.files && r.files[JsonPath(location, id)] == stringify(data.validatorKeyFile)
  {
    PathsDistinct(location, id, id);
    var withDir := CreateDirSafe(fs, location);
    var withTxt := CreateFile(withDir, TxtPath(location, id), data.validatorKeyPassword);
    CreateFile(withTxt, JsonPath(location, id), stringify(data.validatorKeyFile))
  }

  /** Only the directory and the two files of that bid can change. */
  lemma CreateFSBidOutputFrame(fs: Fs, location: string, data: KeyInfo, id: string, stringify: Json -> string, p: string)
    requires p != location && p != TxtPath(location, id) && p != JsonPath(location, id)
    ensures var r := CreateFSBidOutput(fs, location, data, id, stringify);
      && (p in r.files <==> p in fs.files)
      && (p in r.files ==> r.files[p] == fs.files[p])
      && (p in r.dirs <==> p in fs.dirs)
  {
  }

  /** The output of another bid is neither created nor removed. */
  lemma CreateFSBidOutputKeepsOthers(fs: Fs, location: string, data: KeyInfo, id: string, stringify: Json -> string, other: string)
    requires other != id
    ensures ValidatorFilesExist(CreateFSBidOutput(fs, location, data, id, stringify), location, other)
        <==> ValidatorFilesExist(fs, location, other)
  {
    PathsDistinct(location, other, id);
    PathsDistinct(location, id, other);
    CreateFSBidOutputFrame(fs, location, data, id, stringify, TxtPath(location, other));
    CreateFSBidOutputFrame(fs, location, data, id, stringify, JsonPath(location, other));
  }

  /** A second call changes nothing. */
  lemma CreateFSBidOutputIdempotent(fs: Fs, location: string, data: KeyInfo, data2: KeyInfo, id: string, stringify: Json -> string)
    ensures var once := CreateFSBidOutput(fs, location, data, id, stringify);
      CreateFSBidOutput(once, location, data2, id, stringify) == once
  {
  }

  /** When only one of the two files exists, the missing one is created
      and the existing one keeps its contents. */
  lemma CreateFSBidOutputFillsGap(fs: Fs, location: string, data: KeyInfo, id: string, stringify: Json -> string)
    requires TxtPath(location, id) in fs.files && !Exists(fs, JsonPath(location, id))
    ensures var r := CreateFSBidOutput(fs, location, data, id, stringify);
      && r.files[TxtPath(location, id)] == fs.files[TxtPath(location, id)]
      && r.files[JsonPath(location, id)] == stringify(data.validatorKeyFile)
  {
  }
}

=== FILE: js_numbers.dfy ===
/** Number-to-text and text-to-number conversions as JavaScript performs them
    on integers: `String(n)` and `parseInt(s)` / `parseInt(s, 10)`. */
module JsNumbers {
  import opened Results
  import opened Text

  predicate IsDecimalDigit(c: char) {
    '0' <= c <= '9'
  }

  function DigitChar(d: nat): (c: char)
    requires d < 10
    ensures IsDecimalDigit(c)
  {
    ('0' as int + d) as char
  }

  /** `String(n)` for a non-negative integer: its shortest decimal spelling. */
  function NatToString(n: nat): (s: string)
    ensures |s| > 0
    ensures forall i :: 0 <= i < |s| ==> IsDecimalDigit(s[i])
    ensures |s| > 1 ==> s[0] != '0'
    decreases n
  {
    if n < 10 then [DigitChar(n)] else NatToString(n / 10) + [DigitChar(n % 10)]
  }

  /** `String(n)` for an integer. */
  function IntToString(n: int): string {
    if n < 0 then "-" + NatToString(-n) else NatToString(n)
  }

  /** The value of `c` as a digit in the radixes up to 36 that `parseInt` accepts. */
  function DigitValue(c: char): Option<nat> {
    if '0' <= c <= '9' then Some(c as int - '0' as int)
    else if 'a' <= c <= 'z' then Some(c as int - 'a' as int + 10)
    else if 'A' <= c <= 'Z' then Some(c as int - 'A' as int + 10)
    else None
  }

  predicate IsDigitIn(c: char, radix: nat) {
    DigitValue(c).Some? && DigitValue(c).value < radix
  }

  /** The length of the longest prefix of `s` made of digits in `radix`. */
  function DigitRun(s: string, radix: nat): (k: nat)
    ensures k <= |s|
    ensures forall i :: 0 <= i < k ==> IsDigitIn(s[i], radix)
    ensures k < |s| ==> !IsDigitIn(s[k], radix)
    decreases |s|
  {
    if |s| > 0 && IsDigitIn(s[0], radix) then 1 + DigitRun(s[1..], radix) else 0
  }

  /** The value of a digit string, most significant digit first. */
  function DigitsValue(s: string, radix: nat): nat
    decreases |s|
  {
    if |s| == 0 then 0
    else DigitsValue(s[..|s| - 1], radix) * radix + DigitValue(s[|s| - 1]).GetOr(0)
  }

  /** How `parseInt` was called: with radix 10, or with no radix (a `0x`
      prefix then selects radix 16). */
  datatype Radix = Decimal | Auto

  /** `parseInt(s, 10)` or `parseInt(s)`; `None` is `NaN`. Leading white
      space and one sign are skipped, then the longest run of digits is
      read and everything after it ignored. */
  function ParseInt(s: string, radix: Radix): Option<int> {
    var t := TrimStart(s);
    var negative := |t| > 0 && t[0] == '-';
    var u := if |t| > 0 && (t[0] == '-' || t[0] == '+') then t[1..] else t;
    var hex := radix == Auto && |u| >= 2 && u[0] == '0' && (u[1] == 'x' || u[1] == 'X');
    var base := if hex then 16 else 10;
    var v := if hex then u[2..] else u;
    var k := DigitRun(v, base);
    if k == 0 then None
    else
      var magnitude: int := DigitsValue(v[..k], base);
      Some(if negative then -magnitude else magnitude)
  }

  lemma {:induction false} DigitsValueOfNatToString(n: nat)
    ensures forall i :: 0 <= i < |NatToString(n)| ==> IsDigitIn(NatToString(n)[i], 10)
    ensures DigitsValue(NatToString(n), 10) == n
    decreases n
  {
    var s := NatToString(n);
    if n >= 10 {
      DigitsValueOfNatToString(n / 10);
      assert s[..|s| - 1] == NatToString(n / 10);
    }
  }

  /** Reading back what `String` printed gives the same integer, with or
      without an explicit radix. */
  lemma ParseIntOfIntToString(n: int, radix: Radix)
    ensures ParseInt(IntToString(n), radix) == Some(n)
  {
    var m: nat := if n < 0 then -n else n;
    var digits := NatToString(m);
    DigitsValueOfNatToString(m);
    var s := IntToString(n);
    assert TrimStart(s) == s by {
      assert !IsJsSpace(s[0]);
    }
    var u := if n < 0 then s[1..] else s;
    assert u == digits;
    assert !(|u| >= 2 && u[1] == 'x');
    DigitRunAll(digits, 10);
    assert digits[..|digits|] == digits;
  }

  lemma {:induction false} DigitRunAll(s: string, radix: nat)
    requires forall i :: 0 <= i < |s| ==> IsDigitIn(s[i], radix)
    ensures DigitRun(s, radix) == |s|
    decreases |s|
  {
    if |s| > 0 {
      DigitRunAll(s[1..], radix);
    }
  }

  /** A string that starts with a digit is read from its first character. */
  lemma ParseIntFromDigit(s: string)
    requires |s| > 0 && IsDecimalDigit(s[0])
    ensures DigitRun(s, 10) > 0
    ensures ParseInt(s, Decimal) == Some(DigitsValue(s[..DigitRun(s, 10)], 10))
  {
    assert !IsJsSpace(s[0]);
    assert TrimStart(s) == s;
    assert s[0] != '-' && s[0] != '+';
    assert IsDigitIn(s[0], 10);
    var k := DigitRun(s, 10);
    assert k > 0;
  }

  /** Anything after the digits, such as a fractional part or a unit, is
      ignored by `parseInt(s, 10)`. */
  lemma ParseIntIgnoresTrailing(n: nat, rest: string)
    requires |rest| > 0 ==> !IsDecimalDigit(rest[0])
    ensures ParseInt(NatToString(n) + rest, Decimal) == Some(n)
  {
    var digits := NatToString(n);
    var s := digits + rest;
    DigitsValueOfNatToString(n);
    assert s[0] == digits[0];
    ParseIntFromDigit(s);
    DigitRunPrefix(digits, rest);
    assert s[..|digits|] == digits;
  }

  lemma {:induction false} DigitRunPrefix(digits: string, rest: string)
    requires forall i :: 0 <= i < |digits| ==> IsDigitIn(digits[i], 10)
    requires |rest| > 0 ==> !IsDecimalDigit(rest[0])
    ensures DigitRun(digits + rest, 10) == |digits|
    decreases |digits|
  {
    if |digits| == 0 {
      assert digits + rest == rest;
    } else {
      assert (digits + rest)[1..] == digits[1..] + rest;
      DigitRunPrefix(digits[1..], rest);
    }
  }
}

=== FILE: json.dfy ===
/** JSON values as `JSON.parse` returns them and as the secret store keeps
    records. Numbers are integers only. */
module Json {
  import Text
  import JsNumbers

  datatype Json =
    | JNull
    | JBool(b: bool)
    | JNum(n: int)
    | JStr(s: string)
    | JArr(items: seq<Json>)
    | JObj(fields: map<string, Json>)

  /** `String(v)`: what `parseInt` reads when given a value that is not a
      string. An array prints its elements joined by commas, with `null`
      elements printed empty. */
  function ToJsString(v: Json): string
    decreases v, 1
  {
    match v
    case JNull => "null"
    case JBool(b) => if b then "true" else "false"
    case JNum(n) => JsNumbers.IntToString(n)
    case JStr(s) => s
    case JArr(items) => Text.Join(seq(|items|, i requires 0 <= i < |items| => ElementString(items, i)), ',')
    case JObj(_) => "[object Object]"
  }

  function ElementString(items: seq<Json>, i: nat): string
    requires i < |items|
    decreases JArr(items), 0
  {
    if items[i].JNull? then "" else ToJsString(items[i])
  }

  /** JSON white space (section 2 of RFC 8259). */
  predicate IsJsonSpace(c: char) {
    c == ' ' || c == '\t' || c == '\n' || c == '\r'
  }

  /** `s` without its leading JSON white space. */
  function SkipJsonSpace(s: string): (t: string)
    ensures |t| <= |s| && t == s[|s| - |t|..]
    ensures |t| > 0 ==> !IsJsonSpace(t[0])
    decreases |s|
  {
    if |s| > 0 && IsJsonSpace(s[0]) then SkipJsonSpace(s[1..]) else s
  }

  /** Whether a JSON value can begin here, after white space: an object,
      an array, a string, a number, `true`, `false` or `null`. */
  predicate StartsValue(s: string) {
    var t := SkipJsonSpace(s);
    |t| > 0 && IsValueStart(t[0])
  }

  predicate IsValueStart(c: char) {
    c == '{' || c == '[' || c == '"' || c == '-' || '0' <= c <= '9' || c == 't' || c == 'f' || c == 'n'
  }

  /** A necessary condition for `JSON.parse` to accept `s`: a value
      begins, and when it is an array, what follows its `[` closes the
      array or begins an element. */
  predicate MayParse(s: string) {
    && StartsValue(s)
    && var t := SkipJsonSpace(s);
       t[0] == '[' ==> var u := SkipJsonSpace(t[1..]); |u| > 0 && (u[0] == ']' || StartsValue(u))
  }
}

=== FILE: results.dfy ===
/** Failure-compatible wrappers used throughout the model: JavaScript's
    `undefined`/`null` become `None`, and a thrown exception becomes `Err`. */
module Results {

  datatype Option<+T> = None | Some(value: T) {

    predicate IsFailure() {
      None?
    }

    function PropagateFailure<U>(): Option<U>
      requires None?
    {
      None
    }

    function Extract(): T
      requires Some?
    {
      value
    }

    /** The value, or `default` when absent (JavaScript's `??`). */
    function GetOr(default: T): T {
      match this
      case Some(v) => v
      case None => default
    }
  }

  datatype Result<+T, +E> = Ok(value: T) | Err(error: E) {

    predicate IsFailure() {
      Err?
    }

    function PropagateFailure<U>(): Result<U, E>
      requires Err?
    {
      Err(error)
    }

    function Extract(): T
      requires Ok?
    {
      value
    }
  }
}

=== FILE: seqs.dfy ===
/** Order-preserving selection from a sequence, as JavaScript loops that
    `continue` past some elements and push the others do it. */
module Seqs {

  function Filter<T>(p: T -> bool, s: seq<T>): (r: seq<T>)
    ensures |r| <= |s|
    ensures forall i :: 0 <= i < |r| ==> p(r[i])
    decreases |s|
  {
    if |s| == 0 then []
    else if p(s[0]) then [s[0]] + Filter(p, s[1..])
    else Filter(p, s[1..])
  }

  lemma {:induction false} FilterAppend<T>(p: T -> bool, s: seq<T>, x: T)
    ensures Filter(p, s + [x]) == Filter(p, s) + (if p(x) then [x] else [])
    decreases |s|
  {
    if |s| > 0 {
      assert (s + [x])[1..] == s[1..] + [x];
      FilterAppend(p, s[1..], x);
    } else {
      assert s + [x] == [x];
    }
  }

  /** One more element of `s` considered. */
  lemma FilterStep<T>(p: T -> bool, s: seq<T>, i: nat)
    requires i < |s|
    ensures Filter(p, s[..i + 1]) == Filter(p, s[..i]) + (if p(s[i]) then [s[i]] else [])
  {
    assert s[..i + 1] == s[..i] + [s[i]];
    FilterAppend(p, s[..i], s[i]);
  }

  lemma {:induction false} FilterConcat<T>(p: T -> bool, a: seq<T>, b: seq<T>)
    ensures Filter(p, a + b) == Filter(p, a) + Filter(p, b)
    decreases |a|
  {
    if |a| == 0 {
      assert a + b == b;
    } else {
      assert (a + b)[1..] == a[1..] + b;
      FilterConcat(p, a[1..], b);
    }
  }

  lemma {:induction false} FilterNone<T>(p: T -> bool, s: seq<T>)
    requires forall i :: 0 <= i < |s| ==> !p(s[i])
    ensures Filter(p, s) == []
    decreases |s|
  {
    if |s| > 0 {
      FilterNone(p, s[1..]);
    }
  }

  lemma FilterPrefix<T>(p: T -> bool, s: seq<T>, n: nat)
    requires n <= |s|
    ensures Filter(p, s[..n]) <= Filter(p, s)
  {
    assert s == s[..n] + s[n..];
    FilterConcat(p, s[..n], s[n..]);
  }

  /** Every selected element is kept exactly as often as it occurs, and no
      other element is kept. */
  lemma {:induction false} FilterCount<T>(p: T -> bool, s: seq<T>, x: T)
    ensures multiset(Filter(p, s))[x] == if p(x) then multiset(s)[x] else 0
    decreases |s|
  {
    if |s| > 0 {
      FilterCount(p, s[1..], x);
      assert s == [s[0]] + s[1..];
      assert multiset(s) == multiset{s[0]} + multiset(s[1..]);
      if p(s[0]) {
        assert multiset(Filter(p, s)) == multiset{s[0]} + multiset(Filter(p, s[1..]));
      }
    }
  }

  /** `a` lists some of the elements of `b`, in the same order. */
  ghost predicate Subsequence<T>(a: seq<T>, b: seq<T>)
    decreases |b|
  {
    |a| == 0 || (|b| > 0 && (if a[0] == b[0] then Subsequence(a[1..], b[1..]) else Subsequence(a, b[1..])))
  }

  /** Selection keeps the original order. */
  lemma {:induction false} FilterSubsequence<T>(p: T -> bool, s: seq<T>)
    ensures Subsequence(Filter(p, s), s)
    decreases |s|
  {
    if |s| > 0 {
      FilterSubsequence(p, s[1..]);
      var r := Filter(p, s);
      if p(s[0]) {
        assert r[1..] == Filter(p, s[1..]);
      } else if |r| > 0 {
        assert p(r[0]);
      }
    }
  }
}

=== FILE: subgraph.dfy ===
/** Bid discovery through the indexer (src/subgraph.js): two queries that
    differ only in the validator-phase filter, each read page by page. */
module Subgraph {
  import opened Results
  import opened Bids

  /** A bid as the indexer stores it; the queries return only bids that
      have a validator. */
  datatype BidEntity = BidEntity(
    id: string,
    bidderAddress: string,
    pubKeyIndex: string,
    status: string,
    validator: Option<Validator>)

  const PageSize: nat := 1000
  const ActivePhases: set<string> := {"LIVE", "WAITING_FOR_APPROVAL"}

  /** The filter both queries share: the bidder's WON bids with a validator. */
  predicate WonWithValidator(e: BidEntity, bidder: string) {
    e.bidderAddress == bidder && e.status == "WON" && e.validator.Some?
  }

  /** The `where` clause of the active query (`phase_in`) or, with
      `cleanup`, of the cleanup query (`phase_not_in`). */
  predicate Selected(e: BidEntity, bidder: string, cleanup: bool) {
    && WonWithValidator(e, bidder)
    && (if cleanup then e.validator.value.phase !in ActivePhases else e.validator.value.phase in ActivePhases)
  }

  function AsBid(e: BidEntity): Bid
    requires e.validator.Some?
  {
    Bid(e.id, e.bidderAddress, e.pubKeyIndex, e.validator.value)
  }

  /** Everything a query selects, in the indexer's order. */
  function Matching(ds: seq<BidEntity>, bidder: string, cleanup: bool): seq<Bid>
    decreases |ds|
  {
    if |ds| == 0 then []
    else (if Selected(ds[0], bidder, cleanup) then [AsBid(ds[0])] else []) + Matching(ds[1..], bidder, cleanup)
  }

  /** All of the bidder's WON bids with a validator, whatever the phase. */
  function WonBids(ds: seq<BidEntity>, bidder: string): seq<Bid>
    decreases |ds|
  {
    if |ds| == 0 then []
    else (if WonWithValidator(ds[0], bidder) then [AsBid(ds[0])] else []) + WonBids(ds[1..], bidder)
  }

  /** The two phase filters are complementary: every WON bid with a
      validator is returned by exactly one of the two queries, and no other
      bid by either. */
  lemma {:induction false} QueriesPartitionWonBids(ds: seq<BidEntity>, bidder: string)
    ensures multiset(Matching(ds, bidder, false)) + multiset(Matching(ds, bidder, true))
         == multiset(WonBids(ds, bidder))
    decreases |ds|
  {
    if |ds| > 0 {
      QueriesPartitionWonBids(ds[1..], bidder);
    }
  }

  /** One `retrieveBidsFromSubgraph` call with `first` and `skip` over the
      query's results: a failed request is logged and reads as an empty
      page. */
  function FetchPage(results: seq<Bid>, first: nat, skip: nat, fails: bool): (page: seq<Bid>)
    ensures |page| <= first
    ensures fails || skip >= |results| ==> page == []
    ensures !fails && skip + first <= |results| ==> page == results[skip..skip + first]
    ensures !fails && skip <= |results| < skip + first ==> page == results[skip..]
  {
    if fails || skip >= |results| then []
    else if skip + first <= |results| then results[skip..skip + first]
    else results[skip..]
  }

  /** A skip the paging loop can reach over `results`: a multiple of the
      page size no larger than the result count. */
  predicate Reachable(results: seq<Bid>, skip: nat) {
    skip % PageSize == 0 && skip <= |results|
  }

  /** What the paging loop yields over `results`: the results up to the
      first reachable skip whose request fails, or all of them when no
      reachable request fails. */
  predicate PagedPrefix(results: seq<Bid>, failingSkips: set<nat>, bids: seq<Bid>) {
    && bids <= results
    && (forall k :: k in failingSkips && Reachable(results, k) ==> |bids| <= k)
    && (bids != results ==> |bids| in failingSkips && Reachable(results, |bids|))
  }

  /** `PagedPrefix` leaves no choice: the yield is determined by the
      results and the failing skips. */
  lemma PagedPrefixUnique(results: seq<Bid>, failingSkips: set<nat>, bids: seq<Bid>, bids': seq<Bid>)
    requires PagedPrefix(results, failingSkips, bids)
    requires PagedPrefix(results, failingSkips, bids')
    ensures bids == bids'
  {
    if bids != results {
      assert |bids'| <= |bids|;
    }
    if bids' != results {
      assert |bids| <= |bids'|;
    }
  }

  /** Two multiples of the page size differ by at least a page. */
  lemma NextPage(a: nat, b: nat)
    requires a % PageSize == 0 && b % PageSize == 0 && a < b
    ensures a + PageSize <= b
  {
  }

  /** No page request the loop can issue over `results` fails. */
  predicate NoPageFails(results: seq<Bid>, failingSkips: set<nat>) {
    forall s :: s in failingSkips ==> s % PageSize != 0 || s > |results|
  }

  /** The paging loop of `retrieveAllBidsIterated` and
      `retrieveAllCleanupBidsIterated`, as evidently intended (with `bids`
      rebindable). Requests start at skip 0 and advance by a full page
      until a page comes back short. A request whose skip is in
      `failingSkips` fails; its empty page also ends the loop. Passing
      100000 bids only logs. */
  method RetrieveAllIterated(results: seq<Bid>, failingSkips: set<nat>) returns (bids: seq<Bid>, skips: seq<nat>)
    ensures |skips| >= 1
    ensures forall i :: 0 <= i < |skips| ==> skips[i] == i * PageSize
    ensures forall i :: 0 <= i < |skips| - 1 ==> skips[i] !in failingSkips
    ensures bids <= results
    ensures var last := skips[|skips| - 1];
      && last <= |results|
      && (last in failingSkips ==> bids == results[..last])
      && (last !in failingSkips ==> bids == results && |results| < last + PageSize)
    ensures bids != results ==> |bids| == skips[|skips| - 1] && |bids| in failingSkips
    ensures PagedPrefix(results, failingSkips, bids)
    ensures NoPageFails(results, failingSkips) ==> bids == results && |skips| == |results| / PageSize + 1
  {
    bids := [];
    skips := [];
    var skip: nat := 0;
    var done := false;
    while !done
      invariant skip % PageSize == 0 && skip <= |results|
      invariant |skips| == skip / PageSize + (if done then 1 else 0)
      invariant forall i :: 0 <= i < |skips| ==> skips[i] == i * PageSize
      invariant forall i :: 0 <= i < skip / PageSize ==> skips[i] !in failingSkips
      invariant !done ==> bids == results[..skip]
      invariant done ==> bids <= results && skips[|skips| - 1] == skip
      invariant done && skip in failingSkips ==> bids == results[..skip]
      invariant done && skip !in failingSkips ==> bids == results && |results| < skip + PageSize
      invariant forall k :: k in failingSkips && k % PageSize == 0 ==> skip <= k
      invariant done && NoPageFails(results, failingSkips) ==> bids == results && skip == |results| / PageSize * PageSize
      decreases |results| - skip + (if done then 0 else 1)
    {
      var fails := skip in failingSkips;
      var page := FetchPage(results, PageSize, skip, fails);
      skips := skips + [skip];
      bids := bids + page;
      if |page| < PageSize {
        done := true;
        if !fails {
          assert bids == results[..skip] + results[skip..];
          assert results[..skip] + results[skip..] == results;
        }
      } else {
        assert bids == results[..skip + PageSize];
        forall k | k in failingSkips && k % PageSize == 0
          ensures skip + PageSize <= k
        {
          NextPage(skip, k);
        }
        skip := skip + PageSize;
      }
    }
  }

  /** The paging loop exactly as written: `bids` is declared `const` (lines
      34 and 87) and reassigned with the first page (lines 40 and 93), which
      in an ES module throws `TypeError` once the first request has
      returned. No call ever yields its bids. */
  method RetrieveAllIteratedAsWritten(results: seq<Bid>, failingSkips: set<nat>) returns (r: Result<seq<Bid>, string>, skips: seq<nat>)
    ensures r.Err?
    ensures skips == [0]
  {
    var page := FetchPage(results, PageSize, 0, 0 in failingSkips);
    skips := [0];
    r := Err("TypeError: Assignment to constant variable.");
  }

  /** `retrieveAllBidsIterated(GRAPH_URL, BIDDER)` over the indexer's data
      set (the intended loop). */
  method RetrieveAllBidsIterated(ds: seq<BidEntity>, bidder: string, failingSkips: set<nat>) returns (bids: seq<Bid>)
    ensures bids <= Matching(ds, bidder, false)
    ensures PagedPrefix(Matching(ds, bidder, false), failingSkips, bids)
    ensures NoPageFails(Matching(ds, bidder, false), failingSkips) ==> bids == Matching(ds, bidder, false)
  {
    var skips;
    bids, skips := RetrieveAllIterated(Matching(ds, bidder, false), failingSkips);
  }

  /** `retrieveAllCleanupBidsIterated(GRAPH_URL, BIDDER)` over the indexer's
      data set (the intended loop). */
  method RetrieveAllCleanupBidsIterated(ds: seq<BidEntity>, bidder: string, failingSkips: set<nat>) returns (bids: seq<Bid>)
    ensures bids <= Matching(ds, bidder, true)
    ensures PagedPrefix(Matching(ds, bidder, true), failingSkips, bids)
    ensures NoPageFails(Matching(ds, bidder, true), failingSkips) ==> bids == Matching(ds, bidder, true)
  {
    var skips;
    bids, skips := RetrieveAllIterated(Matching(ds, bidder, true), failingSkips);
  }
}

=== FILE: teku.dfy ===
/** `sigHupAllTekus` (src/teku.js): list the local Docker containers and send
    SIGHUP to every one whose image names Teku. */
module Teku {
  import opened Results
  import opened Text
  import opened Seqs
  import Json

  datatype Container = Container(id: string, image: string)

  const TekuImage := "consensys/teku"

  /** The selection test: the image, lower-cased and trimmed, contains
      `consensys/teku`. */
  predicate IsTeku(c: Container) {
    Contains(ImageKey(c.image), TekuImage)
  }

  /** The image name as the test reads it: lower-cased, then trimmed. */
  function ImageKey(image: string): string {
    Trim(ToLower(image))
  }

  /** The containers that receive a signal, in listing order. */
  function Targets(cs: seq<Container>): seq<Container> {
    Filter(IsTeku, cs)
  }

  /** Each matching container is signalled exactly as often as it is listed,
      in listing order, and no other container is signalled; an empty or
      all-foreign listing yields no signal. */
  lemma TargetsExactlyTheTekus(cs: seq<Container>)
    ensures forall i :: 0 <= i < |Targets(cs)| ==> IsTeku(Targets(cs)[i])
    ensures forall c :: multiset(Targets(cs))[c] == if IsTeku(c) then multiset(cs)[c] else 0
    ensures Subsequence(Targets(cs), cs)
    ensures (forall i :: 0 <= i < |cs| ==> !IsTeku(cs[i])) ==> Targets(cs) == []
  {
    forall c {
      FilterCount(IsTeku, cs, c);
    }
    FilterSubsequence(IsTeku, cs);
    if forall i :: 0 <= i < |cs| ==> !IsTeku(cs[i]) {
      FilterNone(IsTeku, cs);
    }
  }

  /** Selection ignores letter case and white space around the image name. */
  lemma SelectionIgnoresCaseAndSpace(id: string, image: string, ws1: string, ws2: string)
    requires AllSpace(ws1) && AllSpace(ws2)
    ensures IsTeku(Container(id, ws1 + image + ws2)) == IsTeku(Container(id, ToLower(image)))
  {
    ToLowerConcat(ws1 + image, ws2);
    ToLowerConcat(ws1, image);
    ToLowerIdentity(ws1);
    ToLowerIdentity(ws2);
    ToLowerIdentity(ToLower(image));
    TrimIgnoresSurroundingSpace(ws1, ToLower(image), ws2);
  }

  /** What one call did: the containers signalled, and whether it finished
      (a failed listing or a failed signal throws and ends the call). */
  datatype ReloadOutcome = ReloadOutcome(signalled: seq<Container>, ok: bool)

  /** The position of the first container whose signal fails, or the
      length when none does. */
  function FirstFailing(ts: seq<Container>, failing: set<string>): (k: nat)
    ensures k <= |ts|
    ensures forall i :: 0 <= i < k ==> ts[i].id !in failing
    ensures k < |ts| ==> ts[k].id in failing
    decreases |ts|
  {
    if |ts| == 0 then 0
    else if ts[0].id in failing then 0
    else 1 + FirstFailing(ts[1..], failing)
  }

  /** What a call does, stated over the whole listing: the targets before
      the first failing one are signalled, and the call finishes when there
      is none. */
  function ExpectedReload(listing: Option<seq<Container>>, failing: set<string>): ReloadOutcome {
    if listing.None? then ReloadOutcome([], false)
    else
      var ts := Targets(listing.value);
      var k := FirstFailing(ts, failing);
      ReloadOutcome(ts[..k], k == |ts|)
  }

  /** `sigHupAllTekus`. `listing` is the Docker listing (`None` when the
      request fails); the signal request for a container whose id is in
      `failing` throws. */
  method SigHupAllTekus(listing: Option<seq<Container>>, failing: set<string>) returns (out: ReloadOutcome)
    ensures out == ExpectedReload(listing, failing)
  {
    if listing.None? {
      return ReloadOutcome([], false);
    }
    var cs := listing.value;
    var sent: seq<Container> := [];
    var i := 0;
    while i < |cs|
      invariant 0 <= i <= |cs|
      invariant sent == Targets(cs[..i])
      invariant forall k :: 0 <= k < |sent| ==> sent[k].id !in failing
    {
      TargetsStep(cs, i);
      if IsTeku(cs[i]) {
        if cs[i].id in failing {
          StopsAtFailingTarget(cs, failing, sent, i);
          return ReloadOutcome(sent, false);
        }
        sent := sent + [cs[i]];
      }
      i := i + 1;
    }
    SignalsEveryTarget(cs, failing, sent);
    return ReloadOutcome(sent, true);
  }

  lemma TargetsStep(cs: seq<Container>, i: nat)
    requires i < |cs|
    ensures Targets(cs[..i + 1]) == Targets(cs[..i]) + (if IsTeku(cs[i]) then [cs[i]] else [])
  {
    FilterStep(IsTeku, cs, i);
  }

  /** The loop meets a Teku container whose signal fails after signalling
      the targets before it. */
  lemma StopsAtFailingTarget(cs: seq<Container>, failing: set<string>, sent: seq<Container>, i: nat)
    requires i < |cs| && sent == Targets(cs[..i])
    requires forall k :: 0 <= k < |sent| ==> sent[k].id !in failing
    requires IsTeku(cs[i]) && cs[i].id in failing
    ensures ExpectedReload(Some(cs), failing) == ReloadOutcome(sent, false)
  {
    TargetsStep(cs, i);
    FilterPrefix(IsTeku, cs, i + 1);
    assert Targets(cs[..i + 1]) == sent + [cs[i]];
    assert Targets(cs)[|sent|] == cs[i];
    ExpectedReloadIs(cs, failing, sent);
  }

  /** The loop reaches the end of the listing having signalled every
      target. */
  lemma SignalsEveryTarget(cs: seq<Container>, failing: set<string>, sent: seq<Container>)
    requires sent == Targets(cs[..|cs|])
    requires forall k :: 0 <= k < |sent| ==> sent[k].id !in failing
    ensures ExpectedReload(Some(cs), failing) == ReloadOutcome(sent, true)
  {
    assert cs[..|cs|] == cs;
    ExpectedReloadIs(cs, failing, sent);
  }

  /** A failed listing signals nothing; otherwise the Teku containers are
      signalled in listing order up to the first whose signal fails, and
      the call finishes exactly when none fails, having signalled all. */
  lemma ReloadMeaning(listing: Option<seq<Container>>, failing: set<string>)
    ensures var out := ExpectedReload(listing, failing);
      && (listing.None? ==> out == ReloadOutcome([], false))
      && (listing.Some? ==> out.signalled <= Targets(listing.value))
      && (listing.Some? ==>
            (out.ok <==> forall i :: 0 <= i < |Targets(listing.value)| ==> Targets(listing.value)[i].id !in failing))
      && (listing.Some? && !out.ok ==>
            |out.signalled| < |Targets(listing.value)| && Targets(listing.value)[|out.signalled|].id in failing)
      && (out.ok ==> listing.Some? && out.signalled == Targets(listing.value))
  {
  }

  lemma ExpectedReloadIs(cs: seq<Container>, failing: set<string>, sent: seq<Container>)
    requires sent <= Targets(cs)
    requires forall i :: 0 <= i < |sent| ==> sent[i].id !in failing
    requires |sent| < |Targets(cs)| ==> Targets(cs)[|sent|].id in failing
    ensures ExpectedReload(Some(cs), failing) == ReloadOutcome(sent, |sent| == |Targets(cs)|)
  {
    FirstFailingAt(Targets(cs), failing, |sent|);
  }

  /** The first failing position is the one before which nothing fails and
      at which something does (or the end). */
  lemma {:induction false} FirstFailingAt(ts: seq<Container>, failing: set<string>, k: nat)
    requires k <= |ts|
    requires forall i :: 0 <= i < k ==> ts[i].id !in failing
    requires k < |ts| ==> ts[k].id in failing
    ensures FirstFailing(ts, failing) == k
    decreases k
  {
    if k > 0 {
      FirstFailingAt(ts[1..], failing, k - 1);
    }
  }

  /** What line 4 hands to `JSON.parse`: `await got(...)` resolves to got's
      response object, not to its `body`, and the object's string form is
      this text. */
  const ResponseObjectText := "[object Object]"

  /** That text is not JSON: after its `[` comes `o`, which neither closes
      an array nor begins a value. */
  lemma ResponseObjectTextIsNotJson()
    ensures !Json.MayParse(ResponseObjectText)
  {
    OpenBracketThenLetterO(ResponseObjectText);
  }

  lemma OpenBracketThenLetterO(t: string)
    requires |t| >= 2 && t[0] == '[' && t[1] == 'o'
    ensures !Json.MayParse(t)
  {
    assert Json.SkipJsonSpace(t) == t;
    assert t[1..][0] == 'o';
    assert Json.SkipJsonSpace(t[1..]) == t[1..];
  }

  /** The container list line 4 obtains as written, given the daemon's
      reply (`None` when the request fails): the text parsed is the
      response object's, so the parse throws whatever the daemon said. */
  function ListingAsWritten(reply: Option<seq<Container>>): (listing: Option<seq<Container>>)
    ensures listing.None?
  {
    ResponseObjectTextIsNotJson();
    if Json.MayParse(ResponseObjectText) then reply else None
  }

  /** Line 4 as written: every call throws before signalling anything,
      whatever the daemon lists and whichever signals would fail. */
  method SigHupAllTekusAsWritten(reply: Option<seq<Container>>, failing: set<string>) returns (out: ReloadOutcome)
    ensures out == ReloadOutcome([], false)
  {
    out := SigHupAllTekus(ListingAsWritten(reply), failing);
  }

  /** The discrepancy: with a daemon that answers and signals that all
      succeed, the call that parses the reply's body signals every Teku
      container and finishes, while the call as written signals none and
      throws. */
  lemma AsWrittenMissesWorkingDaemon(cs: seq<Container>)
    ensures ExpectedReload(Some(cs), {}) == ReloadOutcome(Targets(cs), true)
    ensures ExpectedReload(ListingAsWritten(Some(cs)), {}) == ReloadOutcome([], false)
  {
    FirstFailingAt(Targets(cs), {}, |Targets(cs)|);
  }
}

=== FILE: text.dfy ===
/** The JavaScript string operations the client relies on, on `string` as a
    sequence of characters: ASCII lower-casing, `trim`, `split`/`join` on a
    one-character separator, `includes`, and global removal of a literal
    pattern (`replace(/pat/g, '')`). */
module Text {

  /** The characters ECMAScript classes as WhiteSpace or LineTerminator:
      what `String.prototype.trim` removes and what `parseInt` skips. */
  predicate IsJsSpace(c: char) {
    || c == ' ' || c == '\t' || c == '\n' || c == '\U{000B}' || c == '\U{000C}' || c == '\r'
    || c == '\U{00A0}' || c == '\U{1680}' || ('\U{2000}' <= c <= '\U{200A}')
    || c == '\U{2028}' || c == '\U{2029}' || c == '\U{202F}' || c == '\U{205F}'
    || c == '\U{3000}' || c == '\U{FEFF}'
  }

  predicate AllSpace(s: string) {
    forall i :: 0 <= i < |s| ==> IsJsSpace(s[i])
  }

  predicate IsUpperAscii(c: char) {
    'A' <= c <= 'Z'
  }

  predicate NoUpperAscii(s: string) {
    forall i :: 0 <= i < |s| ==> !IsUpperAscii(s[i])
  }

  function LowerChar(c: char): (d: char)
    ensures !IsUpperAscii(d)
    ensures !IsUpperAscii(c) ==> d == c
    ensures IsJsSpace(d) <==> IsJsSpace(c)
  {
    if IsUpperAscii(c) then (c as int + 32) as char else c
  }

  /** `toLowerCase`, restricted to the ASCII letters. */
  function ToLower(s: string): (r: string)
    ensures |r| == |s|
    ensures forall i :: 0 <= i < |s| ==> r[i] == LowerChar(s[i])
  {
    seq(|s|, i requires 0 <= i < |s| => LowerChar(s[i]))
  }

  lemma ToLowerConcat(a: string, b: string)
    ensures ToLower(a + b) == ToLower(a) + ToLower(b)
  {
  }

  lemma ToLowerIdentity(s: string)
    requires NoUpperAscii(s)
    ensures ToLower(s) == s
  {
  }

  /** `s` with its leading JavaScript white space removed. */
  function TrimStart(s: string): (r: string)
    ensures |r| <= |s|
    decreases |s|
  {
    if |s| > 0 && IsJsSpace(s[0]) then TrimStart(s[1..]) else s
  }

  /** `s` with its trailing JavaScript white space removed. */
  function TrimEnd(s: string): (r: string)
    ensures |r| <= |s|
    decreases |s|
  {
    if |s| > 0 && IsJsSpace(s[|s| - 1]) then TrimEnd(s[..|s| - 1]) else s
  }

  /** `TrimStart` removes exactly the maximal white-space prefix. */
  lemma {:induction false} TrimStartShape(s: string)
    ensures var r := TrimStart(s);
      && r == s[|s| - |r|..]
      && AllSpace(s[..|s| - |r|])
      && (|r| > 0 ==> !IsJsSpace(r[0]))
    decreases |s|
  {
    if |s| > 0 && IsJsSpace(s[0]) {
      TrimStartShape(s[1..]);
      var r := TrimStart(s);
      assert s[..|s| - |r|] == [s[0]] + s[1..][..|s| - 1 - |r|];
    }
  }

  /** `TrimEnd` removes exactly the maximal white-space suffix. */
  lemma {:induction false} TrimEndShape(s: string)
    ensures var r := TrimEnd(s);
      && r == s[..|r|]
      && AllSpace(s[|r|..])
      && (|r| > 0 ==> !IsJsSpace(r[|r| - 1]))
    decreases |s|
  {
    if |s| > 0 && IsJsSpace(s[|s| - 1]) {
      TrimEndShape(s[..|s| - 1]);
      var r := TrimEnd(s);
      assert s[|r|..] == s[..|s| - 1][|r|..] + [s[|s| - 1]];
    }
  }

  /** A character that is not white space bounds what `TrimEnd` may remove:
      it and everything before it are kept. */
  lemma {:induction false} TrimEndKeeps(s: string, i: nat)
    requires i < |s| && !IsJsSpace(s[i])
    ensures |TrimEnd(s)| > i
    ensures TrimEnd(s)[..i + 1] == s[..i + 1]
    decreases |s|
  {
    if IsJsSpace(s[|s| - 1]) {
      TrimEndKeeps(s[..|s| - 1], i);
      assert s[..|s| - 1][..i + 1] == s[..i + 1];
    }
  }

  /** `String.prototype.trim`. */
  function Trim(s: string): string {
    TrimEnd(TrimStart(s))
  }

  lemma {:induction false} TrimStartSkipsSpace(ws: string, s: string)
    requires AllSpace(ws)
    ensures TrimStart(ws + s) == TrimStart(s)
    decreases |ws|
  {
    if |ws| == 0 {
      assert ws + s == s;
    } else {
      assert (ws + s)[0] == ws[0];
      assert (ws + s)[1..] == ws[1..] + s;
      TrimStartSkipsSpace(ws[1..], s);
    }
  }

  lemma {:induction false} TrimEndSkipsSpace(s: string, ws: string)
    requires AllSpace(ws)
    ensures TrimEnd(s + ws) == TrimEnd(s)
    decreases |ws|
  {
    if |ws| == 0 {
      assert s + ws == s;
    } else {
      assert (s + ws)[|s + ws| - 1] == ws[|ws| - 1];
      assert (s + ws)[..|s + ws| - 1] == s + ws[..|ws| - 1];
      TrimEndSkipsSpace(s, ws[..|ws| - 1]);
    }
  }

  lemma TrimStartAppend(s: string, ws2: string)
    requires AllSpace(ws2)
    ensures |TrimStart(s)| > 0 ==> TrimStart(s + ws2) == TrimStart(s) + ws2
    ensures |TrimStart(s)| == 0 ==> TrimStart(s + ws2) == ""
  {
    var t := TrimStart(s);
    TrimStartShape(s);
    var p := s[..|s| - |t|];
    assert s + ws2 == p + (t + ws2);
    TrimStartSkipsSpace(p, t + ws2);
    if |t| > 0 {
      assert (t + ws2)[0] == t[0];
    } else {
      assert t + ws2 == ws2 + "";
      TrimStartSkipsSpace(ws2, "");
    }
  }

  /** Surrounding white space does not change what `trim` leaves. */
  lemma TrimIgnoresSurroundingSpace(ws1: string, s: string, ws2: string)
    requires AllSpace(ws1) && AllSpace(ws2)
    ensures Trim(ws1 + s + ws2) == Trim(s)
  {
    assert ws1 + s + ws2 == ws1 + (s + ws2);
    TrimStartSkipsSpace(ws1, s + ws2);
    TrimStartAppend(s, ws2);
    if |TrimStart(s)| > 0 {
      TrimEndSkipsSpace(TrimStart(s), ws2);
    }
  }

  lemma TrimIdentity(s: string)
    requires |s| > 0 ==> !IsJsSpace(s[0]) && !IsJsSpace(s[|s| - 1])
    ensures Trim(s) == s
  {
    assert TrimStart(s) == s;
  }

  /** `s.split(sep)` for a one-character separator: never empty, and the
      pieces are the maximal separator-free runs. */
  function Split(s: string, sep: char): (parts: seq<string>)
    ensures |parts| == multiset(s)[sep] + 1
    ensures forall i :: 0 <= i < |parts| ==> sep !in parts[i]
    decreases |s|
  {
    if |s| == 0 then [""]
    else
      var rest := Split(s[1..], sep);
      assert s == [s[0]] + s[1..];
      if s[0] == sep then [""] + rest
      else [[s[0]] + rest[0]] + rest[1..]
  }

  /** `parts.join(sep)`. */
  function Join(parts: seq<string>, sep: char): string
    decreases |parts|
  {
    if |parts| == 0 then ""
    else if |parts| == 1 then parts[0]
    else parts[0] + [sep] + Join(parts[1..], sep)
  }

  /** Joining the pieces of a split gives back the string. */
  lemma {:induction false} JoinSplit(s: string, sep: char)
    ensures Join(Split(s, sep), sep) == s
    decreases |s|
  {
    if |s| > 0 {
      JoinSplit(s[1..], sep);
      var rest := Split(s[1..], sep);
      if s[0] != sep {
        JoinConsFirst(s[0], rest, sep);
      } else {
        assert ([""] + rest)[1..] == rest;
      }
      assert s == [s[0]] + s[1..];
    }
  }

  /** Putting a character in front of the first piece puts it in front of
      the join. */
  lemma JoinConsFirst(c: char, parts: seq<string>, sep: char)
    requires |parts| > 0
    ensures Join([[c] + parts[0]] + parts[1..], sep) == [c] + Join(parts, sep)
  {
    var q := [[c] + parts[0]] + parts[1..];
    assert q[0] == [c] + parts[0] && q[1..] == parts[1..];
  }

  lemma {:induction false} SplitNoSep(a: string, sep: char)
    requires sep !in a
    ensures Split(a, sep) == [a]
    decreases |a|
  {
    if |a| > 0 {
      SplitNoSep(a[1..], sep);
      assert [a[0]] + a[1..] == a;
    }
  }

  lemma {:induction false} SplitAtSep(a: string, sep: char, b: string)
    requires sep !in a
    ensures Split(a + [sep] + b, sep) == [a] + Split(b, sep)
    decreases |a|
  {
    if |a| == 0 {
      assert a + [sep] + b == [sep] + b;
      assert ([sep] + b)[1..] == b;
    } else {
      var s := a + [sep] + b;
      assert s[1..] == a[1..] + [sep] + b;
      SplitAtSep(a[1..], sep, b);
      assert [a[0]] + a[1..] == a;
    }
  }

  /** Three separator-free pieces joined by the separator split back into
      those pieces, and whatever follows a third separator only adds pieces
      after them. */
  lemma SplitThree(a: string, b: string, c: string, sep: char)
    requires sep !in a && sep !in b && sep !in c
    ensures Split(a + [sep] + b + [sep] + c, sep) == [a, b, c]
  {
    SplitNoSep(c, sep);
    SplitAtSep(b, sep, c);
    SplitAtSep(a, sep, b + [sep] + c);
    assert a + [sep] + b + [sep] + c == a + [sep] + (b + [sep] + c);
  }

  lemma SplitThreeMore(a: string, b: string, c: string, sep: char, rest: string)
    requires sep !in a && sep !in b && sep !in c
    ensures Split(a + [sep] + b + [sep] + c + [sep] + rest, sep) == [a, b, c] + Split(rest, sep)
  {
    var t3 := c + [sep] + rest;
    var t2 := b + [sep] + t3;
    SplitAtSep(c, sep, rest);
    SplitAtSep(b, sep, t3);
    SplitAtSep(a, sep, t2);
    ConcatSevenAssoc(a, b, c, [sep], rest);
    ThreeCons(a, b, c, Split(rest, sep));
  }

  lemma ThreeCons<T>(a: T, b: T, c: T, tail: seq<T>)
    ensures [a] + ([b] + ([c] + tail)) == [a, b, c] + tail
  {
  }

  lemma ConcatSevenAssoc(a: string, b: string, c: string, s: string, rest: string)
    ensures a + s + b + s + c + s + rest == a + s + (b + s + (c + s + rest))
  {
    var x := a + s + b + s + c;
    assert x + s + rest == x + (s + rest);
    assert x == a + s + b + s + c;
    assert a + s + b + s + c + (s + rest) == a + s + b + s + (c + s + rest);
    assert a + s + b + s + (c + s + rest) == a + s + (b + s + (c + s + rest));
  }

  /** Splitting a join of separator-free pieces gives back the pieces. */
  lemma {:induction false} SplitJoin(parts: seq<string>, sep: char)
    requires |parts| >= 1
    requires forall i :: 0 <= i < |parts| ==> sep !in parts[i]
    ensures Split(Join(parts, sep), sep) == parts
    decreases |parts|
  {
    if |parts| == 1 {
      SplitNoSep(parts[0], sep);
    } else {
      SplitJoin(parts[1..], sep);
      SplitAtSep(parts[0], sep, Join(parts[1..], sep));
      assert [parts[0]] + parts[1..] == parts;
    }
  }

  /** `s.includes(needle)`. */
  predicate Contains(s: string, needle: string)
    decreases |s|
  {
    needle <= s || (|s| > 0 && Contains(s[1..], needle))
  }

  /** `s.replace(/pat/g, '')`: every non-overlapping occurrence of `pat`,
      scanning left to right, is removed. */
  function RemoveAll(s: string, pat: string): (r: string)
    requires |pat| > 0
    ensures |r| <= |s|
    decreases |s|
  {
    if |s| == 0 then s
    else if pat <= s then RemoveAll(s[|pat|..], pat)
    else [s[0]] + RemoveAll(s[1..], pat)
  }

  /** A string in which `pat` never starts comes back unchanged. */
  lemma {:induction false} RemoveAllAbsent(s: string, pat: string)
    requires |pat| > 0
    requires forall i :: 0 <= i <= |s| ==> !(pat <= s[i..])
    ensures RemoveAll(s, pat) == s
    decreases |s|
  {
    if |s| > 0 {
      assert !(pat <= s[0..]);
      assert s[0..] == s;
      forall i | 0 <= i <= |s[1..]|
        ensures !(pat <= s[1..][i..])
      {
        assert s[1..][i..] == s[i + 1..];
      }
      RemoveAllAbsent(s[1..], pat);
    }
  }
}

=== FILE: vault.dfy ===
/** Validator-key custody in the secret store (src/vault.js), over an
    abstract KV v2 mount: the secrets under the configured validators path,
    keyed by normalised public key. */
module Vault {
  import opened Results
  import opened Text
  import Bytes

  /** `normalizePublicKey`: every lower-case `0x` is removed, `0x` is put in
      front, and the whole is lower-cased and trimmed. */
  function NormalizePublicKey(pk: string): string {
    Trim(ToLower("0x" + RemoveAll(pk, "0x")))
  }

  /** A normalised key always starts with `0x` and has no upper-case ASCII
      letter. */
  lemma NormalizedShape(pk: string)
    ensures "0x" <= NormalizePublicKey(pk)
    ensures NoUpperAscii(NormalizePublicKey(pk))
  {
    var s := ToLower("0x" + RemoveAll(pk, "0x"));
    assert s[0] == '0' && s[1] == 'x';
    assert TrimStart(s) == s;
    TrimEndKeeps(s, 1);
    TrimEndShape(s);
  }

  predicate IsLowerHex(h: string) {
    forall i :: 0 <= i < |h| ==> Bytes.IsHexChar(h[i]) && !IsUpperAscii(h[i])
  }

  /** For lower-case hex `h`, with or without the prefix, the normal form is
      `0x` followed by `h`; so normalising such a key again changes nothing. */
  lemma NormalizeLowerHex(h: string)
    requires IsLowerHex(h)
    ensures NormalizePublicKey(h) == "0x" + h
    ensures NormalizePublicKey("0x" + h) == "0x" + h
    ensures NormalizePublicKey(NormalizePublicKey(h)) == NormalizePublicKey(h)
  {
    forall i | 0 <= i < |h|
      ensures h[i] != 'x'
    {
      assert Bytes.IsHexChar(h[i]);
    }
    NoPattern(h);
    RemoveAllAbsent(h, "0x");
    assert RemoveAll("0x" + h, "0x") == RemoveAll(("0x" + h)[2..], "0x");
    assert ("0x" + h)[2..] == h;
    ToLowerIdentity("0x" + h);
    TrimIdentity("0x" + h);
  }

  /** `0x` never starts inside a string with no lower-case `x`. */
  lemma NoPattern(a: string)
    requires forall i :: 0 <= i < |a| ==> a[i] != 'x'
    ensures forall i :: 0 <= i <= |a| ==> !("0x" <= a[i..])
  {
    forall i | 0 <= i <= |a|
      ensures !("0x" <= a[i..])
    {
      if i + 1 < |a| {
        assert a[i..][1] == a[i + 1] != 'x';
      }
    }
  }

  /** Keys that differ only in the case of their letters and in a leading
      lower-case `0x` address the same entry. */
  lemma CaseAndPrefixVariantsShareEntry(a: string, b: string)
    requires forall i :: 0 <= i < |a| ==> a[i] != 'x' && a[i] != 'X'
    requires forall i :: 0 <= i < |b| ==> b[i] != 'x' && b[i] != 'X'
    requires ToLower(a) == ToLower(b)
    ensures NormalizePublicKey(a) == NormalizePublicKey("0x" + b)
  {
    NoPattern(a);
    NoPattern(b);
    RemoveAllAbsent(a, "0x");
    RemoveAllAbsent(b, "0x");
    assert RemoveAll("0x" + b, "0x") == RemoveAll(("0x" + b)[2..], "0x");
    assert ("0x" + b)[2..] == b;
    ToLowerConcat("0x", a);
    ToLowerConcat("0x", b);
  }

  lemma NormalizeUpperPrefix()
    ensures NormalizePublicKey("0XAB") == "0x0xab"
  {
    var k := "0XAB";
    assert k[0] == '0' && k[1] == 'X' && k[2] == 'A' && k[3] == 'B';
    NoPattern(k);
    RemoveAllAbsent(k, "0x");
    var s := "0x" + k;
    assert ToLower(s) == "0x0xab";
    TrimIdentity("0x0xab");
  }

  lemma NormalizeDoublePrefix()
    ensures NormalizePublicKey("0x0xab") == "0xab"
  {
    var tail := "ab";
    NoPattern(tail);
    RemoveAllAbsent(tail, "0x");
    assert "0x0xab"[2..] == "0xab";
    assert "0xab"[2..] == tail;
    assert RemoveAll("0x0xab", "0x") == tail;
    assert ToLower("0xab") == "0xab";
    TrimIdentity("0xab");
  }

  /** Only the lower-case `0x` is removed: an upper-case `0X` prefix
      survives, lower-cased, behind the added one, and normalising that
      result again removes both. */
  lemma UpperCasePrefixSurvives()
    ensures NormalizePublicKey("0XAB") == "0x0xab"
    ensures NormalizePublicKey("0x0xab") == "0xab"
  {
    NormalizeUpperPrefix();
    NormalizeDoublePrefix();
  }

  /** The validator secrets: normalised key to stored value. */
  type Store = map<string, string>

  /** What the metadata endpoint answered: a 2xx response (whether its body
      has `data`, and its `errors` field if any), or an error (its HTTP
      status, absent when there was no response, and the body's `errors`). */
  datatype MetadataResponse =
    | Answered(hasData: bool, errors: Option<seq<string>>)
    | Failed(status: Option<int>, errors: Option<seq<string>>)

  datatype VaultError =
    | RequestFailed(status: Option<int>)
    | CheckAndSetMismatch

  /** The existence test of `doesValidatorKeyExistInVault` on a response:
      true when the body has data and no `errors` field; false on a 404 whose
      body has an empty `errors` array; any other failure propagates. */
  function InterpretExists(resp: MetadataResponse): (r: Result<bool, VaultError>)
    ensures r == Ok(true) <==> resp.Answered? && resp.hasData && resp.errors.None?
    ensures resp.Failed? ==> (r == Ok(false) <==> resp.status == Some(404) && resp.errors == Some([]))
    ensures r.Err? <==> resp.Failed? && !(resp.status == Some(404) && resp.errors == Some([]))
  {
    match resp
    case Answered(hasData, errors) => Ok(hasData && errors.None?)
    case Failed(status, errors) =>
      if status == Some(404) && errors == Some([]) then Ok(false) else Err(RequestFailed(status))
  }

  /** How the server answers a metadata read for a key: `outage` is the
      HTTP status of a server that is failing, with no `errors` body. */
  function MetadataOf(store: Store, key: string, outage: Option<int>): MetadataResponse {
    if outage.Some? then Failed(outage, None)
    else if key in store then Answered(true, None)
    else Failed(Some(404), Some([]))
  }

  /** `doesValidatorKeyExistInVault` against the store. */
  function DoesValidatorKeyExist(store: Store, pk: string, outage: Option<int>): (r: Result<bool, VaultError>)
    ensures outage.None? ==> r == Ok(NormalizePublicKey(pk) in store)
    ensures outage.Some? ==> r == Err(RequestFailed(outage))
  {
    InterpretExists(MetadataOf(store, NormalizePublicKey(pk), outage))
  }

  /** The result of `deleteValidatorKeyFromVault`: whether it reports a
      deletion, whether it sent the delete request, and the store after. */
  datatype DeleteOutcome = DeleteOutcome(removed: bool, deleteSent: bool, store: Store)

  /** `deleteValidatorKeyFromVault`: the existence check, then the delete
      request when the key exists. `checkOutage` and `deleteOutage` are the
      failures of the two requests; a failed delete leaves the store as it
      was. */
  function DeleteValidatorKey(store: Store, pk: string, checkOutage: Option<int>, deleteOutage: Option<int>)
    : (r: Result<DeleteOutcome, VaultError>)
    ensures r.Ok? <==> checkOutage.None? && (NormalizePublicKey(pk) in store ==> deleteOutage.None?)
    ensures checkOutage.Some? ==> r == Err(RequestFailed(checkOutage))
    ensures checkOutage.None? && NormalizePublicKey(pk) in store && deleteOutage.Some? ==> r == Err(RequestFailed(deleteOutage))
    ensures r.Ok? ==> (r.value.removed <==> NormalizePublicKey(pk) in store)
    ensures r.Ok? ==> r.value.deleteSent == r.value.removed
    ensures r.Ok? ==> r.value.store == store - {NormalizePublicKey(pk)}
  {
    var present :- DoesValidatorKeyExist(store, pk, checkOutage);
    if !present then Ok(DeleteOutcome(false, false, store))
    else if deleteOutage.Some? then Err(RequestFailed(deleteOutage))
    else Ok(DeleteOutcome(true, true, store - {NormalizePublicKey(pk)}))
  }

  /** `storeValidatorKeyInVault`: a create-only write (`cas: 0`), which the
      store refuses when the key already has a value. */
  function StoreValidatorKey(store: Store, pk: string, value: string, outage: Option<int>): (r: Result<Store, VaultError>)
    ensures r.Ok? <==> outage.None? && NormalizePublicKey(pk) !in store
    ensures outage.Some? ==> r == Err(RequestFailed(outage))
    ensures outage.None? && r.Err? ==> r.error == CheckAndSetMismatch
    ensures r.Ok? ==> r.value.Keys == store.Keys + {NormalizePublicKey(pk)}
    ensures r.Ok? ==> r.value[NormalizePublicKey(pk)] == value
    ensures r.Ok? ==> forall k :: k in store ==> r.value[k] == store[k]
  {
    var key := NormalizePublicKey(pk);
    if outage.Some? then Err(RequestFailed(outage))
    else if key in store then Err(CheckAndSetMismatch)
    else Ok(store[key := value])
  }

  /** The three operations agree: after a store, the key exists, a second
      store is refused, and a delete reports and removes exactly it. */
  lemma StoreExistsDelete(store: Store, pk: string, value: string)
    requires NormalizePublicKey(pk) !in store
    ensures StoreValidatorKey(store, pk, value, None).Ok?
    ensures var s' := StoreValidatorKey(store, pk, value, None).value;
      && DoesValidatorKeyExist(s', pk, None) == Ok(true)
      && StoreValidatorKey(s', pk, value, None) == Err(CheckAndSetMismatch)
      && DeleteValidatorKey(s', pk, None, None) == Ok(DeleteOutcome(true, true, store))
  {
    var s' := StoreValidatorKey(store, pk, value, None).value;
    assert s' - {NormalizePublicKey(pk)} == store;
  }

  /** `emptyAllSecretsInConfiguredVaultPath` as written: each listed key is
      passed to `deleteValidatorKeyFromVault`, which normalises it again. */
  function EmptyAllSecrets(store: Store, listed: seq<string>): (r: Store)
    ensures r == store - set k | k in listed :: NormalizePublicKey(k)
    decreases |listed|
  {
    if |listed| == 0 then store
    else EmptyAllSecrets(DeleteValidatorKey(store, listed[0], None, None).value.store, listed[1..])
  }

  /** A secret stored for the key `0XAB` sits under `0x0xab`; the listing
      names it, but its normal form is `0xab`, so the wipe leaves it. */
  lemma WipeLeavesRenormalisedKey(value: string)
    ensures StoreValidatorKey(map[], "0XAB", value, None) == Ok(map["0x0xab" := value])
    ensures EmptyAllSecrets(map["0x0xab" := value], ["0x0xab"]) == map["0x0xab" := value]
  {
    UpperCasePrefixSurvives();
    var listed := ["0x0xab"];
    assert (set k | k in listed :: NormalizePublicKey(k)) == {"0xab"};
  }

  /** The wipe as evidently intended: every listed key is deleted under the
      name the store listed it by. */
  function EmptyAllSecretsListed(store: Store, listed: seq<string>): (r: Store)
    ensures r == store - set k | k in listed
    decreases |listed|
  {
    if |listed| == 0 then store
    else EmptyAllSecretsListed(store - {listed[0]}, listed[1..])
  }

  /** Listing every stored key and deleting them empties the store. */
  lemma WipeListedEmptiesStore(store: Store, listed: seq<string>)
    requires forall k :: k in store ==> k in listed
    ensures EmptyAllSecretsListed(store, listed) == map[]
  {
  }
}
